=== FILE: README.md ===
# warehouse-kiosk in Dafny

A Dafny model of the core of warehouse-kiosk. warehouse-kiosk is an Android launcher app that runs as
Device Owner and locks a warehouse handheld into a kiosk: only the kiosk itself, the apps an
administrator has enabled, and the system settings can run. The repository also has a Python script
that builds the device's provisioning QR payload. The model covers:

- **Start-up reconciliation.** `KioskSetupCoordinator` and the inline copy in `MainActivity.onCreate`
  decide whether kiosk policies must be re-applied. The policies make the kiosk the home launcher
  and set the lock-task features. The coordinator then persists the `initial_setup_completed` and
  `kiosk_mode_active` flags.
- **The device-owner manager** (`DeviceOwnerManager`). Its mutators are guarded by a device-owner
  check. It reads the feature mask and writes it only when it differs. It assigns the home launcher
  by clearing the current home's registrations and then registering the target.
- **The kiosk-mode observer of `MainActivity`.** For every (active, enabled apps) snapshot it sends
  the lock-task allowlist, then starts or stops lock task only on an edge.
- **The persisted desired state** (`KioskPreferences`): flags and strings with defaults, and the
  saved-APK-URL set, which holds one entry per package.
- **The app table** (`AppDao` over `AppEntity` rows) and the use cases and view model that fill and
  edit it.
- **Small rule sets:**
  - version comparison and the update record;
  - the admin password with its first-use default;
  - the five-tap overlay gesture;
  - URL validation and the install-state sequence;
  - the update screen, the auto-start label and the wallpaper state;
  - the boot-launch guard.
- **`provisioning/generate_qr.py`:**
  - the configuration key filter and the payload assembly;
  - the output-file name;
  - the apksigner digest turned into base 64 without padding, using the URL- and filename-safe
    alphabet of RFC 4648 section 5;
  - the skip rules of the configuration auto-update.

The Android authority is modelled in `Platform.Authority`, a class that stands for
DevicePolicyManager, ActivityManager and PackageManager:

- **Fixed inputs:** the caller's package, whether it is device owner, the resolved HOME activities
  with their system flag, and a failure input (the set of operations that throw).
- **Mutable state:** the enforced policy (allowlist, feature mask, persistent preferred HOME
  registrations, lock-task mode, lock-screen info) and a log of every call issued.

Properties about the order of calls are stated over that log. Kotlin flows and coroutines become
ordered sequences of snapshots, processed one at a time. SHA-256 is a function parameter assumed
injective. The GitHub fetch, the download, the install and apksigner are inputs that describe how
each call ends.

## Model


| member | source | states |
|---|---|---|
| Setup.ShouldRunSetup | app/src/main/java/com/warehouse/kiosk/domain/manager/KioskSetupCoordinator.kt:44-45 | setup is skipped exactly when not from provisioning, kiosk mode inactive and setup already completed |
| Setup.SetKioskPolicies | app/src/main/java/com/warehouse/kiosk/domain/manager/KioskSetupCoordinator.kt:98-117 | launcher calls strictly precede feature calls; a launcher failure returns its error with only launcher calls issued (features never attempted); success means the kiosk is home and the features are the default mask; allowlist and lock mode untouched |
| Setup.SetupWrites | app/src/main/java/com/warehouse/kiosk/domain/manager/KioskSetupCoordinator.kt:77-86 | initial_setup_completed is written iff setup is first-time, kiosk_mode_active iff it was false, each at most once |
| Setup.ExecuteSetup | app/src/main/java/com/warehouse/kiosk/domain/manager/KioskSetupCoordinator.kt:59-93 | the flag writes happen whatever the policy result; result is Success iff the policies passed, else Failed with the policy error |
| Setup.DetermineAndExecuteSetup | app/src/main/java/com/warehouse/kiosk/domain/manager/KioskSetupCoordinator.kt:30-54 | not device owner: NotDeviceOwner with store and authority unchanged; setup not due: Skipped with nothing written or called; otherwise both flags end true, the writes are exactly SetupWrites, and the result is ExecuteSetup's: Failed with the home step's error when that step fails, else Success iff the feature read and, when needed, the feature write succeed |
| DeviceOwner.DefaultFeaturesExactly | app/src/main/java/com/warehouse/kiosk/domain/manager/DeviceOwnerManager.kt:31-36 | the default mask is 61 and holds exactly HOME, OVERVIEW, SYSTEM_INFO, GLOBAL_ACTIONS, KEYGUARD |
| DeviceOwner.WriteFeaturesIfDifferent | app/src/main/java/com/warehouse/kiosk/domain/manager/DeviceOwnerManager.kt:92-104 | read the mask; the set call is issued iff the read mask differs; failure leaves the policy unchanged, success leaves the mask equal to the argument |
| DeviceOwner.SetLockTaskFeatures | app/src/main/java/com/warehouse/kiosk/domain/manager/DeviceOwnerManager.kt:86-106 | not device owner: failure with no call and no change; otherwise a set call appears iff the current mask differs; writes counted: one or none |
| DeviceOwner.SetLockTaskFeaturesTwice | app/src/main/java/com/warehouse/kiosk/domain/manager/DeviceOwnerManager.kt:92-104 | two calls with the same mask perform at most one write when writes succeed; after a passing first call the second passes and none is written if the mask already matched |
| DeviceOwner.SetLockTaskPackages | app/src/main/java/com/warehouse/kiosk/domain/manager/DeviceOwnerManager.kt:111-120 | not device owner: failure with no call; otherwise exactly one call carrying the list unchanged, which becomes the allowlist on success |
| DeviceOwner.DethroneCurrentHome | app/src/main/java/com/warehouse/kiosk/domain/manager/DeviceOwnerManager.kt:152-160 | resolve the current home, then clear its registrations; a failing clear is swallowed |
| DeviceOwner.WithoutOnlyPackage | app/src/main/java/com/warehouse/kiosk/domain/manager/DeviceOwnerManager.kt:155-158 | clearing the one package that owns every registration leaves none |
| DeviceOwner.DethroneEmpties | app/src/main/java/com/warehouse/kiosk/domain/manager/DeviceOwnerManager.kt:152-160 | with a single home package registered, dethroning it empties the registrations |
| DeviceOwner.SetHomeLauncher | app/src/main/java/com/warehouse/kiosk/domain/manager/DeviceOwnerManager.kt:146-168 | the clear comes before the add, never after; afterwards the target is home; from a single-home table the target is the only registration, even when it already was home |
| DeviceOwner.SetAsHomeLauncher | app/src/main/java/com/warehouse/kiosk/domain/manager/DeviceOwnerManager.kt:66-81 | fails exactly per HomeStepFailure (not device owner, query failing, no own launcher, resolve or add failing) and with that error; no own launcher or no device owner: policy unchanged; success: the registrations are the old ones minus the dethroned home's (unless the clear failed) plus the kiosk's own HOME activity, and the kiosk is home |
| DeviceOwner.SetLockScreenInfo | app/src/main/java/com/warehouse/kiosk/domain/manager/DeviceOwnerManager.kt:173-178 | not device owner: failure (the throw) with no call; otherwise one call and the info set on success |
| DeviceOwner.IsInLockTaskMode | app/src/main/java/com/warehouse/kiosk/domain/manager/DeviceOwnerManager.kt:60-61 | true iff the lock state is LOCKED or PINNED (not NONE) |
| Launchers.First | app/src/main/java/com/warehouse/kiosk/MainActivity.kt:152-162 | firstOrNull: None iff nothing matches, else the earliest match |
| Launchers.Filter | app/src/main/java/com/warehouse/kiosk/MainActivity.kt:152 | keeps exactly the matching launchers; its head is the first match |
| Launchers.FilterFilter | app/src/main/java/com/warehouse/kiosk/MainActivity.kt:152-155 | filtering the non-self candidates for system ones is one filter with both conditions |
| Launchers.PickSelfLauncher | app/src/main/java/com/warehouse/kiosk/MainActivity.kt:161-163 | the first launcher of the kiosk's own package, None iff there is none (also DeviceOwnerManager.kt:74-76) |
| Launchers.PickNonSelfLauncher | app/src/main/java/com/warehouse/kiosk/MainActivity.kt:151-159 | never the self package; the first system non-self launcher if any, else the first non-self one; None iff every launcher is the kiosk's |
| MainActivity.KioskActivityFeaturesExactly | app/src/main/java/com/warehouse/kiosk/MainActivity.kt:292-312 | the activity's mask is 29 = HOME, OVERVIEW, SYSTEM_INFO, GLOBAL_ACTIONS, and differs from the manager's default |
| MainActivity.PackageNames | app/src/main/java/com/warehouse/kiosk/MainActivity.kt:248 | the package names of the apps, position by position |
| MainActivity.AllowedPackages | app/src/main/java/com/warehouse/kiosk/MainActivity.kt:246-251 | the kiosk first; length 1 when inactive and enabled+2 when active; contains p iff p is the kiosk, or active and p is settings or an enabled package |
| MainActivity.OnKioskSnapshot | app/src/main/java/com/warehouse/kiosk/MainActivity.kt:241-258 | not device owner: nothing; else the allowlist call, then start iff active and unlocked, stop iff inactive and locked; the lock state ends equal to the active flag |
| MainActivity.ObserveKioskMode | app/src/main/java/com/warehouse/kiosk/MainActivity.kt:238-260 | over a snapshot sequence the call log is ObserverCalls; the lock state is the last snapshot's flag and the allowlist the last snapshot's |
| MainActivity.RepeatedSnapshotQuiet | app/src/main/java/com/warehouse/kiosk/MainActivity.kt:253-257 | an identical repeated snapshot only re-sends the allowlist: no start or stop |
| MainActivity.LockTogglesAppend | app/src/main/java/com/warehouse/kiosk/MainActivity.kt:253-257 | start/stop counts add up over concatenated logs |
| MainActivity.SnapshotToggles | app/src/main/java/com/warehouse/kiosk/MainActivity.kt:253-257 | one snapshot toggles lock task once iff its flag differs from the current lock state |
| MainActivity.TogglesAreEdges | app/src/main/java/com/warehouse/kiosk/MainActivity.kt:253-257 | over any snapshot sequence the number of starts and stops equals the number of changes of the desired state |
| MainActivity.SetHomeLauncher | app/src/main/java/com/warehouse/kiosk/MainActivity.kt:187-210 | no-op unless device owner; else the current home is cleared (failure dropped) and the target added only when non-null; then the target is home |
| MainActivity.KioskFeatureWriteWhenDifferent | app/src/main/java/com/warehouse/kiosk/MainActivity.kt:292-312 | the feature block writes once iff the read succeeds and the mask differs from the activity's set, else never |
| MainActivity.CrownSelf | app/src/main/java/com/warehouse/kiosk/MainActivity.kt:273-284 | with the launcher query's result, make the kiosk's own launcher home; a failed query does nothing |
| MainActivity.SetKioskPolicies | app/src/main/java/com/warehouse/kiosk/MainActivity.kt:268-358 | the call log is query, then the feature block, then the launcher step; the mask ends as the activity set unless the read or a needed write fails; home becomes the kiosk when the launcher step can succeed |
| MainActivity.KioskPoliciesWriteFeaturesOnce | app/src/main/java/com/warehouse/kiosk/MainActivity.kt:268-358 | one run writes the features at most once, exactly when they differ |
| MainActivity.BooleanExtra | app/src/main/java/com/warehouse/kiosk/MainActivity.kt:73 | getBooleanExtra(name, false): true iff present and true |
| MainActivity.UiFlags.constructor | app/src/main/java/com/warehouse/kiosk/MainActivity.kt:37-41 | both global UI flags start false |
| MainActivity.HandleIntent | app/src/main/java/com/warehouse/kiosk/MainActivity.kt:225-236 | raises the password flag iff the extra is set and the reset flag iff ACTION_MAIN with CATEGORY_HOME; never lowers either |
| MainActivity.OnCreate | app/src/main/java/com/warehouse/kiosk/MainActivity.kt:53-141 | observer started iff device owner; skip path writes nothing; run path writes each flag only if it was false and leaves both true; the intent is handled in every case |
| Preferences.BoolOrFalse | app/src/main/java/com/warehouse/kiosk/data/preferences/KioskPreferences.kt:38-40 | an absent boolean reads false |
| Preferences.StringOrEmpty | app/src/main/java/com/warehouse/kiosk/data/preferences/KioskPreferences.kt:86-88 | an absent string reads "" |
| Preferences.FirstFor | app/src/main/java/com/warehouse/kiosk/data/preferences/KioskPreferences.kt:135-141 | the first stored string decoding to an entry for the package; None iff there is none |
| Preferences.DecodeAll | app/src/main/java/com/warehouse/kiosk/data/preferences/KioskPreferences.kt:121-126 | keeps exactly the strings that decode, dropping the rest |
| Preferences.SavedApkUrlList | app/src/main/java/com/warehouse/kiosk/data/preferences/KioskPreferences.kt:119-128 | the decodable entries, as a permutation of the stored ones |
| Preferences.SavedApkUrlListSorted | app/src/main/java/com/warehouse/kiosk/data/preferences/KioskPreferences.kt:119-128 | the list is in descending timestamp order and holds exactly the stored decodable entries |
| Preferences.RemoveAt | app/src/main/java/com/warehouse/kiosk/data/preferences/KioskPreferences.kt:141 | removing one element keeps the others |
| Preferences.AddedUrls | app/src/main/java/com/warehouse/kiosk/data/preferences/KioskPreferences.kt:130-148 | the new entry is present; everything else came from the set; entries of other packages survive |
| Preferences.RemovedUrls | app/src/main/java/com/warehouse/kiosk/data/preferences/KioskPreferences.kt:150-167 | None (nothing written) iff the set is absent or has no entry for the package; else one element fewer, others kept |
| Preferences.RemoveAtKeeps | app/src/main/java/com/warehouse/kiosk/data/preferences/KioskPreferences.kt:141 | removal keeps the set duplicate-free and one entry per package |
| Preferences.WithoutFirstFor | app/src/main/java/com/warehouse/kiosk/data/preferences/KioskPreferences.kt:135-141 | with one entry per package, removing the first for pkg leaves none for pkg |
| Preferences.AppendFresh | app/src/main/java/com/warehouse/kiosk/data/preferences/KioskPreferences.kt:143-146 | adding an entry for a package not present keeps the invariant |
| Preferences.AddReplacesEntry | app/src/main/java/com/warehouse/kiosk/data/preferences/KioskPreferences.kt:130-148 | addSavedApkUrl preserves at most one entry per package; the decoded entries become the old ones of other packages plus the new one |
| Preferences.RemoveDropsEntry | app/src/main/java/com/warehouse/kiosk/data/preferences/KioskPreferences.kt:150-167 | removal drops exactly the package's entry |
| Preferences.KioskPreferences.constructor | app/src/main/java/com/warehouse/kiosk/data/preferences/KioskPreferences.kt:18-35 | the store starts as given with no writes |
| Preferences.KioskPreferences.SetKioskModeActive | app/src/main/java/com/warehouse/kiosk/data/preferences/KioskPreferences.kt:38-46 | reading back gives the value written; the other keys unchanged |
| Preferences.KioskPreferences.SetInitialSetupCompleted | app/src/main/java/com/warehouse/kiosk/data/preferences/KioskPreferences.kt:49-57 | reading back gives the value written; the other keys unchanged |
| Preferences.KioskPreferences.SetPasswordHash | app/src/main/java/com/warehouse/kiosk/data/preferences/KioskPreferences.kt:60-68 | reading back gives the hash written; the other keys unchanged |
| Preferences.KioskPreferences.SetAutoStartAppPackage | app/src/main/java/com/warehouse/kiosk/data/preferences/KioskPreferences.kt:71-83 | a package is stored; null removes the key, so a later read gives null |
| Preferences.KioskPreferences.SetStaffName | app/src/main/java/com/warehouse/kiosk/data/preferences/KioskPreferences.kt:86-94 | reading back gives the name written; the other keys unchanged |
| Preferences.KioskPreferences.SetLocationName | app/src/main/java/com/warehouse/kiosk/data/preferences/KioskPreferences.kt:97-105 | reading back gives the location written; the other keys unchanged |
| Preferences.KioskPreferences.SetSaveUrlEnabled | app/src/main/java/com/warehouse/kiosk/data/preferences/KioskPreferences.kt:108-116 | reading back gives the flag written; the other keys unchanged |
| Preferences.KioskPreferences.AddSavedApkUrl | app/src/main/java/com/warehouse/kiosk/data/preferences/KioskPreferences.kt:130-148 | the set becomes AddedUrls of it (absent read as empty), always written; the entry is then listed |
| Preferences.KioskPreferences.RemoveSavedApkUrl | app/src/main/java/com/warehouse/kiosk/data/preferences/KioskPreferences.kt:150-167 | nothing written when there is no set or no match; otherwise the matching entry is removed |
| AppDao.Unclashing | app/src/main/java/com/warehouse/kiosk/data/database/AppDao.kt:19-20 | the rows surviving a REPLACE: those sharing neither key nor package |
| AppDao.UnclashingUnique | app/src/main/java/com/warehouse/kiosk/data/database/AppEntity.kt:8-14 | removing clashing rows keeps keys and packages unique |
| AppDao.UpsertValid | app/src/main/java/com/warehouse/kiosk/data/database/AppEntity.kt:8-14 | one replacing insert keeps key and package_name unique |
| AppDao.AppendValid | app/src/main/java/com/warehouse/kiosk/data/database/AppEntity.kt:8-14 | appending a non-clashing row keeps the table valid |
| AppDao.UpsertContents | app/src/main/java/com/warehouse/kiosk/data/database/AppDao.kt:19-20 | the inserted values are stored under their key; non-clashing rows are kept; nothing else appears |
| AppDao.InsertedAllValid | app/src/main/java/com/warehouse/kiosk/data/database/AppEntity.kt:8-14 | insertAll keeps package_name unique |
| AppDao.InsertedAllKeeps | app/src/main/java/com/warehouse/kiosk/data/database/AppDao.kt:19-20 | a row clashing with no inserted row survives insertAll |
| AppDao.InsertedAllCarries | app/src/main/java/com/warehouse/kiosk/data/database/AppDao.kt:19-20 | after insertAll each inserted package has one row carrying the inserted values |
| AppDao.CarriedThroughUpsert | app/src/main/java/com/warehouse/kiosk/data/database/AppDao.kt:19-20 | a later insert of another package keeps an inserted row |
| AppDao.InsertedAllFrom | app/src/main/java/com/warehouse/kiosk/data/database/AppDao.kt:19-20 | every row afterwards was stored before or is an inserted row |
| AppDao.KeptThroughUpsert | app/src/main/java/com/warehouse/kiosk/data/database/AppDao.kt:19-20 | a generated-key insert of another package keeps a stored row |
| AppDao.InsertedAllCovers | app/src/main/java/com/warehouse/kiosk/data/database/AppDao.kt:19-20 | inserting rows asking for generated keys leaves a row for each of their packages |
| AppDao.CoveredThroughUpsert | app/src/main/java/com/warehouse/kiosk/data/database/AppDao.kt:19-20 | one generated-key insert covers its package and keeps the others covered |
| AppDao.RowFor | app/src/main/java/com/warehouse/kiosk/data/database/AppDao.kt:25-26 | the package's row, None iff there is none |
| AppDao.Updated | app/src/main/java/com/warehouse/kiosk/data/database/AppDao.kt:22-23 | the row with the key takes the new values, the others stay |
| AppDao.UpdateValid | app/src/main/java/com/warehouse/kiosk/data/database/AppEntity.kt:8-14 | a non-clashing update keeps the table valid |
| AppDao.ByNamePreorder | app/src/main/java/com/warehouse/kiosk/data/database/AppDao.kt:13 | ordering by app_name is total and transitive |
| AppDao.EnabledRows | app/src/main/java/com/warehouse/kiosk/data/database/AppDao.kt:16 | exactly the enabled rows |
| AppDao.AllApps | app/src/main/java/com/warehouse/kiosk/data/database/AppDao.kt:13-14 | every row, as a permutation |
| AppDao.EnabledApps | app/src/main/java/com/warehouse/kiosk/data/database/AppDao.kt:16-17 | the enabled rows, as a permutation |
| AppDao.AllAppsSorted | app/src/main/java/com/warehouse/kiosk/data/database/AppDao.kt:13-14 | getAllApps is ordered by app_name and holds exactly the rows |
| AppDao.EnabledAppsExactly | app/src/main/java/com/warehouse/kiosk/data/database/AppDao.kt:13-17 | getEnabledApps is ordered by name and holds exactly the enabled rows of getAllApps, a subset |
| AppDao.EnabledRowsShorter | app/src/main/java/com/warehouse/kiosk/data/database/AppDao.kt:16 | no more enabled rows than rows |
| AppDao.AppTable.constructor | app/src/main/java/com/warehouse/kiosk/data/database/AppDao.kt:10-11 | the table starts empty and valid |
| AppDao.AppTable.GetAllApps | app/src/main/java/com/warehouse/kiosk/data/database/AppDao.kt:13-14 | every row, ordered by name |
| AppDao.AppTable.GetEnabledApps | app/src/main/java/com/warehouse/kiosk/data/database/AppDao.kt:16-17 | the enabled rows, ordered by name |
| AppDao.AppTable.GetAppByPackageName | app/src/main/java/com/warehouse/kiosk/data/database/AppDao.kt:25-26 | the package's row, or null if there is none |
| AppDao.AppTable.InsertAll | app/src/main/java/com/warehouse/kiosk/data/database/AppDao.kt:19-20 | the table becomes InsertedAll of the old one and stays valid |
| AppDao.AppTable.UpdateApp | app/src/main/java/com/warehouse/kiosk/data/database/AppDao.kt:22-23 | fails iff the new package clashes with another row (nothing changes); else the keyed row takes the new values |
| AppDao.AppTable.ClearAll | app/src/main/java/com/warehouse/kiosk/data/database/AppDao.kt:28-29 | the table is empty; both queries return nothing |
| AppLists.GetInstalledApps | app/src/main/java/com/warehouse/kiosk/domain/usecase/GetInstalledAppsUseCase.kt:12-33 | never the kiosk nor settings; every entity is new and disabled; holds an entity for exactly the offered activities |
| AppLists.GetInstalledAppsAppend | app/src/main/java/com/warehouse/kiosk/domain/usecase/GetInstalledAppsUseCase.kt:20-31 | the mapping distributes over concatenation: query order is kept, one entity per activity |
| AppLists.NewApps | app/src/main/java/com/warehouse/kiosk/domain/usecase/RefreshInstalledAppsUseCase.kt:26-28 | exactly the system apps whose package matches no row |
| AppLists.NewAppsAppend | app/src/main/java/com/warehouse/kiosk/domain/usecase/RefreshInstalledAppsUseCase.kt:26 | the new apps keep the system list's relative order |
| AppLists.NewAppsSameMembers | app/src/main/java/com/warehouse/kiosk/domain/usecase/RefreshInstalledAppsUseCase.kt:26-28 | the filter depends only on the rows' membership |
| AppLists.InsertingNewApps | app/src/main/java/com/warehouse/kiosk/domain/usecase/RefreshInstalledAppsUseCase.kt:31-33 | inserting the new apps keeps every stored row and leaves a row for every system package |
| AppLists.InsertNewApps | app/src/main/java/com/warehouse/kiosk/domain/usecase/RefreshInstalledAppsUseCase.kt:31-33 | no insert when there is nothing new; else insertAll of the new apps; stored rows, and their isEnabled, kept |
| AppLists.RefreshInstalledApps | app/src/main/java/com/warehouse/kiosk/domain/usecase/RefreshInstalledAppsUseCase.kt:18-34 | every offered package ends with a row; stored rows kept; added rows disabled |
| AppSelection.Toggled | app/src/main/java/com/warehouse/kiosk/presentation/app_selection/AppSelectionViewModel.kt:45-53 | same length; only isEnabled of entries with the id changes |
| AppSelection.ToggleBack | app/src/main/java/com/warehouse/kiosk/presentation/app_selection/AppSelectionViewModel.kt:44-55 | toggling and toggling back restores the list |
| AppSelection.AppSelectionViewModel.constructor | app/src/main/java/com/warehouse/kiosk/presentation/app_selection/AppSelectionViewModel.kt:24-30 | empty lists, nothing unsaved |
| AppSelection.AppSelectionViewModel.OnAllAppsEmission | app/src/main/java/com/warehouse/kiosk/presentation/app_selection/AppSelectionViewModel.kt:32-42 | the original list is captured only while empty; every emission resets unsaved |
| AppSelection.AppSelectionViewModel.OnAppEnableChanged | app/src/main/java/com/warehouse/kiosk/presentation/app_selection/AppSelectionViewModel.kt:44-55 | the list is toggled; unsaved iff it differs from the original |
| AppSelection.AppSelectionViewModel.SaveChanges | app/src/main/java/com/warehouse/kiosk/presentation/app_selection/AppSelectionViewModel.kt:57-63 | persists the list with insertAll; original := current; unsaved := false |
| AppSelection.AppSelectionViewModel.RefreshAppList | app/src/main/java/com/warehouse/kiosk/presentation/app_selection/AppSelectionViewModel.kt:65-80 | inserts exactly the new system apps; then state == original == the table list, nothing unsaved |
| AppSelection.ToggleTwice | app/src/main/java/com/warehouse/kiosk/presentation/app_selection/AppSelectionViewModel.kt:54 | toggling an unedited list and back clears the unsaved flag |
| Admin.FindIndex | app/src/main/java/com/warehouse/kiosk/presentation/admin/AdminViewModel.kt:35 | the first app with the package, None iff none |
| Admin.AutoStartAppName | app/src/main/java/com/warehouse/kiosk/presentation/admin/AdminViewModel.kt:30-37 | "None" for a null package or no match; else the first match's name |
| Admin.AutoStartNameFromTable | app/src/main/java/com/warehouse/kiosk/presentation/admin/AdminViewModel.kt:30-37 | over the table, the label is the name of that package's row |
| Admin.AdminViewModel.constructor | app/src/main/java/com/warehouse/kiosk/presentation/admin/AdminViewModel.kt:44 | the wallpaper state starts Idle |
| Admin.AdminViewModel.SetWallpaper | app/src/main/java/com/warehouse/kiosk/presentation/admin/AdminViewModel.kt:47-59 | Loading, then Success or Error(message or the fallback) |
| Admin.AdminViewModel.ResetWallpaperState | app/src/main/java/com/warehouse/kiosk/presentation/admin/AdminViewModel.kt:61-63 | back to Idle |
| AppUpdates.CheckResultState | app/src/main/java/com/warehouse/kiosk/presentation/app_updates/AppUpdatesViewModel.kt:34-45 | Error iff the fetch failed; UpToDate carries the current version; UpdateAvailable only when an update is available |
| AppUpdates.SameVersionIsUpToDate | app/src/main/java/com/warehouse/kiosk/presentation/app_updates/AppUpdatesViewModel.kt:34-45 | a release tagged with the running version shows UpToDate |
| AppUpdates.FetchFailureShown | app/src/main/java/com/warehouse/kiosk/presentation/app_updates/AppUpdatesViewModel.kt:42-44 | a failed fetch shows its message or "Unknown error" |
| AppUpdates.InstallStates | app/src/main/java/com/warehouse/kiosk/presentation/app_updates/AppUpdatesViewModel.kt:52-77 | starts Downloading(0); Installing follows a finished download; ends InstallSuccess iff downloaded and installed |
| AppUpdates.AppUpdatesViewModel.constructor | app/src/main/java/com/warehouse/kiosk/presentation/app_updates/AppUpdatesViewModel.kt:22 | the state starts Idle |
| AppUpdates.AppUpdatesViewModel.CheckForUpdates | app/src/main/java/com/warehouse/kiosk/presentation/app_updates/AppUpdatesViewModel.kt:28-47 | Checking, then the result state; no repository operation |
| AppUpdates.AppUpdatesViewModel.DownloadAndInstall | app/src/main/java/com/warehouse/kiosk/presentation/app_updates/AppUpdatesViewModel.kt:52-77 | the states are InstallStates; cleanup follows every install, whatever its result |
| AppUpdates.AppUpdatesViewModel.ResetState | app/src/main/java/com/warehouse/kiosk/presentation/app_updates/AppUpdatesViewModel.kt:82-84 | back to Idle |
| Install.InstallStatesWellFormed | app/src/main/java/com/warehouse/kiosk/domain/usecase/DownloadAndInstallApkUseCase.kt:38-86 | exactly one terminal state, last; a valid URL starts with Downloading(0) and no other progress value |
| Install.SuccessExactly | app/src/main/java/com/warehouse/kiosk/domain/usecase/DownloadAndInstallApkUseCase.kt:66-77 | Success is emitted iff the URL is valid, the download returns and the install returns true |
| Install.EffectsOrdered | app/src/main/java/com/warehouse/kiosk/domain/usecase/DownloadAndInstallApkUseCase.kt:54-85 | a rejected URL downloads nothing; every install is followed by a cleanup; no install after a failed download |
| Install.DownloadAndInstall | app/src/main/java/com/warehouse/kiosk/domain/usecase/DownloadAndInstallApkUseCase.kt:38-86 | the run is InstallTrace: its emitted states are InstallStates and its repository operations InstallEffects |
| Install.TraceProjections | app/src/main/java/com/warehouse/kiosk/domain/usecase/DownloadAndInstallApkUseCase.kt:38-86 | the states of the interleaved run are InstallStates and its operations InstallEffects, for every input |
| Install.TerminalBeforeCleanup | app/src/main/java/com/warehouse/kiosk/domain/usecase/DownloadAndInstallApkUseCase.kt:66-80 | the cleanup of the file comes right after the terminal state, which comes right after the install of the same file |
| Install.RejectedUrls | app/src/main/java/com/warehouse/kiosk/domain/usecase/DownloadAndInstallApkUseCase.kt:43-51 | for every URL, download and install outcome: a blank URL emits only the empty-URL error, a non-blank non-http(s) one only the format error, and neither touches the repository |
| Overlay.Tap | app/src/main/java/com/warehouse/kiosk/services/OverlayService.kt:56-73 | a gap over 2000 ms restarts at 1, exactly 2000 does not; the time is recorded; launch iff the count reaches 5, which resets it to 0; the count stays in 0..4 |
| Overlay.TapAll | app/src/main/java/com/warehouse/kiosk/services/OverlayService.kt:56-73 | a series of taps keeps the count in 0..4 |
| Overlay.QuickTapsCount | app/src/main/java/com/warehouse/kiosk/services/OverlayService.kt:58-63 | fewer than five quick taps from 0 count up without launching |
| Overlay.FiveQuickTapsOpenOnce | app/src/main/java/com/warehouse/kiosk/services/OverlayService.kt:56-73 | five quick taps from 0 launch exactly once and reset the count |
| Overlay.WindowBoundary | app/src/main/java/com/warehouse/kiosk/services/OverlayService.kt:58-62 | a gap of exactly 2000 ms still counts; 2001 restarts |
| Overlay.OverlayService.constructor | app/src/main/java/com/warehouse/kiosk/services/OverlayService.kt:19-20 | starts at (0, 0) |
| Overlay.OverlayService.HandleGestureDetection | app/src/main/java/com/warehouse/kiosk/services/OverlayService.kt:56-73 | the fields follow Tap; the launched intent is the password-dialog intent |
| Overlay.DeliveredTaps | app/src/main/java/com/warehouse/kiosk/services/OverlayService.kt:39 | a window with FLAG_NOT_TOUCHABLE delivers no taps; any other window delivers all of them |
| Overlay.OverlayNeverOpens | app/src/main/java/com/warehouse/kiosk/services/OverlayService.kt:39-47 | as written: whatever the taps, the gesture state is unchanged and no dialog opens |
| Overlay.TouchableOverlayOpens | app/src/main/java/com/warehouse/kiosk/services/OverlayService.kt:47-72 | corrected: on a touchable window five quick taps open the dialog exactly once |
| Password.Accepts | app/src/main/java/com/warehouse/kiosk/presentation/password/PasswordViewModel.kt:42-57 | before first use exactly "1234" passes; after it, exactly a password with the stored hash |
| Password.OnlyDefaultAfterFirstUse | app/src/main/java/com/warehouse/kiosk/presentation/password/PasswordViewModel.kt:42-57 | with an injective hash, after the default is stored only the default passes |
| Password.PasswordViewModel.constructor | app/src/main/java/com/warehouse/kiosk/presentation/password/PasswordViewModel.kt:21-32 | the state starts (null, null) |
| Password.PasswordViewModel.OnPasswordEntered | app/src/main/java/com/warehouse/kiosk/presentation/password/PasswordViewModel.kt:38-60 | first use: "1234" stores its hash and succeeds, else "Incorrect default password", nothing stored; later: success iff hashes match, never a write; copy semantics |
| Password.PasswordViewModel.ConsumeEvents | app/src/main/java/com/warehouse/kiosk/presentation/password/PasswordViewModel.kt:62-64 | back to (null, null) |
| Password.FirstUseThenAgain | app/src/main/java/com/warehouse/kiosk/presentation/password/PasswordViewModel.kt:38-60 | after the default on first use, only the default passes again |
| Boot.OnReceive | app/src/main/java/com/warehouse/kiosk/services/BootReceiver.kt:22-38 | ignored unless BOOT_COMPLETED with a context; started iff kiosk active, a package set and it has a launch intent; the store is only read |
| Versions.ToIntOrNull | app/src/main/java/com/warehouse/kiosk/data/repository/UpdateRepository.kt:99-100 | a value is within Int range; "", "-" and "+" read as null |
| Versions.DecimalStringValue | app/src/main/java/com/warehouse/kiosk/data/repository/UpdateRepository.kt:99-100 | the decimal spelling of n has value n |
| Versions.ToIntOrNullOfIntString | app/src/main/java/com/warehouse/kiosk/data/repository/UpdateRepository.kt:99-100 | toIntOrNull inverts the spelling of every Int |
| Versions.ToIntOrNullOverflow | app/src/main/java/com/warehouse/kiosk/data/repository/UpdateRepository.kt:99-100 | out of Int range reads as null |
| Versions.PartValues | app/src/main/java/com/warehouse/kiosk/data/repository/UpdateRepository.kt:99-100 | one value per component |
| Versions.Parts | app/src/main/java/com/warehouse/kiosk/data/repository/UpdateRepository.kt:99-100 | one component per dot plus one |
| Versions.CompareFrom | app/src/main/java/com/warehouse/kiosk/data/repository/UpdateRepository.kt:104-113 | the result is -1, 0 or 1 |
| Versions.CompareVersions | app/src/main/java/com/warehouse/kiosk/data/repository/UpdateRepository.kt:98-114 | compareVersions equals Compare of the components |
| Versions.CompareParts | app/src/main/java/com/warehouse/kiosk/data/repository/UpdateRepository.kt:102-113 | the index loop equals Compare |
| Versions.CompareFromZero | app/src/main/java/com/warehouse/kiosk/data/repository/UpdateRepository.kt:102-113 | equal components from i on compare 0 |
| Versions.CompareZeroIff | app/src/main/java/com/warehouse/kiosk/data/repository/UpdateRepository.kt:102-113 | 0 iff every component agrees, missing ones read as 0 |
| Versions.CompareReflexive | app/src/main/java/com/warehouse/kiosk/data/repository/UpdateRepository.kt:98-114 | compareVersions(v, v) == 0 |
| Versions.TrailingZerosIgnored | app/src/main/java/com/warehouse/kiosk/data/repository/UpdateRepository.kt:104-106 | trailing zeros change nothing: "1.0" equals "1.0.0" |
| Versions.FirstDifferenceDecides | app/src/main/java/com/warehouse/kiosk/data/repository/UpdateRepository.kt:104-113 | the first differing component decides the sign |
| Versions.CompareFromAntisymmetric | app/src/main/java/com/warehouse/kiosk/data/repository/UpdateRepository.kt:104-113 | swapping the arguments negates the result from any index |
| Versions.CompareAntisymmetric | app/src/main/java/com/warehouse/kiosk/data/repository/UpdateRepository.kt:98-114 | sign(cmp(a, b)) == -sign(cmp(b, a)) |
| Versions.CompareFromTransitive | app/src/main/java/com/warehouse/kiosk/data/repository/UpdateRepository.kt:104-113 | older-than is transitive from any index |
| Versions.CompareTransitive | app/src/main/java/com/warehouse/kiosk/data/repository/UpdateRepository.kt:98-114 | older-than is transitive |
| Versions.FirstApkIndex | app/src/main/java/com/warehouse/kiosk/data/repository/UpdateRepository.kt:45-47 | the first asset ending in ".apk" ignoring case; None iff there is none |
| Versions.CheckForUpdates | app/src/main/java/com/warehouse/kiosk/data/repository/UpdateRepository.kt:36-67 | failure passes the error on; latestVersion is the tag with one "v" removed; the URL and size are the first APK asset's or null |
| Versions.SameVersionNotAnUpdate | app/src/main/java/com/warehouse/kiosk/data/repository/UpdateRepository.kt:42-49 | a tag of "v" + the running version is not an update |
| Versions.UpdateAvailableIffNewer | app/src/main/java/com/warehouse/kiosk/data/repository/UpdateRepository.kt:49 | an update is available iff compareVersions(current, latest) < 0 |
| Text.RemovePrefix | app/src/main/java/com/warehouse/kiosk/data/repository/UpdateRepository.kt:42 | drops the prefix once when present, else keeps the string |
| Text.Split | app/src/main/java/com/warehouse/kiosk/data/repository/UpdateRepository.kt:99 | one piece per separator plus one; no piece contains it |
| Text.JoinSplit | app/src/main/java/com/warehouse/kiosk/data/repository/UpdateRepository.kt:99 | gluing the pieces back gives the input |
| Text.StrLeTotal | app/src/main/java/com/warehouse/kiosk/data/database/AppDao.kt:13 | the name order is total |
| Text.StrLeTransitive | app/src/main/java/com/warehouse/kiosk/data/database/AppDao.kt:13 | the name order is transitive |
| Sorting.Insert | app/src/main/java/com/warehouse/kiosk/data/database/AppDao.kt:13 | inserting adds exactly the element |
| Sorting.SortBy | app/src/main/java/com/warehouse/kiosk/data/preferences/KioskPreferences.kt:127 | sorting is a permutation |
| Sorting.InsertSorted | app/src/main/java/com/warehouse/kiosk/data/database/AppDao.kt:13 | inserting into a sorted list keeps it sorted |
| Sorting.SortBySorted | app/src/main/java/com/warehouse/kiosk/data/database/AppDao.kt:13 | under a total preorder the result is sorted (ORDER BY, sortedByDescending) |
| Sorting.InsertTies | app/src/main/java/com/warehouse/kiosk/data/preferences/KioskPreferences.kt:127 | inserting x puts it after the elements already tied with it |
| Sorting.SortByStable | app/src/main/java/com/warehouse/kiosk/data/preferences/KioskPreferences.kt:127 | the sort is stable: the elements tied with any y come out in input order |
| Base64.Digit | provisioning/generate_qr.py:169-170 | an alphabet character is never "=" |
| Base64.Sextet | provisioning/generate_qr.py:169 | a 6-bit group is below 64 |
| Base64.EncodeGroup | provisioning/generate_qr.py:169 | a group gives its bytes + 1 characters, or 4 padded |
| Base64.Encode | provisioning/generate_qr.py:169-170 | unpadded output has no "=" |
| Base64.UrlEncodeNoPadLength | provisioning/generate_qr.py:169-170 | unpadded output has ceil(4n/3) characters |
| Base64.Replace | provisioning/generate_qr.py:170 | str.replace of one character |
| Base64.RStrip | provisioning/generate_qr.py:170 | str.rstrip: the longest prefix not ending in the character |
| Base64.ToUrlAlphabetAppend | provisioning/generate_qr.py:170 | the alphabet swap distributes over concatenation |
| Base64.ToUrlAlphabetGroup | provisioning/generate_qr.py:170 | the swap turns an RFC 4648 section 4 group into an RFC 4648 section 5 group |
| Base64.ToUrlAlphabetEncode | provisioning/generate_qr.py:169-170 | swapping "+/" for "-_" turns the RFC 4648 section 4 encoding into the RFC 4648 section 5 encoding |
| Base64.GroupPadding | provisioning/generate_qr.py:169-170 | a padded group is the unpadded one plus its padding |
| Base64.PaddedIsUnpaddedPlusPadding | provisioning/generate_qr.py:169-170 | a padded encoding is the unpadded one plus the padding |
| Base64.RStripPadding | provisioning/generate_qr.py:170 | rstrip('=') removes exactly the padding |
| Base64.UrlSafeIsUrlEncodeNoPad | provisioning/generate_qr.py:169-170 | the script's step equals unpadded RFC 4648 section 5 base 64 of the bytes |
| Base64.UrlEncodeAlphabet | provisioning/generate_qr.py:169-170 | the output has no "+", "/" or "=" |
| Base64.UrlEncodeAlphabetFrom | provisioning/generate_qr.py:169-170 | no "+" or "/" at any position |
| Provisioning.LoadJsonFilter | provisioning/generate_qr.py:42-44 | keeps exactly the keys not starting with "_" plus "_github_repo", values unchanged |
| Provisioning.PayloadBase | provisioning/generate_qr.py:240-241 | keeps exactly the keys not starting with "_", values unchanged |
| Provisioning.PayloadDropsMetadata | provisioning/generate_qr.py:240-241 | loading then building the payload drops every "_" key, "_github_repo" included |
| Provisioning.ProvisioningKeyNotComment | provisioning/generate_qr.py:240-241 | a provisioning key never starts with "_" |
| Provisioning.ProvisioningKeys | provisioning/generate_qr.py:265-282 | the constant keys carry the provisioning prefix |
| Provisioning.WifiEntries | provisioning/generate_qr.py:265-268 | exactly the profile's keys with the WiFi prefix |
| Provisioning.OutputName | provisioning/generate_qr.py:229-234 | the location id by default; ".png" appended exactly when missing |
| Provisioning.Run | provisioning/generate_qr.py:165 | the longest prefix of [a-f0-9 ] characters |
| Provisioning.DigestFrom | provisioning/generate_qr.py:165 | a match group is non-empty and made of [a-f0-9 ] |
| Provisioning.LineDigest | provisioning/generate_qr.py:163-167 | only a signer line yields a digest, made of hex digits |
| Provisioning.RemoveSpaces | provisioning/generate_qr.py:167 | drops exactly the spaces |
| Provisioning.FirstDigest | provisioning/generate_qr.py:163-172 | the first digest is hex digits |
| Provisioning.HexValue | provisioning/generate_qr.py:168 | a hex digit's value is below 16 |
| Provisioning.HexChar | provisioning/generate_qr.py:168 | the digit of a value reads back as it |
| Provisioning.FromHex | provisioning/generate_qr.py:168 | bytes.fromhex halves the length |
| Provisioning.ToHex | provisioning/generate_qr.py:168 | two hex digits per byte |
| Provisioning.FromHexToHex | provisioning/generate_qr.py:168 | fromhex inverts the hex spelling |
| Provisioning.ChecksumOf | provisioning/generate_qr.py:147-182 | a checksum has no "+", "/" or "=" |
| Provisioning.CalculateChecksum | provisioning/generate_qr.py:147-182 | the line loop returns ChecksumOf the output |
| Provisioning.SplitWithoutSeparator | provisioning/generate_qr.py:163 | one line without a newline splits to itself |
| Provisioning.RemoveSpacesOfHex | provisioning/generate_qr.py:167 | hex digits have no spaces to remove |
| Provisioning.RunOfHex | provisioning/generate_qr.py:165 | the run of a hex string is all of it |
| Provisioning.NoEarlyColon | provisioning/generate_qr.py:164-165 | the signer line's only early ':' is the digest mark's |
| Provisioning.SignerLineDigest | provisioning/generate_qr.py:165 | the regex group of a signer line is its hex digest |
| Provisioning.SignerLineShape | provisioning/generate_qr.py:163-164 | a signer line contains the mark and no newline |
| Provisioning.SignerLineChecksum | provisioning/generate_qr.py:163-172 | a 32-byte digest line gives its 43-character unpadded RFC 4648 section 5 encoding |
| Provisioning.WifiChoice | provisioning/generate_qr.py:253-258 | none with no_wifi; the given profile; else the location's recommended one |
| Provisioning.SelectWifi | provisioning/generate_qr.py:258-269 | fails iff the chosen id is unknown (or the profile is unusable); else exactly its WiFi entries |
| Provisioning.AdminExtras | provisioning/generate_qr.py:286-292 | exactly warehouse_id, wms_apk_url (default "") and location_name |
| Provisioning.AssembledHasNoCommentKey | provisioning/generate_qr.py:240-292 | an assembled payload has no "_" key |
| Provisioning.UpdatesAssemble | provisioning/generate_qr.py:240-292 | the in-place updates, in their order, assemble the payload |
| Provisioning.GenerateQr | provisioning/generate_qr.py:216-319 | aborts iff Problem, with its error, in the script's order: unknown location, location without "name", unknown WiFi profile or one without "name" or the SSID key, a failing checksum for a given APK, location without "warehouse_id"; else the name and the payload: base, WiFi, apk_path sets the signature checksum, apk_url the download location, admin extras |
| Provisioning.DecideUpdate | provisioning/generate_qr.py:79-98 | skip without a repo, without a latest URL, or when the URL is current; otherwise fetch that URL |
| Provisioning.DistinctKeys | provisioning/generate_qr.py:137-138 | the rewritten keys are distinct and none is a comment key |
| Provisioning.RewriteLeavesSignatureChecksumStale | provisioning/generate_qr.py:137-138 | as written, the payload after a rewrite keeps the old signature checksum |
| Provisioning.StaleChecksumExample | provisioning/generate_qr.py:137-138 | old checksum "A", new digest "B": the payload still says "A" |
| Provisioning.RewriteRefreshesPayload | provisioning/generate_qr.py:137-138 | corrected: the payload carries the new URL and the new signature checksum, the rest unchanged |
| Provisioning.AutoUpdate | provisioning/generate_qr.py:104-138 | as written: kept exactly when a skip rule applies; failed exactly when the download raises or the digest's hex is odd; exits exactly when apksigner gives no output or no signer line carries a digest (the `sys.exit` is not caught); rewritten with the URL and the checksum under the package-checksum key |
| Provisioning.AutoUpdateCorrected | provisioning/generate_qr.py:104-138 | the same outcome in every case, except that a rewrite stores the checksum under the signature-checksum key |
| Provisioning.CurrentAfterRewrite | provisioning/generate_qr.py:80-98 | setting the download location to the fetched URL, with a checksum under any other key, makes that release current |
| Provisioning.RewrittenIsCurrent | provisioning/generate_qr.py:96-98 | after the as-written rewrite the same release is seen as current |
| Provisioning.RewrittenIsCurrentCorrected | provisioning/generate_qr.py:96-98 | after the corrected rewrite the same release is seen as current |
| Provisioning.AutoUpdateLeavesPayloadStale | provisioning/generate_qr.py:137-138 | as written, end to end: after a rewrite the next payload has the new URL, the signer digest under the package-checksum key, and the old signature checksum (or none) |
| Provisioning.AutoUpdateCorrectedRefreshesPayload | provisioning/generate_qr.py:137-138 | corrected, end to end: the next payload has the new URL and the new signature checksum, every other key as before |
| Provisioning.StaleAfterAutoUpdate | provisioning/generate_qr.py:104-138 | a run on a configuration with signature checksum "A" and a 32-byte signer digest rewrites the file, and the next payload still says "A" |
| Platform.WithoutPackage | app/src/main/java/com/warehouse/kiosk/domain/manager/DeviceOwnerManager.kt:155-158 | clearing a package removes exactly its registrations |
| Platform.FeatureWrites | app/src/main/java/com/warehouse/kiosk/domain/manager/DeviceOwnerManager.kt:96 | 0 iff the log has no feature write |
| Platform.FeatureWritesAppend | app/src/main/java/com/warehouse/kiosk/domain/manager/DeviceOwnerManager.kt:96 | write counts add up over concatenation |
| Platform.Authority.constructor | app/src/main/java/com/warehouse/kiosk/domain/manager/DeviceOwnerManager.kt:24-61 | the authority starts with the given inputs and an empty log |
| Platform.Authority.GetLockTaskFeatures | app/src/main/java/com/warehouse/kiosk/domain/manager/DeviceOwnerManager.kt:92-99 | reads the mask, or fails; logs the call |
| Platform.Authority.SetLockTaskFeatures | app/src/main/java/com/warehouse/kiosk/domain/manager/DeviceOwnerManager.kt:96 | sets the mask unless failing; logs the call |
| Platform.Authority.SetLockTaskPackages | app/src/main/java/com/warehouse/kiosk/domain/manager/DeviceOwnerManager.kt:117 | sets the allowlist unless failing |
| Platform.Authority.QueryHomeActivities | app/src/main/java/com/warehouse/kiosk/domain/manager/DeviceOwnerManager.kt:125-131 | returns the HOME activities, or fails |
| Platform.Authority.ResolveHomeActivity | app/src/main/java/com/warehouse/kiosk/domain/manager/DeviceOwnerManager.kt:136-141 | the newest registration, else the default home |
| Platform.Authority.ClearPersistentPreferred | app/src/main/java/com/warehouse/kiosk/domain/manager/DeviceOwnerManager.kt:155-158 | removes the package's registrations unless failing |
| Platform.Authority.AddPersistentPreferred | app/src/main/java/com/warehouse/kiosk/domain/manager/DeviceOwnerManager.kt:167 | appends the target registration unless failing |
| Platform.Authority.SetLockScreenInfo | app/src/main/java/com/warehouse/kiosk/domain/manager/DeviceOwnerManager.kt:177 | sets the info unless failing |
| Platform.Authority.StartLockTask | app/src/main/java/com/warehouse/kiosk/MainActivity.kt:254 | locked when allowlisted, pinned otherwise |
| Platform.Authority.StopLockTask | app/src/main/java/com/warehouse/kiosk/MainActivity.kt:256 | lock mode back to NONE |

## Left out

- Coroutines, flows and dispatchers (`combine`, `launchIn`, `withContext`, `stateIn`): flows become
  sequences of snapshots processed one at a time, and each suspending call runs to completion.
  `MainActivity.setKioskPolicies` runs its launcher coroutine as: the IO query, then the synchronous
  feature block, then the rest of the coroutine, in the order `Dispatchers.Main.immediate` gives.
- MainActivity.SetKioskPolicies: the launcher coroutine could interleave differently on another
  dispatcher; only the order above is modelled.
- SHA-256 (password hash, APK signer digest) is a parameter. The password model assumes it is
  injective. The hex spelling of the digest is not modelled.
- Versions.ToIntOrNull: only ASCII digits count as digits; Kotlin's `toIntOrNull` also accepts other
  Unicode decimal digits.
- Overlay.Tap: times are unbounded integers; the 64-bit wrap of `System.currentTimeMillis()`
  differences is not modelled.
- Timestamps (`createdAt`, `updatedAt`, `SavedApkUrl.timestamp` creation) are not modelled; a saved
  URL's timestamp is an input.
- Download progress: `ApkRepository.downloadApk` and `installApk` are not part of this model; how
  each ends is an input. Cleanup is treated as never throwing.
- JSON: kotlinx serialization of `SavedApkUrl` is abstracted (an entry is either an encoded entry or
  a string that does not decode); Python `json` key order, floats and arrays are not modelled.
- QR rendering, file I/O and the `qr_codes` directory of `generate_qr.py`.
- The GitHub release fetch of `generate_qr.py` (`get_github_latest_release_url`) and of
  `UpdateRepository.fetchLatestRelease`: the latest URL or the release record is an input.
- The `apksigner` subprocess: its standard output (or its absence) is an input.
- DeviceOwner.WriteFeaturesIfDifferent: a failing operation fails on every call, so the read-back
  after a successful set (`DeviceOwnerManager.kt:98`) never fails once the first read passed.
  Transient, per-call failures are not modelled, so the case where the mask is written and the
  read-back then throws is never produced. The contract "a failure leaves the policy unchanged" holds
  only under that assumption.
- DeviceOwner.SetLockTaskFeaturesTwice: "a passing first call makes the second pass" holds only
  because failures are persistent; a transient failure of the second call is not modelled.
- Setup.SetKioskPolicies: inherits the persistent-failure assumption of the feature step; a
  read-back that throws after the default mask was written is not modelled.
- MainActivity.SetKioskPolicies: the same for the activity's feature block (`MainActivity.kt:315`).
  There a throwing read-back after a successful set is caught and logged by the block's own `try`.
  The model never produces that case.
- Provisioning.GenerateQr: does not call the auto-update itself; `Provisioning.AutoUpdate` models
  that step separately, and the caller composes the two. The reload of the configuration after a
  rewrite is the loaded filter of the rewritten file.
- Provisioning.GenerateQr: the "locations" and "profiles" tables are assumed to be JSON objects, and
  a missing top-level key (a Python `KeyError`) is not modelled.
- `list_locations`, `list_wifi_profiles` and `main` of `generate_qr.py` (printing and command-line
  parsing).
- Logging (`Log.*`, `print`) everywhere.
- AppDao.AllApps: ties in `ORDER BY app_name` are returned in storage order (a stable sort); SQLite
  leaves their order unspecified.
- Boot.OnReceive: `getLaunchIntentForPackage` is an input predicate; the activity start itself is the
  `Started` result.
- The wallpaper use case (`SetWallpaperUseCase`, bitmap scaling): its outcome is an input of
  `Admin.AdminViewModel.SetWallpaper`.
- The overlay window set-up and tear-down of `OverlayService` (`onCreate`, `onDestroy`).
- `MainActivity.isInLockTaskModeCompat` and `getCurrentLauncher` are folded into
  `Platform.Authority.InLockTaskMode` and `ResolveHomeActivity`.
- UI composables, navigation, `PasswordDialog`, `ProvisioningCompleteActivity`, receivers that only
  log, and dependency-injection wiring.

## Findings

| source | as written | input that shows it | evidently intended | confidence | as-written member | corrected member |
|---|---|---|---|---|---|---|
| provisioning/generate_qr.py:137-138 | the auto-update stores the new signer checksum under `...DEVICE_ADMIN_PACKAGE_CHECKSUM`. `generate_qr` copies every non-"_" key of the common configuration into the payload (lines 240-241), so the payload has two problems: it keeps the old `...DEVICE_ADMIN_SIGNATURE_CHECKSUM` next to the new download URL, and it carries the signer digest under `...DEVICE_ADMIN_PACKAGE_CHECKSUM`, the key Android reads as the hash of the APK file. The script's own `--apk` path puts the signer digest under `...SIGNATURE_CHECKSUM` (line 278) | a configuration with signature checksum "A", and an update whose signer line carries a 32-byte digest: the payload still carries "A", and the digest's checksum sits under the package-checksum key | write the checksum under `...DEVICE_ADMIN_SIGNATURE_CHECKSUM` | medium, not executed | Provisioning.AutoUpdate, Provisioning.AutoUpdateLeavesPayloadStale, Provisioning.StaleAfterAutoUpdate, Provisioning.RewriteLeavesSignatureChecksumStale, Provisioning.StaleChecksumExample | Provisioning.AutoUpdateCorrected, Provisioning.AutoUpdateCorrectedRefreshesPayload, Provisioning.RewriteRefreshesPayload |
| app/src/main/java/com/warehouse/kiosk/services/OverlayService.kt:39-47 | the overlay window gets `FLAG_NOT_TOUCHABLE`, and the gesture hangs on the view's click listener; a not-touchable window receives no touch events, so the five-tap gesture cannot fire | any five taps within 2000 ms of each other on the overlay: no dialog opens | leave `FLAG_NOT_TOUCHABLE` out of the overlay's flags | medium, not executed | Overlay.OverlayNeverOpens | Overlay.TouchableOverlayOpens |

=== FILE: admin.dfy ===
/** AdminViewModel: the auto-start label and the wallpaper state machine. */
module Admin {
  import opened Wrappers
  import AppDao

  const NONE_LABEL := "None"
  const UNKNOWN_ERROR := "Неизвестна грешка"

  /** The position of allApps.find { it.packageName == pkg } */
  function FindIndex(apps: seq<AppDao.AppEntity>, pkg: string): (r: Option<nat>)
    ensures r.None? <==> forall i :: 0 <= i < |apps| ==> apps[i].packageName != pkg
    ensures r.Some? ==> r.value < |apps| && apps[r.value].packageName == pkg
                        && forall j :: 0 <= j < r.value ==> apps[j].packageName != pkg
  {
    if apps == [] then None
    else if apps[0].packageName == pkg then Some(0)
    else
      match FindIndex(apps[1..], pkg)
      case None => None
      case Some(k) => Some(k + 1)
  }

  /** autoStartAppName: the name of the first app with the selected package, else "None". */
  function AutoStartAppName(selectedPackage: Option<string>, allApps: seq<AppDao.AppEntity>): (r: string)
    ensures selectedPackage.None? ==> r == NONE_LABEL
    ensures selectedPackage.Some? && (forall i :: 0 <= i < |allApps| ==> allApps[i].packageName != selectedPackage.value)
            ==> r == NONE_LABEL
    ensures selectedPackage.Some? ==>
              forall k :: 0 <= k < |allApps| && allApps[k].packageName == selectedPackage.value
                          && (forall j :: 0 <= j < k ==> allApps[j].packageName != selectedPackage.value)
                          ==> r == allApps[k].appName
  {
    if selectedPackage.None? then NONE_LABEL
    else
      match FindIndex(allApps, selectedPackage.value)
      case None => NONE_LABEL
      case Some(k) => allApps[k].appName
  }

  /** Package names are unique in the table, so the label is the name of that package's row. */
  lemma AutoStartNameFromTable(t: AppDao.Table, pkg: string, i: nat)
    requires AppDao.ValidTable(t) && i < |t.rows| && t.rows[i].packageName == pkg
    ensures AutoStartAppName(Some(pkg), AppDao.AllApps(t.rows)) == t.rows[i].appName
  {
    var all := AppDao.AllApps(t.rows);
    AppDao.AllAppsSorted(t.rows);
    assert t.rows[i] in all;
    var k := FindIndex(all, pkg);
    assert all[k.value] in t.rows;
    var j :| 0 <= j < |t.rows| && t.rows[j] == all[k.value];
  }

  datatype WallpaperState = Idle | Loading | Success | Error(message: string)

  class AdminViewModel {
    var wallpaperState: WallpaperState
    /** Every value the wallpaper state has taken, in order. */
    var shown: seq<WallpaperState>

    constructor()
      ensures wallpaperState == Idle && shown == [Idle]
    {
      wallpaperState := Idle;
      shown := [Idle];
    }

    /** setWallpaper: Loading, then Success or the failure's message (or "Неизвестна грешка"). */
    method SetWallpaper(result: Outcome<Option<string>>)
      modifies this
      ensures shown == old(shown) + [Loading, wallpaperState]
      ensures wallpaperState == if result.Pass? then WallpaperState.Success
                                else Error(if result.error.Some? then result.error.value else UNKNOWN_ERROR)
    {
      wallpaperState := Loading;
      shown := shown + [Loading];
      if result.Pass? {
        wallpaperState := WallpaperState.Success;
      } else {
        wallpaperState := Error(if result.error.Some? then result.error.value else UNKNOWN_ERROR);
      }
      shown := shown + [wallpaperState];
    }

    /** resetWallpaperState */
    method ResetWallpaperState()
      modifies this
      ensures wallpaperState == Idle && shown == old(shown) + [Idle]
    {
      wallpaperState := Idle;
      shown := shown + [Idle];
    }
  }
}

=== FILE: app_dao.dfy ===
/** AppDao over the kiosk_apps table: rows of AppEntity with an auto-generated primary key and a
    unique package_name; queries ordered by app_name. */
module AppDao {
  import opened Wrappers
  import Sorting
  import Text

  /** A row of kiosk_apps; an id of 0 asks for a generated key. Timestamps are not modelled. */
  datatype AppEntity = AppEntity(id: int, packageName: string, appName: string, isEnabled: bool)

  /** The table: rows in storage order and the next generated key (AUTOINCREMENT never reuses one). */
  datatype Table = Table(rows: seq<AppEntity>, nextId: int)

  datatype DbError = UniqueConstraintFailed(packageName: string)

  /** Primary key and package_name are unique; stored keys are non-zero and below the next generated key. */
  ghost predicate ValidTable(t: Table)
  {
    && t.nextId >= 1
    && UniqueRows(t.rows)
    && (forall i :: 0 <= i < |t.rows| ==> t.rows[i].id != 0 && t.rows[i].id < t.nextId)
  }

  /** No two rows share a key or a package. */
  ghost predicate UniqueRows(rows: seq<AppEntity>)
  {
    forall i, j :: 0 <= i < j < |rows| ==> rows[i].id != rows[j].id && rows[i].packageName != rows[j].packageName
  }

  /** The rows that do not clash with key `id` or package `pkg`, in storage order. */
  function Unclashing(rows: seq<AppEntity>, id: int, pkg: string): (r: seq<AppEntity>)
    ensures forall x :: x in r <==> x in rows && x.id != id && x.packageName != pkg
    ensures |r| <= |rows|
  {
    if rows == [] then []
    else
      assert forall x :: x in rows <==> x == rows[0] || x in rows[1..];
      (if rows[0].id != id && rows[0].packageName != pkg then [rows[0]] else []) + Unclashing(rows[1..], id, pkg)
  }

  lemma UniqueTail(rows: seq<AppEntity>)
    requires rows != [] && UniqueRows(rows)
    ensures UniqueRows(rows[1..])
    ensures forall x :: x in rows[1..] ==> x.id != rows[0].id && x.packageName != rows[0].packageName
  {
    forall i, j | 0 <= i < j < |rows[1..]|
      ensures rows[1..][i].id != rows[1..][j].id && rows[1..][i].packageName != rows[1..][j].packageName
    {
      assert rows[1..][i] == rows[i + 1] && rows[1..][j] == rows[j + 1];
    }
    forall x | x in rows[1..] ensures x.id != rows[0].id && x.packageName != rows[0].packageName {
      var k :| 0 <= k < |rows[1..]| && rows[1..][k] == x;
      assert rows[k + 1] == x;
    }
  }

  /** A head clashing with no row of a unique tail keeps the rows unique. */
  lemma ConsUnique(h: AppEntity, t: seq<AppEntity>)
    requires UniqueRows(t)
    requires forall x :: x in t ==> x.id != h.id && x.packageName != h.packageName
    ensures UniqueRows([h] + t)
  {
    var r := [h] + t;
    forall i, j | 0 <= i < j < |r| ensures r[i].id != r[j].id && r[i].packageName != r[j].packageName {
      assert r[j] == t[j - 1];
      if i > 0 {
        assert r[i] == t[i - 1];
      } else {
        assert t[j - 1] in t;
      }
    }
  }

  lemma {:induction false} UnclashingUnique(rows: seq<AppEntity>, id: int, pkg: string)
    requires UniqueRows(rows)
    ensures UniqueRows(Unclashing(rows, id, pkg))
  {
    if rows != [] {
      UniqueTail(rows);
      UnclashingUnique(rows[1..], id, pkg);
      var tail := Unclashing(rows[1..], id, pkg);
      if rows[0].id != id && rows[0].packageName != pkg {
        ConsUnique(rows[0], tail);
        assert Unclashing(rows, id, pkg) == [rows[0]] + tail;
      } else {
        assert Unclashing(rows, id, pkg) == tail;
      }
    }
  }

  /** The key a row gets when inserted into `t`. */
  function KeyFor(t: Table, e: AppEntity): int
  {
    if e.id == 0 then t.nextId else e.id
  }

  /** INSERT OR REPLACE of one row: rows clashing on the key or on package_name are deleted,
      then the row is stored with its key (generated when 0). */
  function Upsert(t: Table, e: AppEntity): Table
  {
    var id := KeyFor(t, e);
    Table(Unclashing(t.rows, id, e.packageName) + [e.(id := id)], if id >= t.nextId then id + 1 else t.nextId)
  }

  /** insertAll: the rows inserted one after the other. */
  function InsertedAll(t: Table, apps: seq<AppEntity>): Table
  {
    if apps == [] then t
    else Upsert(InsertedAll(t, apps[..|apps| - 1]), apps[|apps| - 1])
  }

  /** One replacing insert keeps the table valid. */
  lemma UpsertValid(t: Table, e: AppEntity)
    requires ValidTable(t)
    ensures ValidTable(Upsert(t, e))
    ensures Upsert(t, e).nextId >= t.nextId
  {
    var id := KeyFor(t, e);
    var kept := Unclashing(t.rows, id, e.packageName);
    UnclashingUnique(t.rows, id, e.packageName);
    var row := e.(id := id);
    var nextId := Upsert(t, e).nextId;
    forall i | 0 <= i < |kept|
      ensures kept[i].id != 0 && kept[i].id < t.nextId
      ensures kept[i].id != id && kept[i].packageName != e.packageName
    {
      assert kept[i] in kept;
      var k :| 0 <= k < |t.rows| && t.rows[k] == kept[i];
    }
    assert nextId >= t.nextId && row.id < nextId && row.id != 0;
    AppendValid(kept, row, nextId);
  }

  lemma AppendValid(kept: seq<AppEntity>, row: AppEntity, nextId: int)
    requires nextId >= 1
    requires UniqueRows(kept)
    requires forall i :: 0 <= i < |kept| ==> kept[i].id != 0 && kept[i].id < nextId
    requires forall i :: 0 <= i < |kept| ==> kept[i].id != row.id && kept[i].packageName != row.packageName
    requires row.id != 0 && row.id < nextId
    ensures ValidTable(Table(kept + [row], nextId))
  {
    var r := kept + [row];
    assert forall i :: 0 <= i < |r| ==> r[i] == if i < |kept| then kept[i] else row;
  }

  /** One replacing insert stores the row with the inserted values under its package and keeps
      every row it does not clash with, and nothing else. */
  lemma UpsertContents(t: Table, e: AppEntity)
    ensures e.(id := KeyFor(t, e)) in Upsert(t, e).rows
    ensures forall x :: x in t.rows && x.id != KeyFor(t, e) && x.packageName != e.packageName ==>
              x in Upsert(t, e).rows
    ensures forall x :: x in Upsert(t, e).rows ==> x in t.rows || x == e.(id := KeyFor(t, e))
  {
  }

  lemma {:induction false} InsertedAllValid(t: Table, apps: seq<AppEntity>)
    requires ValidTable(t)
    ensures ValidTable(InsertedAll(t, apps))
    ensures InsertedAll(t, apps).nextId >= t.nextId
  {
    if apps != [] {
      InsertedAllValid(t, apps[..|apps| - 1]);
      UpsertValid(InsertedAll(t, apps[..|apps| - 1]), apps[|apps| - 1]);
    }
  }

  /** A stored row that shares neither its key nor its package with any inserted row survives insertAll
      (generated keys are fresh, so they never clash with a stored row). */
  lemma {:induction false} InsertedAllKeeps(t: Table, apps: seq<AppEntity>, x: AppEntity)
    requires ValidTable(t) && x in t.rows
    requires forall e :: e in apps ==> e.id != x.id && e.packageName != x.packageName
    ensures x in InsertedAll(t, apps).rows
  {
    if apps != [] {
      var prefix := apps[..|apps| - 1];
      assert forall e :: e in prefix ==> e in apps;
      InsertedAllKeeps(t, prefix, x);
      InsertedAllValid(t, prefix);
      var before := InsertedAll(t, prefix);
      var last := apps[|apps| - 1];
      assert x.id < t.nextId by {
        var k :| 0 <= k < |t.rows| && t.rows[k] == x;
      }
      UpsertValid(before, last);
      UpsertContents(before, last);
    }
  }

  /** `rows` hold a row for e's package with e's name and flag, under e's key or a key generated
      at or after `base`. */
  ghost predicate Carries(rows: seq<AppEntity>, e: AppEntity, base: int)
  {
    exists x :: x in rows && x.packageName == e.packageName && x.appName == e.appName
                && x.isEnabled == e.isEnabled && (if e.id == 0 then x.id >= base else x.id == e.id)
  }

  /** Inserting apps with distinct packages, and keys that are either 0 or distinct existing ones,
      leaves one row per inserted package carrying the inserted name and flag. */
  lemma {:induction false} InsertedAllCarries(t: Table, apps: seq<AppEntity>)
    requires ValidTable(t)
    requires forall i, j :: 0 <= i < j < |apps| ==> apps[i].packageName != apps[j].packageName
    requires forall i, j :: 0 <= i < j < |apps| && apps[i].id != 0 ==> apps[i].id != apps[j].id
    requires forall i :: 0 <= i < |apps| ==> apps[i].id < t.nextId
    ensures forall e :: e in apps ==> Carries(InsertedAll(t, apps).rows, e, t.nextId)
  {
    if apps != [] {
      var n := |apps| - 1;
      var prefix := apps[..n];
      var last := apps[n];
      assert forall i :: 0 <= i < n ==> prefix[i] == apps[i];
      InsertedAllCarries(t, prefix);
      InsertedAllValid(t, prefix);
      var before := InsertedAll(t, prefix);
      var after := Upsert(before, last);
      assert InsertedAll(t, apps) == after;
      UpsertContents(before, last);
      forall i | 0 <= i <= n
        ensures Carries(after.rows, apps[i], t.nextId)
      {
        if i == n {
          assert last.(id := KeyFor(before, last)) in after.rows;
        } else {
          assert apps[i] in prefix;
          CarriedThroughUpsert(t, before, last, apps[i]);
        }
      }
    }
  }

  lemma CarriedThroughUpsert(t: Table, before: Table, last: AppEntity, e: AppEntity)
    requires ValidTable(before) && before.nextId >= t.nextId
    requires Carries(before.rows, e, t.nextId)
    requires e.packageName != last.packageName
    requires last.id < t.nextId
    requires e.id != 0 ==> e.id != last.id
    ensures Carries(Upsert(before, last).rows, e, t.nextId)
  {
    var x :| x in before.rows && x.packageName == e.packageName && x.appName == e.appName
             && x.isEnabled == e.isEnabled && (if e.id == 0 then x.id >= t.nextId else x.id == e.id);
    assert x.id < before.nextId by {
      var k :| 0 <= k < |before.rows| && before.rows[k] == x;
    }
    UpsertContents(before, last);
    assert x in Upsert(before, last).rows;
  }

  /** After insertAll every row is a row that was stored before or an inserted row under its new key. */
  lemma {:induction false} InsertedAllFrom(t: Table, apps: seq<AppEntity>)
    ensures forall x :: x in InsertedAll(t, apps).rows ==>
              x in t.rows || exists e :: e in apps && x == e.(id := x.id)
  {
    if apps != [] {
      var n := |apps| - 1;
      InsertedAllFrom(t, apps[..n]);
      UpsertContents(InsertedAll(t, apps[..n]), apps[n]);
      forall x | x in InsertedAll(t, apps).rows
        ensures x in t.rows || exists e :: e in apps && x == e.(id := x.id)
      {
        if x !in t.rows && x != apps[n].(id := x.id) {
          var e :| e in apps[..n] && x == e.(id := x.id);
          assert e in apps;
        }
      }
    }
  }

  /** A stored row survives a generated-key insert of another package. */
  lemma KeptThroughUpsert(before: Table, last: AppEntity, x: AppEntity)
    requires ValidTable(before) && x in before.rows
    requires x.packageName != last.packageName && last.id == 0
    ensures x in Upsert(before, last).rows
  {
    assert x.id < before.nextId by {
      var k :| 0 <= k < |before.rows| && before.rows[k] == x;
    }
    UpsertContents(before, last);
  }

  /** `rows` hold a row for `pkg` under a key generated at or after `base`. */
  ghost predicate Covered(rows: seq<AppEntity>, pkg: string, base: int)
  {
    exists x :: x in rows && x.packageName == pkg && x.id >= base
  }

  /** Inserting rows that all ask for a generated key leaves a row for each of their packages,
      under a freshly generated key. */
  lemma {:induction false} InsertedAllCovers(t: Table, apps: seq<AppEntity>)
    requires ValidTable(t)
    requires forall i :: 0 <= i < |apps| ==> apps[i].id == 0
    ensures forall i :: 0 <= i < |apps| ==> Covered(InsertedAll(t, apps).rows, apps[i].packageName, t.nextId)
  {
    if apps != [] {
      var n := |apps| - 1;
      var prefix := apps[..n];
      var before := InsertedAll(t, prefix);
      InsertedAllCovers(t, prefix);
      InsertedAllValid(t, prefix);
      forall i | 0 <= i <= n
        ensures Covered(Upsert(before, apps[n]).rows, apps[i].packageName, t.nextId)
      {
        if i < n {
          assert prefix[i] == apps[i];
        }
        CoveredThroughUpsert(before, apps[n], apps[i].packageName, t.nextId);
      }
      assert InsertedAll(t, apps) == Upsert(before, apps[n]);
    }
  }

  /** One insert asking for a generated key covers its own package and keeps every covered one. */
  lemma CoveredThroughUpsert(before: Table, last: AppEntity, pkg: string, base: int)
    requires ValidTable(before) && last.id == 0 && before.nextId >= base
    requires pkg == last.packageName || Covered(before.rows, pkg, base)
    ensures Covered(Upsert(before, last).rows, pkg, base)
  {
    UpsertContents(before, last);
    if pkg == last.packageName {
      assert last.(id := KeyFor(before, last)) in Upsert(before, last).rows;
    } else {
      var x :| x in before.rows && x.packageName == pkg && x.id >= base;
      KeptThroughUpsert(before, last, x);
    }
  }

  /** The row for `pkg` (package_name is unique, so LIMIT 1 loses nothing). */
  function RowFor(rows: seq<AppEntity>, pkg: string): (r: Option<AppEntity>)
    ensures r.Some? ==> r.value in rows && r.value.packageName == pkg
    ensures r.None? <==> forall x :: x in rows ==> x.packageName != pkg
  {
    if rows == [] then None
    else if rows[0].packageName == pkg then Some(rows[0])
    else
      assert forall x :: x in rows <==> x == rows[0] || x in rows[1..];
      RowFor(rows[1..], pkg)
  }

  /** UPDATE ... WHERE id = app.id: the row with that key takes the new values; no row matches, nothing changes. */
  function Updated(rows: seq<AppEntity>, app: AppEntity): (r: seq<AppEntity>)
    ensures |r| == |rows|
    ensures forall i :: 0 <= i < |rows| ==> r[i] == if rows[i].id == app.id then app else rows[i]
  {
    if rows == [] then []
    else [if rows[0].id == app.id then app else rows[0]] + Updated(rows[1..], app)
  }

  /** The update's new package may only collide with the row being updated. */
  predicate UpdateClashes(rows: seq<AppEntity>, app: AppEntity)
  {
    exists x :: x in rows && x.id != app.id && x.packageName == app.packageName
  }

  lemma UpdateValid(t: Table, app: AppEntity)
    requires ValidTable(t) && !UpdateClashes(t.rows, app)
    ensures ValidTable(Table(Updated(t.rows, app), t.nextId))
  {
    var r := Updated(t.rows, app);
    forall i, j | 0 <= i < j < |r| ensures r[i].id != r[j].id && r[i].packageName != r[j].packageName {
      if t.rows[i].id == app.id {
        assert t.rows[j] in t.rows;
      } else if t.rows[j].id == app.id {
        assert t.rows[i] in t.rows;
      }
    }
  }

  /** ORDER BY app_name under SQLite's BINARY collation. */
  predicate ByName(a: AppEntity, b: AppEntity)
  {
    Text.StrLe(a.appName, b.appName)
  }

  lemma ByNamePreorder(s: seq<AppEntity>)
    ensures Sorting.PreorderOn(s, ByName)
  {
    forall a, b | a in s && b in s ensures ByName(a, b) || ByName(b, a) {
      Text.StrLeTotal(a.appName, b.appName);
    }
    forall a, b, c | a in s && b in s && c in s && ByName(a, b) && ByName(b, c) ensures ByName(a, c) {
      Text.StrLeTransitive(a.appName, b.appName, c.appName);
    }
  }

  function EnabledRows(rows: seq<AppEntity>): (r: seq<AppEntity>)
    ensures forall x :: x in r <==> x in rows && x.isEnabled
  {
    if rows == [] then []
    else
      assert forall x :: x in rows <==> x == rows[0] || x in rows[1..];
      (if rows[0].isEnabled then [rows[0]] else []) + EnabledRows(rows[1..])
  }

  /** SELECT * ORDER BY app_name ASC */
  function AllApps(rows: seq<AppEntity>): (r: seq<AppEntity>)
    ensures multiset(r) == multiset(rows)
  {
    Sorting.SortBy(rows, ByName)
  }

  /** SELECT * WHERE is_enabled = 1 ORDER BY app_name ASC */
  function EnabledApps(rows: seq<AppEntity>): (r: seq<AppEntity>)
    ensures multiset(r) == multiset(EnabledRows(rows))
  {
    Sorting.SortBy(EnabledRows(rows), ByName)
  }

  /** getAllApps lists every row once, ordered by name. */
  lemma AllAppsSorted(rows: seq<AppEntity>)
    ensures Sorting.SortedBy(AllApps(rows), ByName)
    ensures forall x :: x in AllApps(rows) <==> x in rows
  {
    ByNamePreorder(rows);
    Sorting.SortBySorted(rows, ByName);
    forall x ensures x in AllApps(rows) <==> x in rows {
      assert x in AllApps(rows) <==> x in multiset(AllApps(rows));
    }
  }

  /** getEnabledApps lists exactly the enabled rows, ordered by name: a sub-list of getAllApps. */
  lemma EnabledAppsExactly(rows: seq<AppEntity>)
    ensures Sorting.SortedBy(EnabledApps(rows), ByName)
    ensures forall x :: x in EnabledApps(rows) <==> x in AllApps(rows) && x.isEnabled
    ensures |EnabledApps(rows)| <= |AllApps(rows)|
  {
    ByNamePreorder(EnabledRows(rows));
    Sorting.SortBySorted(EnabledRows(rows), ByName);
    AllAppsSorted(rows);
    forall x ensures x in EnabledApps(rows) <==> x in rows && x.isEnabled {
      assert x in EnabledApps(rows) <==> x in multiset(EnabledApps(rows));
    }
    EnabledRowsShorter(rows);
  }

  lemma {:induction false} EnabledRowsShorter(rows: seq<AppEntity>)
    ensures |EnabledRows(rows)| <= |rows|
  {
    if rows != [] {
      EnabledRowsShorter(rows[1..]);
    }
  }

  /** The Room DAO over one kiosk_apps table. */
  class AppTable {
    var rows: seq<AppEntity>
    var nextId: int

    ghost predicate Valid()
      reads this
    {
      ValidTable(Table(rows, nextId))
    }

    constructor()
      ensures Valid() && rows == []
    {
      rows := [];
      nextId := 1;
    }

    function GetAllApps(): (r: seq<AppEntity>)
      reads this
      ensures multiset(r) == multiset(rows)
    {
      AllApps(rows)
    }

    function GetEnabledApps(): (r: seq<AppEntity>)
      reads this
      ensures multiset(r) == multiset(EnabledRows(rows))
    {
      EnabledApps(rows)
    }

    function GetAppByPackageName(pkg: string): (r: Option<AppEntity>)
      reads this
      ensures r.Some? ==> r.value in rows && r.value.packageName == pkg
      ensures r.None? <==> forall x :: x in rows ==> x.packageName != pkg
    {
      RowFor(rows, pkg)
    }

    /** @Insert(onConflict = REPLACE) over a list, one row after the other. */
    method InsertAll(apps: seq<AppEntity>)
      requires Valid()
      modifies this
      ensures Valid()
      ensures Table(rows, nextId) == InsertedAll(Table(old(rows), old(nextId)), apps)
    {
      ghost var start := Table(rows, nextId);
      for i := 0 to |apps|
        invariant Table(rows, nextId) == InsertedAll(start, apps[..i])
        invariant Valid()
      {
        assert apps[..i + 1][..i] == apps[..i];
        UpsertValid(Table(rows, nextId), apps[i]);
        var id := if apps[i].id == 0 then nextId else apps[i].id;
        rows := Unclashing(rows, id, apps[i].packageName) + [apps[i].(id := id)];
        if id >= nextId {
          nextId := id + 1;
        }
      }
      assert apps[..|apps|] == apps;
    }

    /** @Update: by primary key; a package_name clash with another row aborts the statement. */
    method UpdateApp(app: AppEntity) returns (r: Outcome<DbError>)
      requires Valid()
      modifies this
      ensures Valid()
      ensures r.Fail? <==> UpdateClashes(old(rows), app)
      ensures r.Fail? ==> rows == old(rows)
      ensures r.Pass? ==> rows == Updated(old(rows), app)
      ensures nextId == old(nextId)
    {
      if exists x :: x in rows && x.id != app.id && x.packageName == app.packageName {
        return Fail(UniqueConstraintFailed(app.packageName));
      }
      UpdateValid(Table(rows, nextId), app);
      rows := Updated(rows, app);
      r := Pass;
    }

    /** DELETE FROM kiosk_apps; the AUTOINCREMENT counter is kept. */
    method ClearAll()
      requires Valid()
      modifies this
      ensures Valid() && rows == [] && nextId == old(nextId)
      ensures GetAllApps() == [] && GetEnabledApps() == []
    {
      rows := [];
    }
  }
}

=== FILE: app_lists.dfy ===
/** GetInstalledAppsUseCase and RefreshInstalledAppsUseCase: launcher activities become candidate
    rows, and only packages the table does not hold yet are inserted. */
module AppLists {
  import opened AppDao

  const SETTINGS_PACKAGE := "com.android.settings"

  /** A launcher activity from queryIntentActivities(MAIN + LAUNCHER): its package and loaded label. */
  datatype ResolvedActivity = ResolvedActivity(packageName: string, loadedLabel: string)

  /** Whether an activity is offered for selection: neither the kiosk itself nor the system settings. */
  predicate Offered(selfPackage: string, a: ResolvedActivity)
  {
    a.packageName != selfPackage && a.packageName != SETTINGS_PACKAGE
  }

  /** GetInstalledAppsUseCase(): every offered activity, in query order, as a new disabled row. */
  function GetInstalledApps(selfPackage: string, resolved: seq<ResolvedActivity>): (r: seq<AppEntity>)
    ensures |r| <= |resolved|
    ensures forall x :: x in r ==> x.packageName != selfPackage && x.packageName != SETTINGS_PACKAGE
    ensures forall x :: x in r ==> x.id == 0 && !x.isEnabled
    ensures forall x :: x in r <==> exists a :: a in resolved && Offered(selfPackage, a)
                                              && x == AppEntity(0, a.packageName, a.loadedLabel, false)
  {
    if resolved == [] then []
    else
      var a := resolved[0];
      assert forall b :: b in resolved <==> b == a || b in resolved[1..];
      (if Offered(selfPackage, a) then [AppEntity(0, a.packageName, a.loadedLabel, false)] else [])
      + GetInstalledApps(selfPackage, resolved[1..])
  }

  /** The mapping keeps query order: it distributes over concatenation. */
  lemma {:induction false} GetInstalledAppsAppend(selfPackage: string, a: seq<ResolvedActivity>, b: seq<ResolvedActivity>)
    ensures GetInstalledApps(selfPackage, a + b) == GetInstalledApps(selfPackage, a) + GetInstalledApps(selfPackage, b)
  {
    if a == [] {
      assert a + b == b;
    } else {
      var x := a[0];
      var head := if Offered(selfPackage, x) then [AppEntity(0, x.packageName, x.loadedLabel, false)] else [];
      assert (a + b)[0] == x && (a + b)[1..] == a[1..] + b;
      assert GetInstalledApps(selfPackage, a + b) == head + GetInstalledApps(selfPackage, a[1..] + b);
      assert GetInstalledApps(selfPackage, a) == head + GetInstalledApps(selfPackage, a[1..]);
      GetInstalledAppsAppend(selfPackage, a[1..], b);
    }
  }

  /** Whether no row of `dbApps` has the package of `app`. */
  predicate NotStored(dbApps: seq<AppEntity>, app: AppEntity)
  {
    forall x :: x in dbApps ==> x.packageName != app.packageName
  }

  /** The system apps whose package matches no database row, in system order. */
  function NewApps(systemApps: seq<AppEntity>, dbApps: seq<AppEntity>): (r: seq<AppEntity>)
    ensures |r| <= |systemApps|
    ensures forall x :: x in r <==> x in systemApps && NotStored(dbApps, x)
  {
    if systemApps == [] then []
    else
      assert forall x :: x in systemApps <==> x == systemApps[0] || x in systemApps[1..];
      (if NotStored(dbApps, systemApps[0]) then [systemApps[0]] else []) + NewApps(systemApps[1..], dbApps)
  }

  /** The filter keeps the relative order of the system list: it distributes over concatenation. */
  lemma {:induction false} NewAppsAppend(a: seq<AppEntity>, b: seq<AppEntity>, dbApps: seq<AppEntity>)
    ensures NewApps(a + b, dbApps) == NewApps(a, dbApps) + NewApps(b, dbApps)
  {
    if a == [] {
      assert a + b == b;
    } else {
      assert (a + b)[1..] == a[1..] + b;
      NewAppsAppend(a[1..], b, dbApps);
    }
  }

  /** The table after the new apps went in: all stored rows kept, every system package present,
      and every added row one of the system apps under its new key. */
  ghost predicate RefreshedFrom(before: Table, after: Table, systemApps: seq<AppEntity>)
  {
    && (forall x :: x in before.rows ==> x in after.rows)
    && (forall e :: e in systemApps ==> exists x :: x in after.rows && x.packageName == e.packageName)
    && (forall x :: x in after.rows ==> x in before.rows || exists e :: e in systemApps && x == e.(id := x.id))
  }

  /** Inserting apps new to the table keeps every stored row. */
  lemma NewAppsKeepRows(t: Table, newApps: seq<AppEntity>)
    requires ValidTable(t)
    requires forall e :: e in newApps ==> e.id == 0 && NotStored(t.rows, e)
    ensures forall x :: x in t.rows ==> x in InsertedAll(t, newApps).rows
  {
    forall x | x in t.rows ensures x in InsertedAll(t, newApps).rows {
      assert x.id != 0 by { var k :| 0 <= k < |t.rows| && t.rows[k] == x; }
      InsertedAllKeeps(t, newApps, x);
    }
  }

  /** After inserting the new apps every system package has a row. */
  lemma NewAppsCoverSystem(t: Table, systemApps: seq<AppEntity>)
    requires ValidTable(t)
    requires forall x :: x in systemApps ==> x.id == 0
    ensures var after := InsertedAll(t, NewApps(systemApps, t.rows));
            forall e :: e in systemApps ==> exists x :: x in after.rows && x.packageName == e.packageName
  {
    var newApps := NewApps(systemApps, t.rows);
    var after := InsertedAll(t, newApps);
    NewAppsKeepRows(t, newApps);
    forall i | 0 <= i < |newApps| ensures newApps[i].id == 0 {
      assert newApps[i] in newApps;
    }
    InsertedAllCovers(t, newApps);
    forall e | e in systemApps ensures exists x :: x in after.rows && x.packageName == e.packageName {
      if e in newApps {
        var i :| 0 <= i < |newApps| && newApps[i] == e;
        assert Covered(after.rows, newApps[i].packageName, t.nextId);
      } else {
        var y :| y in t.rows && y.packageName == e.packageName;
        assert y in after.rows;
      }
    }
  }

  lemma InsertingNewApps(t: Table, systemApps: seq<AppEntity>)
    requires ValidTable(t)
    requires forall x :: x in systemApps ==> x.id == 0
    ensures NewApps(systemApps, t.rows) == [] ==> RefreshedFrom(t, t, systemApps)
    ensures NewApps(systemApps, t.rows) != [] ==>
              RefreshedFrom(t, InsertedAll(t, NewApps(systemApps, t.rows)), systemApps)
  {
    var newApps := NewApps(systemApps, t.rows);
    if newApps != [] {
      NewAppsKeepRows(t, newApps);
      NewAppsCoverSystem(t, systemApps);
      InsertedAllFrom(t, newApps);
    } else {
      forall e | e in systemApps ensures exists x :: x in t.rows && x.packageName == e.packageName {
        assert e !in newApps;
      }
    }
  }

  /** Insert the new apps, if any. Shared by RefreshInstalledAppsUseCase and AppSelectionViewModel. */
  method InsertNewApps(dao: AppTable, systemApps: seq<AppEntity>)
    requires dao.Valid()
    requires forall x :: x in systemApps ==> x.id == 0
    modifies dao
    ensures dao.Valid()
    ensures var newApps := NewApps(systemApps, old(dao.rows));
            if newApps == [] then dao.rows == old(dao.rows) && dao.nextId == old(dao.nextId)
            else Table(dao.rows, dao.nextId) == InsertedAll(Table(old(dao.rows), old(dao.nextId)), newApps)
    ensures RefreshedFrom(Table(old(dao.rows), old(dao.nextId)), Table(dao.rows, dao.nextId), systemApps)
  {
    InsertingNewApps(Table(dao.rows, dao.nextId), systemApps);
    var dbApps := dao.GetAllApps();
    assert forall x :: x in dbApps <==> x in dao.rows by {
      forall x ensures x in dbApps <==> x in dao.rows {
        assert x in dbApps <==> x in multiset(dbApps);
      }
    }
    NewAppsSameMembers(systemApps, dbApps, dao.rows);
    var newApps := NewApps(systemApps, dbApps);
    if newApps != [] {
      dao.InsertAll(newApps);
    }
  }

  lemma {:induction false} NewAppsSameMembers(systemApps: seq<AppEntity>, a: seq<AppEntity>, b: seq<AppEntity>)
    requires forall x :: x in a <==> x in b
    ensures NewApps(systemApps, a) == NewApps(systemApps, b)
  {
    if systemApps != [] {
      NewAppsSameMembers(systemApps[1..], a, b);
    }
  }

  /** RefreshInstalledAppsUseCase(): query, compare with the table, insert what is new. */
  method RefreshInstalledApps(dao: AppTable, selfPackage: string, resolved: seq<ResolvedActivity>)
    requires dao.Valid()
    modifies dao
    ensures dao.Valid()
    ensures var newApps := NewApps(GetInstalledApps(selfPackage, resolved), old(dao.rows));
            if newApps == [] then dao.rows == old(dao.rows) && dao.nextId == old(dao.nextId)
            else Table(dao.rows, dao.nextId) == InsertedAll(Table(old(dao.rows), old(dao.nextId)), newApps)
    ensures RefreshedFrom(Table(old(dao.rows), old(dao.nextId)), Table(dao.rows, dao.nextId),
                          GetInstalledApps(selfPackage, resolved))
    ensures forall a :: a in resolved && Offered(selfPackage, a) ==>
              exists x :: x in dao.rows && x.packageName == a.packageName
    ensures forall x :: x in dao.rows && x !in old(dao.rows) ==> !x.isEnabled
  {
    var systemApps := GetInstalledApps(selfPackage, resolved);
    InsertNewApps(dao, systemApps);
    forall a | a in resolved && Offered(selfPackage, a)
      ensures exists x :: x in dao.rows && x.packageName == a.packageName
    {
      assert AppEntity(0, a.packageName, a.loadedLabel, false) in systemApps;
    }
  }
}

=== FILE: app_selection.dfy ===
/** AppSelectionViewModel: the editable app list, the list it started from, and the unsaved flag. */
module AppSelection {
  import opened AppDao
  import AppLists

  /** The list with the enabled flag of every entry keyed `id` set to `isEnabled`. */
  function Toggled(apps: seq<AppEntity>, id: int, isEnabled: bool): (r: seq<AppEntity>)
    ensures |r| == |apps|
    ensures forall i :: 0 <= i < |apps| ==>
              r[i] == if apps[i].id == id then apps[i].(isEnabled := isEnabled) else apps[i]
  {
    if apps == [] then []
    else [if apps[0].id == id then apps[0].(isEnabled := isEnabled) else apps[0]] + Toggled(apps[1..], id, isEnabled)
  }

  /** Toggling an entry and toggling it back restores the list. */
  lemma ToggleBack(apps: seq<AppEntity>, id: int, isEnabled: bool)
    requires forall x :: x in apps && x.id == id ==> x.isEnabled == !isEnabled
    ensures Toggled(Toggled(apps, id, isEnabled), id, !isEnabled) == apps
  {
    var r := Toggled(Toggled(apps, id, isEnabled), id, !isEnabled);
    forall i | 0 <= i < |apps| ensures r[i] == apps[i] {
      assert apps[i] in apps;
    }
  }

  class AppSelectionViewModel {
    var appListState: seq<AppEntity>
    var originalAppList: seq<AppEntity>
    var hasUnsavedChanges: bool

    constructor()
      ensures appListState == [] && originalAppList == [] && !hasUnsavedChanges
    {
      appListState := [];
      originalAppList := [];
      hasUnsavedChanges := false;
    }

    /** The getAllApps collector: an emission arriving while the original list is empty becomes it. */
    method OnAllAppsEmission(apps: seq<AppEntity>)
      modifies this
      ensures originalAppList == if old(originalAppList) == [] then apps else old(originalAppList)
      ensures appListState == apps && !hasUnsavedChanges
    {
      if originalAppList == [] {
        originalAppList := apps;
      }
      appListState := apps;
      hasUnsavedChanges := false;
    }

    /** onAppEnableChanged: flip the flag of the matching entries; unsaved iff the list differs from the original. */
    method OnAppEnableChanged(app: AppEntity, isEnabled: bool)
      modifies this
      ensures appListState == Toggled(old(appListState), app.id, isEnabled)
      ensures hasUnsavedChanges <==> appListState != originalAppList
      ensures originalAppList == old(originalAppList)
    {
      appListState := Toggled(appListState, app.id, isEnabled);
      hasUnsavedChanges := appListState != originalAppList;
    }

    /** saveChanges: persist the edited list, which becomes the new original. */
    method SaveChanges(dao: AppTable)
      requires dao.Valid()
      modifies this, dao
      ensures dao.Valid()
      ensures Table(dao.rows, dao.nextId) == InsertedAll(Table(old(dao.rows), old(dao.nextId)), old(appListState))
      ensures originalAppList == appListState == old(appListState) && !hasUnsavedChanges
    {
      dao.InsertAll(appListState);
      originalAppList := appListState;
      hasUnsavedChanges := false;
    }

    /** refreshAppList: insert the new system apps, then reload the list from the table as the original. */
    method RefreshAppList(dao: AppTable, selfPackage: string, resolved: seq<AppLists.ResolvedActivity>)
      requires dao.Valid()
      modifies this, dao
      ensures dao.Valid()
      ensures AppLists.RefreshedFrom(Table(old(dao.rows), old(dao.nextId)), Table(dao.rows, dao.nextId),
                                     AppLists.GetInstalledApps(selfPackage, resolved))
      ensures originalAppList == appListState == AllApps(dao.rows) && !hasUnsavedChanges
    {
      var systemApps := AppLists.GetInstalledApps(selfPackage, resolved);
      AppLists.InsertNewApps(dao, systemApps);
      originalAppList := dao.GetAllApps();
      appListState := originalAppList;
      hasUnsavedChanges := false;
    }
  }

  /** Toggling an entry of an unedited list and toggling it back leaves nothing unsaved. */
  method ToggleTwice(vm: AppSelectionViewModel, app: AppEntity, isEnabled: bool)
    requires vm.appListState == vm.originalAppList
    requires forall x :: x in vm.appListState && x.id == app.id ==> x.isEnabled == !isEnabled
    modifies vm
    ensures !vm.hasUnsavedChanges && vm.appListState == old(vm.appListState)
  {
    ToggleBack(vm.appListState, app.id, isEnabled);
    vm.OnAppEnableChanged(app, isEnabled);
    vm.OnAppEnableChanged(app, !isEnabled);
  }
}

=== FILE: app_updates.dfy ===
/** AppUpdatesViewModel: the update screen's state machine. */
module AppUpdates {
  import opened Wrappers
  import Versions
  import Install

  const UNKNOWN_ERROR := "Unknown error"
  const INSTALLATION_FAILED := "Installation failed"
  const DOWNLOAD_INSTALL_FAILED := "Download/Install failed"

  datatype UpdateUiState =
    | Idle
    | Checking
    | UpdateAvailable(updateInfo: Versions.AppUpdateInfo)
    | UpToDate(currentVersion: string)
    | Downloading(progress: int)
    | Installing
    | InstallSuccess
    | Error(message: string)

  /** The state checkForUpdates settles in, for the running version and the fetch outcome. */
  function CheckResultState(currentVersion: string, fetched: Result<Versions.Release, Option<string>>): (r: UpdateUiState)
    ensures r.Error? <==> fetched.Failure?
    ensures r.UpToDate? ==> r.currentVersion == currentVersion
    ensures r.UpdateAvailable? ==> r.updateInfo.isUpdateAvailable && r.updateInfo.currentVersion == currentVersion
  {
    match Versions.CheckForUpdates(currentVersion, fetched)
    case Success(info) => if info.isUpdateAvailable then UpdateAvailable(info) else UpToDate(info.currentVersion)
    case Failure(message) => Error(Install.MessageOr(message, UNKNOWN_ERROR))
  }

  /** A release tagged with the running version leaves the screen up to date. */
  lemma SameVersionIsUpToDate(currentVersion: string, release: Versions.Release)
    requires release.tagName == "v" + currentVersion
    ensures CheckResultState(currentVersion, Success(release)) == UpToDate(currentVersion)
  {
    Versions.SameVersionNotAnUpdate(currentVersion, release);
  }

  /** A failed fetch shows its message, or "Unknown error" when it has none. */
  lemma FetchFailureShown(currentVersion: string, message: Option<string>)
    ensures CheckResultState(currentVersion, Failure(message))
            == Error(if message.Some? then message.value else UNKNOWN_ERROR)
  {
  }

  /** The states downloadAndInstall passes through, given how the download ends and whether the
      install succeeds. */
  function InstallStates(download: Result<Install.ApkFile, Option<string>>, installed: bool): (r: seq<UpdateUiState>)
    ensures |r| >= 2 && r[0] == Downloading(0)
    ensures r[|r| - 1] == InstallSuccess <==> download.Success? && installed
    ensures download.Success? ==> r[1] == Installing
  {
    if download.Failure? then [Downloading(0), Error(Install.MessageOr(download.error, DOWNLOAD_INSTALL_FAILED))]
    else [Downloading(0), Installing, if installed then InstallSuccess else Error(INSTALLATION_FAILED)]
  }

  class AppUpdatesViewModel {
    var uiState: UpdateUiState
    /** Every value the state has taken, in order (the observable StateFlow history). */
    var shown: seq<UpdateUiState>
    /** The repository operations performed, in order. */
    var effects: seq<Install.Effect>

    constructor()
      ensures uiState == Idle && shown == [Idle] && effects == []
    {
      uiState := Idle;
      shown := [Idle];
      effects := [];
    }

    method Show(s: UpdateUiState)
      modifies this
      ensures uiState == s && shown == old(shown) + [s] && effects == old(effects)
    {
      uiState := s;
      shown := shown + [s];
    }

    /** checkForUpdates: Checking, then the result. */
    method CheckForUpdates(currentVersion: string, fetched: Result<Versions.Release, Option<string>>)
      modifies this
      ensures shown == old(shown) + [Checking, CheckResultState(currentVersion, fetched)]
      ensures uiState == CheckResultState(currentVersion, fetched)
      ensures effects == old(effects)
    {
      Show(Checking);
      var result := Versions.CheckForUpdates(currentVersion, fetched);
      var next: UpdateUiState;
      if result.Success? {
        if result.value.isUpdateAvailable {
          next := UpdateAvailable(result.value);
        } else {
          next := UpToDate(result.value.currentVersion);
        }
      } else {
        next := Error(Install.MessageOr(result.error, UNKNOWN_ERROR));
      }
      Show(next);
    }

    /** downloadAndInstall: the file is cleaned up right after the install and before the final
        state, whatever the install returned. */
    method DownloadAndInstall(downloadUrl: string, download: Result<Install.ApkFile, Option<string>>, installed: bool)
      modifies this
      ensures shown == old(shown) + InstallStates(download, installed)
      ensures uiState == shown[|shown| - 1]
      ensures effects == old(effects) + if download.Failure? then [Install.Download(downloadUrl)]
                                        else [Install.Download(downloadUrl), Install.Install(download.value),
                                              Install.Cleanup(download.value)]
    {
      Show(Downloading(0));
      effects := effects + [Install.Download(downloadUrl)];
      if download.Failure? {
        Show(Error(Install.MessageOr(download.error, DOWNLOAD_INSTALL_FAILED)));
        return;
      }
      var apkFile := download.value;
      Show(Installing);
      effects := effects + [Install.Install(apkFile)];
      effects := effects + [Install.Cleanup(apkFile)];
      if installed {
        Show(InstallSuccess);
      } else {
        Show(Error(INSTALLATION_FAILED));
      }
    }

    /** resetState */
    method ResetState()
      modifies this
      ensures uiState == Idle && shown == old(shown) + [Idle] && effects == old(effects)
    {
      Show(Idle);
    }
  }
}

=== FILE: base64.dfy ===
/** Base 64 encoding as RFC 4648 section 4 defines it, and the URL- and filename-safe variant
    of RFC 4648 section 5, with and without the "=" padding of RFC 4648 section 3.2. */
module Base64 {
  type Byte = b: int | 0 <= b < 256

  /** The value of a character of the RFC 4648 section 4 alphabet (url = false) or the
      RFC 4648 section 5 alphabet (url = true): A-Z, a-z, 0-9, then "+/" or "-_". */
  function Digit(v: nat, url: bool): (c: char)
    requires v < 64
    ensures c != '='
  {
    if v < 26 then ('A' as int + v) as char
    else if v < 52 then ('a' as int + (v - 26)) as char
    else if v < 62 then ('0' as int + (v - 52)) as char
    else if v == 62 then (if url then '-' else '+')
    else (if url then '_' else '/')
  }

  /** A group of one to three bytes as a 24-bit number, missing bytes read as zero bits. */
  function GroupWord(g: seq<Byte>): nat
    requires 1 <= |g| <= 3
  {
    (g[0] as int) * 65536 + (if |g| > 1 then g[1] as int else 0) * 256 + (if |g| > 2 then g[2] as int else 0)
  }

  /** The k-th 6-bit group of a 24-bit number, most significant first. */
  function Sextet(w: nat, k: nat): (v: nat)
    requires k < 4
    ensures v < 64
  {
    if k == 0 then (w / 262144) % 64
    else if k == 1 then (w / 4096) % 64
    else if k == 2 then (w / 64) % 64
    else w % 64
  }

  /** One input group: |g| + 1 characters, then padding up to four when `pad` is set. */
  function EncodeGroup(g: seq<Byte>, url: bool, pad: bool): (r: string)
    requires 1 <= |g| <= 3
    ensures |r| == if pad then 4 else |g| + 1
  {
    var w := GroupWord(g);
    seq(|g| + 1, k requires 0 <= k < |g| + 1 => Digit(Sextet(w, k), url))
    + (if pad then seq(3 - |g|, _ => '=') else [])
  }

  /** The encoding of a byte string, three bytes at a time from the front. */
  function Encode(b: seq<Byte>, url: bool, pad: bool): (r: string)
    ensures !pad ==> '=' !in r
    decreases |b|
  {
    if b == [] then []
    else
      var n := if |b| < 3 then |b| else 3;
      EncodeGroup(b[..n], url, pad) + Encode(b[n..], url, pad)
  }

  /** RFC 4648 section 4: what Python's base64.b64encode returns. */
  function StandardEncode(b: seq<Byte>): string { Encode(b, false, true) }

  /** RFC 4648 section 5 without padding. */
  function UrlEncodeNoPad(b: seq<Byte>): string { Encode(b, true, false) }

  /** Unpadded output has ceil(4n/3) characters: 43 for a 32-byte SHA-256 digest. */
  lemma {:induction false} UrlEncodeNoPadLength(b: seq<Byte>)
    ensures |UrlEncodeNoPad(b)| == (4 * |b| + 2) / 3
    decreases |b|
  {
    if b != [] {
      var n := if |b| < 3 then |b| else 3;
      UrlEncodeNoPadLength(b[n..]);
    }
  }

  /** str.replace for one character. */
  function Replace(s: string, from: char, to: char): (r: string)
    ensures |r| == |s|
    ensures forall i :: 0 <= i < |s| ==> r[i] == if s[i] == from then to else s[i]
  {
    seq(|s|, i requires 0 <= i < |s| => if s[i] == from then to else s[i])
  }

  /** str.rstrip for one character. */
  function RStrip(s: string, c: char): (r: string)
    ensures |r| <= |s| && r == s[..|r|]
    ensures r == [] || r[|r| - 1] != c
    ensures forall i :: |r| <= i < |s| ==> s[i] == c
  {
    if s != [] && s[|s| - 1] == c then RStrip(s[..|s| - 1], c) else s
  }

  /** b64.replace('+', '-').replace('/', '_') */
  function ToUrlAlphabet(s: string): string
  {
    Replace(Replace(s, '+', '-'), '/', '_')
  }

  lemma ToUrlAlphabetAppend(a: string, b: string)
    ensures ToUrlAlphabet(a + b) == ToUrlAlphabet(a) + ToUrlAlphabet(b)
  {
  }

  lemma ToUrlAlphabetGroup(g: seq<Byte>, pad: bool)
    requires 1 <= |g| <= 3
    ensures ToUrlAlphabet(EncodeGroup(g, false, pad)) == EncodeGroup(g, true, pad)
  {
    var s := EncodeGroup(g, false, pad);
    var t := EncodeGroup(g, true, pad);
    forall i | 0 <= i < |s| ensures ToUrlAlphabet(s)[i] == t[i] {
      if i < |g| + 1 {
        var v := Sextet(GroupWord(g), i);
        assert s[i] == Digit(v, false) && t[i] == Digit(v, true);
      }
    }
  }

  /** Swapping "+/" for "-_" turns the RFC 4648 section 4 encoding into the RFC 4648 section 5 encoding. */
  lemma {:induction false} ToUrlAlphabetEncode(b: seq<Byte>, pad: bool)
    ensures ToUrlAlphabet(Encode(b, false, pad)) == Encode(b, true, pad)
    decreases |b|
  {
    if b != [] {
      var n := if |b| < 3 then |b| else 3;
      ToUrlAlphabetAppend(EncodeGroup(b[..n], false, pad), Encode(b[n..], false, pad));
      ToUrlAlphabetGroup(b[..n], pad);
      ToUrlAlphabetEncode(b[n..], pad);
    }
  }

  /** The padding: "=" repeated until the length is a multiple of four. */
  function Padding(n: nat): string
  {
    seq((3 - n % 3) % 3, _ => '=')
  }

  lemma GroupPadding(g: seq<Byte>, url: bool)
    requires 1 <= |g| <= 3
    ensures EncodeGroup(g, url, true) == EncodeGroup(g, url, false) + Padding(|g|)
  {
    assert Padding(|g|) == seq(3 - |g|, _ => '=');
  }

  /** Three more bytes need no more padding. */
  lemma PaddingShift(n: nat)
    ensures Padding(n + 3) == Padding(n)
  {
    assert (n + 3) % 3 == n % 3;
  }

  /** Encoding more than three bytes: the first group, then the rest. */
  lemma EncodeUnfold(b: seq<Byte>, url: bool, pad: bool)
    requires |b| > 3
    ensures Encode(b, url, pad) == EncodeGroup(b[..3], url, pad) + Encode(b[3..], url, pad)
  {
  }

  lemma AppendPadding(padded: string, plain: string, head: string, rest: string, tail: string, pad: string)
    requires padded == head + rest && rest == tail + pad && plain == head + tail
    ensures padded == plain + pad
  {
  }

  /** One final group of one to three bytes. */
  lemma ShortPadded(b: seq<Byte>, url: bool)
    requires 1 <= |b| <= 3
    ensures Encode(b, url, true) == Encode(b, url, false) + Padding(|b|)
  {
    assert b[..|b|] == b && b[|b|..] == [];
    GroupPadding(b, url);
  }

  /** A padded encoding is the unpadded one followed by the padding. */
  lemma {:induction false} PaddedIsUnpaddedPlusPadding(b: seq<Byte>, url: bool)
    ensures Encode(b, url, true) == Encode(b, url, false) + Padding(|b|)
    decreases |b|
  {
    if b == [] {
    } else if |b| <= 3 {
      ShortPadded(b, url);
    } else {
      var g, rest := b[..3], b[3..];
      PaddedIsUnpaddedPlusPadding(rest, url);
      GroupPadding(g, url);
      assert Padding(3) == [];
      PaddingShift(|rest|);
      EncodeUnfold(b, url, true);
      EncodeUnfold(b, url, false);
      AppendPadding(Encode(b, url, true), Encode(b, url, false), EncodeGroup(g, url, false),
                    Encode(rest, url, true), Encode(rest, url, false), Padding(|rest|));
    }
  }

  lemma {:induction false} RStripPadding(s: string, m: nat)
    requires '=' !in s
    ensures RStrip(s + seq(m, _ => '='), '=') == s
  {
    var t := s + seq(m, _ => '=');
    if m == 0 {
      assert t == s;
      assert s == [] || s[|s| - 1] != '=';
    } else {
      assert t[|t| - 1] == '=';
      assert t[..|t| - 1] == s + seq(m - 1, _ => '=');
      RStripPadding(s, m - 1);
    }
  }

  /** The checksum step is RFC 4648 section 5 base 64 without padding: the standard encoding with
      "+/" swapped for "-_" and the trailing "=" stripped. */
  lemma UrlSafeIsUrlEncodeNoPad(b: seq<Byte>)
    ensures RStrip(ToUrlAlphabet(StandardEncode(b)), '=') == UrlEncodeNoPad(b)
  {
    ToUrlAlphabetEncode(b, true);
    PaddedIsUnpaddedPlusPadding(b, true);
    RStripPadding(UrlEncodeNoPad(b), (3 - |b| % 3) % 3);
  }

  /** No character of the unpadded RFC 4648 section 5 output is outside its alphabet. */
  lemma UrlEncodeAlphabet(b: seq<Byte>)
    ensures forall c :: c in UrlEncodeNoPad(b) ==> c !in "+/="
  {
    UrlEncodeAlphabetFrom(b);
  }

  lemma {:induction false} UrlEncodeAlphabetFrom(b: seq<Byte>)
    ensures forall i :: 0 <= i < |Encode(b, true, false)| ==> Encode(b, true, false)[i] != '+' && Encode(b, true, false)[i] != '/'
    decreases |b|
  {
    if b != [] {
      var n := if |b| < 3 then |b| else 3;
      UrlEncodeAlphabetFrom(b[n..]);
      var g := EncodeGroup(b[..n], true, false);
      forall i | 0 <= i < |g| ensures g[i] != '+' && g[i] != '/' {
        assert g[i] == Digit(Sextet(GroupWord(b[..n]), i), true);
      }
    }
  }
}

=== FILE: boot.dfy ===
/** BootReceiver: on boot, start the auto-start app when kiosk mode is active. */
module Boot {
  import opened Wrappers
  import Preferences

  const ACTION_BOOT_COMPLETED := "android.intent.action.BOOT_COMPLETED"

  /** What one broadcast leads to. */
  datatype BootOutcome =
    | Ignored           // not a boot broadcast, or no context
    | NothingToStart    // settings read, no launch attempted or no launch intent
    | Started(packageName: string)

  /** onReceive over the stored preferences; `hasLaunchIntent` says which packages the package
      manager can launch. The store is only read. */
  function OnReceive(action: Option<string>, hasContext: bool, store: Preferences.Prefs,
                     hasLaunchIntent: string -> bool): (r: BootOutcome)
    ensures r.Ignored? <==> action != Some(ACTION_BOOT_COMPLETED) || !hasContext
    ensures r.Started? <==>
              && action == Some(ACTION_BOOT_COMPLETED) && hasContext
              && Preferences.BoolOrFalse(store.kioskModeActive)
              && store.autoStartAppPackage.Some? && hasLaunchIntent(store.autoStartAppPackage.value)
    ensures r.Started? ==> store.autoStartAppPackage == Some(r.packageName)
  {
    if action != Some(ACTION_BOOT_COMPLETED) || !hasContext then Ignored
    else
      var kioskModeActive := Preferences.BoolOrFalse(store.kioskModeActive);
      var appToStart := store.autoStartAppPackage;
      if kioskModeActive && appToStart.Some? && hasLaunchIntent(appToStart.value) then Started(appToStart.value)
      else NothingToStart
  }

}

=== FILE: device_owner.dfy ===
/** DeviceOwnerManager: the kiosk's guarded mutators of the device-management authority. */
module DeviceOwner {
  import opened Wrappers
  import opened Platform
  import Launchers

  /** HOME | OVERVIEW | SYSTEM_INFO | GLOBAL_ACTIONS | KEYGUARD */
  const DEFAULT_LOCK_TASK_FEATURES: bv32 :=
    Bit(Home) | Bit(Overview) | Bit(SystemInfo) | Bit(GlobalActions) | Bit(Keyguard)

  /** The default mask holds exactly the five kiosk features and nothing else. */
  lemma DefaultFeaturesExactly()
    ensures DEFAULT_LOCK_TASK_FEATURES == 61
    ensures forall f :: HasFeature(DEFAULT_LOCK_TASK_FEATURES, f)
                        <==> f in {Home, Overview, SystemInfo, GlobalActions, Keyguard}
  {
    forall f ensures HasFeature(DEFAULT_LOCK_TASK_FEATURES, f)
                     <==> f in {Home, Overview, SystemInfo, GlobalActions, Keyguard}
    {
      match f
      case SystemInfo =>
      case Notifications =>
      case Home =>
      case Overview =>
      case GlobalActions =>
      case Keyguard =>
      case BlockActivityStartInTask =>
    }
  }

  /** The calls of a read-compare-write of the feature mask that reads `current`. */
  function FeatureWriteCalls(current: bv32, desired: bv32, setFails: bool): seq<Call>
  {
    if current == desired then [Call.GetLockTaskFeatures]
    else [Call.GetLockTaskFeatures, Call.SetLockTaskFeatures(desired)] + (if setFails then [] else [Call.GetLockTaskFeatures])
  }

  /** Read the mask, and only when it differs write it and read it back for the log.
      Shared by DeviceOwnerManager.setLockTaskFeatures and MainActivity.setKioskPolicies. */
  method WriteFeaturesIfDifferent(dpm: Authority, features: bv32) returns (r: Outcome<Error>)
    modifies dpm
    ensures OpGetFeatures in dpm.failing ==>
              r == Fail(CallFailed(OpGetFeatures)) && dpm.policy == old(dpm.policy)
              && dpm.calls == old(dpm.calls) + [Call.GetLockTaskFeatures]
    ensures OpGetFeatures !in dpm.failing ==>
              && dpm.calls == old(dpm.calls)
                              + FeatureWriteCalls(old(dpm.policy.lockTaskFeatures), features,
                                                  OpSetFeatures in dpm.failing)
              && (r.Fail? <==> old(dpm.policy.lockTaskFeatures) != features && OpSetFeatures in dpm.failing)
    ensures r.Fail? ==> dpm.policy == old(dpm.policy)
    ensures r.Pass? ==> dpm.policy == old(dpm.policy).(lockTaskFeatures := features)
  {
    var current := dpm.GetLockTaskFeatures();
    if current.Failure? {
      return Fail(current.error);
    }
    if current.value != features {
      r := dpm.SetLockTaskFeatures(features);
      if r.Fail? {
        return;
      }
      // read back for the log; faults are persistent here, so it cannot fail once the first read passed
      var _ := dpm.GetLockTaskFeatures();
    }
    r := Pass;
  }

  /** setLockTaskFeatures(features): device-owner guard, then write-if-different. */
  method SetLockTaskFeatures(dpm: Authority, features: bv32) returns (r: Outcome<Error>)
    modifies dpm
    ensures |old(dpm.calls)| <= |dpm.calls| && dpm.calls[..|old(dpm.calls)|] == old(dpm.calls)
    ensures !dpm.deviceOwner ==>
              r == Fail(NotDeviceOwnerError) && dpm.calls == old(dpm.calls) && dpm.policy == old(dpm.policy)
    ensures dpm.deviceOwner && OpGetFeatures in dpm.failing ==>
              dpm.calls == old(dpm.calls) + [Call.GetLockTaskFeatures]
    ensures dpm.deviceOwner && OpGetFeatures !in dpm.failing ==>
              && dpm.calls == old(dpm.calls)
                              + FeatureWriteCalls(old(dpm.policy.lockTaskFeatures), features,
                                                  OpSetFeatures in dpm.failing)
              && (Call.SetLockTaskFeatures(features) in dpm.calls[|old(dpm.calls)|..]
                  <==> old(dpm.policy.lockTaskFeatures) != features)
    ensures r.Pass? <==> dpm.deviceOwner && OpGetFeatures !in dpm.failing
                         && (old(dpm.policy.lockTaskFeatures) == features || OpSetFeatures !in dpm.failing)
    ensures r.Fail? ==> dpm.policy == old(dpm.policy)
    ensures r.Pass? ==> dpm.policy == old(dpm.policy).(lockTaskFeatures := features)
    ensures FeatureWrites(dpm.calls[|old(dpm.calls)|..]) == if r.Pass? && old(dpm.policy.lockTaskFeatures) == features then 0
                                                           else if dpm.deviceOwner && OpGetFeatures !in dpm.failing then 1
                                                           else 0
  {
    if !dpm.deviceOwner {
      r := Fail(NotDeviceOwnerError);
      assert dpm.calls[|old(dpm.calls)|..] == [];
      return;
    }
    r := WriteFeaturesIfDifferent(dpm, features);
    assert dpm.calls[|old(dpm.calls)|..] == if OpGetFeatures in dpm.failing then [Call.GetLockTaskFeatures]
      else FeatureWriteCalls(old(dpm.policy.lockTaskFeatures), features, OpSetFeatures in dpm.failing);
  }

  /** Writing the same mask twice in a row, with nothing changing it in between,
      writes it at most once when writes succeed (a failing write is retried by the second call). */
  method SetLockTaskFeaturesTwice(dpm: Authority, features: bv32) returns (first: Outcome<Error>, second: Outcome<Error>)
    modifies dpm
    ensures |old(dpm.calls)| <= |dpm.calls| && dpm.calls[..|old(dpm.calls)|] == old(dpm.calls)
    ensures OpSetFeatures !in dpm.failing ==> FeatureWrites(dpm.calls[|old(dpm.calls)|..]) <= 1
    ensures first.Pass? ==> second.Pass?
    ensures first.Pass? ==> FeatureWrites(dpm.calls[|old(dpm.calls)|..]) == (if old(dpm.policy.lockTaskFeatures) == features then 0 else 1)
  {
    ghost var c0 := dpm.calls;
    first := SetLockTaskFeatures(dpm, features);
    ghost var c1 := dpm.calls;
    ghost var w1 := FeatureWrites(c1[|c0|..]);
    second := SetLockTaskFeatures(dpm, features);
    ghost var w2 := FeatureWrites(dpm.calls[|c1|..]);
    assert first.Pass? ==> w2 == 0;
    assert dpm.calls[|c0|..] == c1[|c0|..] + dpm.calls[|c1|..];
    FeatureWritesAppend(c1[|c0|..], dpm.calls[|c1|..]);
  }

  /** setLockTaskPackages(packages): device-owner guard, then the list as given, with no diffing. */
  method SetLockTaskPackages(dpm: Authority, packages: seq<string>) returns (r: Outcome<Error>)
    modifies dpm
    ensures !dpm.deviceOwner ==>
              r == Fail(NotDeviceOwnerError) && dpm.calls == old(dpm.calls) && dpm.policy == old(dpm.policy)
    ensures dpm.deviceOwner ==>
              && dpm.calls == old(dpm.calls) + [Call.SetLockTaskPackages(packages)]
              && (r.Pass? <==> OpSetPackages !in dpm.failing)
    ensures dpm.policy == if r.Pass? then old(dpm.policy).(lockTaskPackages := packages) else old(dpm.policy)
  {
    if !dpm.deviceOwner {
      return Fail(NotDeviceOwnerError);
    }
    r := dpm.SetLockTaskPackages(packages);
  }

  /** The calls of dethroning the current home: resolve it, then clear its registrations. */
  function DethroneCalls(home: Option<string>): seq<Call>
  {
    [Call.ResolveHomeActivity] + (if home.Some? then [Call.ClearPersistentPreferred(home.value)] else [])
  }

  /** The registrations left once the current home is dethroned. */
  function Dethroned(regs: seq<Component>, home: Option<string>, clearFails: bool): seq<Component>
  {
    if home.Some? && !clearFails then WithoutPackage(regs, home.value) else regs
  }

  /** At most one package holds persistent HOME registrations. */
  predicate SingleHome(regs: seq<Component>)
  {
    forall i, j :: 0 <= i < |regs| && 0 <= j < |regs| ==> regs[i].packageName == regs[j].packageName
  }

  /** Resolve the current home and clear its registrations; a failing clear is swallowed,
      a failing resolve is not. */
  method DethroneCurrentHome(dpm: Authority) returns (r: Outcome<Error>)
    modifies dpm
    ensures OpResolveHome in dpm.failing ==>
              r == Fail(CallFailed(OpResolveHome)) && dpm.policy == old(dpm.policy)
              && dpm.calls == old(dpm.calls) + [Call.ResolveHomeActivity]
    ensures OpResolveHome !in dpm.failing ==>
              && r == Pass
              && dpm.calls == old(dpm.calls) + DethroneCalls(old(dpm.CurrentHome()))
              && dpm.policy == old(dpm.policy).(preferredHome :=
                   Dethroned(old(dpm.policy.preferredHome), old(dpm.CurrentHome()), OpClearPreferred in dpm.failing))
  {
    var current := dpm.ResolveHomeActivity();
    if current.Failure? {
      return Fail(current.error);
    }
    if current.value.Some? {
      var _ := dpm.ClearPersistentPreferred(current.value.value);
    }
    r := Pass;
  }

  /** Clearing the one package every registration belongs to leaves none. */
  lemma {:induction false} WithoutOnlyPackage(regs: seq<Component>, pkg: string)
    requires forall i :: 0 <= i < |regs| ==> regs[i].packageName == pkg
    ensures WithoutPackage(regs, pkg) == []
  {
    if regs != [] {
      WithoutOnlyPackage(regs[1..], pkg);
    }
  }

  /** Once the current home of a single-home registration table is cleared, no registration is left. */
  lemma DethroneEmpties(dpm: Authority)
    requires SingleHome(dpm.policy.preferredHome)
    ensures Dethroned(dpm.policy.preferredHome, dpm.CurrentHome(), false) == []
  {
    var regs := dpm.policy.preferredHome;
    if regs != [] {
      WithoutOnlyPackage(regs, regs[|regs| - 1].packageName);
    }
  }

  /** DeviceOwnerManager.setHomeLauncher(target): clear the current home, then register the target. */
  method SetHomeLauncher(dpm: Authority, target: LauncherInfo) returns (r: Outcome<Error>)
    modifies dpm
    ensures OpResolveHome in dpm.failing ==>
              r == Fail(CallFailed(OpResolveHome)) && dpm.policy == old(dpm.policy)
              && dpm.calls == old(dpm.calls) + [Call.ResolveHomeActivity]
    ensures OpResolveHome !in dpm.failing ==>
              && dpm.calls == old(dpm.calls) + DethroneCalls(old(dpm.CurrentHome()))
                              + [Call.AddPersistentPreferred(target.component)]
              && (r.Pass? <==> OpAddPreferred !in dpm.failing)
              && var cleared := Dethroned(old(dpm.policy.preferredHome), old(dpm.CurrentHome()),
                                          OpClearPreferred in dpm.failing);
                 dpm.policy == old(dpm.policy).(preferredHome :=
                                 if r.Pass? then cleared + [target.component] else cleared)
    ensures r.Fail? ==> r.error == if OpResolveHome in dpm.failing then CallFailed(OpResolveHome)
                                   else CallFailed(OpAddPreferred)
    ensures r.Pass? ==> dpm.CurrentHome() == Some(target.component.packageName)
    ensures r.Pass? && OpClearPreferred !in dpm.failing && SingleHome(old(dpm.policy.preferredHome)) ==>
              dpm.policy.preferredHome == [target.component]
  {
    if SingleHome(dpm.policy.preferredHome) {
      DethroneEmpties(dpm);
    }
    r := DethroneCurrentHome(dpm);
    if r.Fail? {
      return;
    }
    r := dpm.AddPersistentPreferred(target.component);
  }

  /** Whether setAsHomeLauncher fails, and with which error, for a given authority. */
  function HomeStepFailure(dpm: Authority): Option<Error>
    reads dpm
  {
    if !dpm.deviceOwner then Some(NotDeviceOwnerError)
    else if OpQueryHome in dpm.failing then Some(CallFailed(OpQueryHome))
    else if Launchers.PickSelfLauncher(dpm.homeActivities, dpm.callerPackage).None? then Some(OwnLauncherMissing)
    else if OpResolveHome in dpm.failing then Some(CallFailed(OpResolveHome))
    else if OpAddPreferred in dpm.failing then Some(CallFailed(OpAddPreferred))
    else None
  }

  /** Only launcher-related calls. */
  predicate HomeCallsOnly(log: seq<Call>)
  {
    forall i :: 0 <= i < |log| ==>
      log[i].QueryHomeActivities? || log[i].ResolveHomeActivity?
      || log[i].ClearPersistentPreferred? || log[i].AddPersistentPreferred?
  }

  lemma HomeStepCallsOnly(home: Option<string>, c: Component)
    ensures HomeCallsOnly([Call.QueryHomeActivities, Call.ResolveHomeActivity])
    ensures HomeCallsOnly([Call.QueryHomeActivities] + DethroneCalls(home) + [Call.AddPersistentPreferred(c)])
  {
  }

  /** setAsHomeLauncher(): guard, find the kiosk's own HOME activity, make it the home. */
  method SetAsHomeLauncher(dpm: Authority) returns (r: Outcome<Error>)
    modifies dpm
    ensures |old(dpm.calls)| <= |dpm.calls| && dpm.calls[..|old(dpm.calls)|] == old(dpm.calls)
    ensures HomeStepFailure(dpm).Some? <==> r.Fail?
    ensures r.Fail? ==> r.error == HomeStepFailure(dpm).value
    ensures HomeCallsOnly(dpm.calls[|old(dpm.calls)|..])
    ensures !dpm.deviceOwner ==> dpm.calls == old(dpm.calls)
    ensures dpm.deviceOwner && OpQueryHome !in dpm.failing && OpResolveHome !in dpm.failing
            && Launchers.PickSelfLauncher(dpm.homeActivities, dpm.callerPackage).Some? ==>
              dpm.calls == old(dpm.calls) + [Call.QueryHomeActivities] + DethroneCalls(old(dpm.CurrentHome()))
                           + [Call.AddPersistentPreferred(Launchers.PickSelfLauncher(dpm.homeActivities, dpm.callerPackage).value.component)]
    ensures dpm.policy == old(dpm.policy).(preferredHome := dpm.policy.preferredHome)
    ensures (r.Fail? && r.error != CallFailed(OpAddPreferred)) ==> dpm.policy == old(dpm.policy)
    ensures r.Pass? ==> dpm.CurrentHome() == Some(dpm.callerPackage)
    ensures r.Pass? ==>
              dpm.policy.preferredHome
              == Dethroned(old(dpm.policy.preferredHome), old(dpm.CurrentHome()), OpClearPreferred in dpm.failing)
                 + [Launchers.PickSelfLauncher(dpm.homeActivities, dpm.callerPackage).value.component]
    ensures r.Pass? && OpClearPreferred !in dpm.failing && SingleHome(old(dpm.policy.preferredHome)) ==>
              |dpm.policy.preferredHome| == 1 && dpm.policy.preferredHome[0].packageName == dpm.callerPackage
  {
    if !dpm.deviceOwner {
      r := Fail(NotDeviceOwnerError);
      assert dpm.calls[|old(dpm.calls)|..] == [];
      return;
    }
    var launchers := dpm.QueryHomeActivities();
    if launchers.Failure? {
      r := Fail(launchers.error);
      assert dpm.calls[|old(dpm.calls)|..] == [Call.QueryHomeActivities];
      return;
    }
    var selfLauncher := Launchers.PickSelfLauncher(launchers.value, dpm.callerPackage);
    if selfLauncher.None? {
      r := Fail(OwnLauncherMissing);
      assert dpm.calls[|old(dpm.calls)|..] == [Call.QueryHomeActivities];
      return;
    }
    ghost var home := dpm.CurrentHome();
    assert home == old(dpm.CurrentHome());
    ghost var c0 := old(dpm.calls);
    r := SetHomeLauncher(dpm, selfLauncher.value);
    HomeStepCallsOnly(home, selfLauncher.value.component);
    if OpResolveHome in dpm.failing {
      assert dpm.calls[|c0|..] == [Call.QueryHomeActivities, Call.ResolveHomeActivity];
    } else {
      assert dpm.calls[|c0|..] == [Call.QueryHomeActivities] + DethroneCalls(home)
                                  + [Call.AddPersistentPreferred(selfLauncher.value.component)];
    }
  }

  /** setLockScreenInfo(info): throws when not device owner, otherwise sets the info. */
  method SetLockScreenInfo(dpm: Authority, info: string) returns (r: Outcome<Error>)
    modifies dpm
    ensures !dpm.deviceOwner ==>
              r == Fail(NotDeviceOwnerError) && dpm.calls == old(dpm.calls) && dpm.policy == old(dpm.policy)
    ensures dpm.deviceOwner ==>
              dpm.calls == old(dpm.calls) + [Call.SetLockScreenInfo(info)]
              && (r.Pass? <==> OpSetLockScreenInfo !in dpm.failing)
    ensures dpm.policy == if r.Pass? then old(dpm.policy).(lockScreenInfo := Some(info)) else old(dpm.policy)
  {
    if !dpm.deviceOwner {
      return Fail(NotDeviceOwnerError);
    }
    r := dpm.SetLockScreenInfo(info);
  }

  /** isInLockTaskMode: the lock state is LOCKED or PINNED. */
  function IsInLockTaskMode(dpm: Authority): (r: bool)
    reads dpm
    ensures r <==> dpm.policy.lockTaskMode in {LockTaskModeLocked, LockTaskModePinned}
  {
    dpm.InLockTaskMode()
  }
}

=== FILE: install.dfy ===
/** DownloadAndInstallApkUseCase: URL validation and the states emitted while an APK is
    downloaded, installed silently and cleaned up. */
module Install {
  import opened Wrappers
  import Text

  const EMPTY_URL := "APK URL е празен"
  const INVALID_URL := "Невалиден URL формат"
  const INSTALL_FAILED := "Инсталацията се провали"
  const UNKNOWN_ERROR := "Неизвестна грешка"

  datatype InstallState = Downloading(progress: int) | Installing | Success | Error(message: string)

  /** A downloaded file, known by the path the download chose for it. */
  datatype ApkFile = ApkFile(path: string)

  /** The repository operations the use case performs, in order. */
  datatype Effect = Download(url: string) | Install(file: ApkFile) | Cleanup(file: ApkFile)

  predicate HasHttpScheme(url: string)
  {
    Text.StartsWith(url, "http://") || Text.StartsWith(url, "https://")
  }

  /** exception.message ?: fallback */
  function MessageOr(message: Option<string>, fallback: string): string
  {
    if message.Some? then message.value else fallback
  }

  /** The emitted states for a URL, given how the download ends (the file, or the exception's
      message) and whether the install succeeds. */
  function InstallStates(apkUrl: string, download: Result<ApkFile, Option<string>>, installed: bool): seq<InstallState>
  {
    if Text.IsBlank(apkUrl) then [Error(EMPTY_URL)]
    else if !HasHttpScheme(apkUrl) then [Error(INVALID_URL)]
    else if download.Failure? then [Downloading(0), Error(MessageOr(download.error, UNKNOWN_ERROR))]
    else [Downloading(0), Installing, if installed then InstallState.Success else Error(INSTALL_FAILED)]
  }

  /** The repository operations for the same inputs. */
  function InstallEffects(apkUrl: string, download: Result<ApkFile, Option<string>>): seq<Effect>
  {
    if Text.IsBlank(apkUrl) || !HasHttpScheme(apkUrl) then []
    else if download.Failure? then [Download(apkUrl)]
    else [Download(apkUrl), Install(download.value), Cleanup(download.value)]
  }

  predicate Terminal(s: InstallState) { s.Success? || s.Error? }

  /** The emitted states end in exactly one terminal state, start with Downloading(0) once the URL
      is valid, never report progress other than 0, and emit Success only right after Installing. */
  lemma InstallStatesWellFormed(apkUrl: string, download: Result<ApkFile, Option<string>>, installed: bool)
    ensures var states := InstallStates(apkUrl, download, installed);
            && |states| >= 1
            && Terminal(states[|states| - 1])
            && (forall i :: 0 <= i < |states| - 1 ==> !Terminal(states[i]))
            && (forall i :: 0 <= i < |states| && states[i].Downloading? ==> i == 0 && states[i].progress == 0)
            && (forall i :: 0 <= i < |states| && states[i].Success? ==> i > 0 && states[i - 1] == Installing)
            && (!Text.IsBlank(apkUrl) && HasHttpScheme(apkUrl) ==> states[0] == Downloading(0))
  {
  }

  /** Success is emitted exactly for a valid URL whose download returns and whose install succeeds. */
  lemma SuccessExactly(apkUrl: string, download: Result<ApkFile, Option<string>>, installed: bool)
    ensures InstallState.Success in InstallStates(apkUrl, download, installed)
            <==> !Text.IsBlank(apkUrl) && HasHttpScheme(apkUrl) && download.Success? && installed
  {
  }

  /** A rejected URL causes no download; every install attempt is followed by a cleanup of the
      same file; a download that throws is neither installed nor cleaned up. */
  lemma EffectsOrdered(apkUrl: string, download: Result<ApkFile, Option<string>>)
    ensures var effects := InstallEffects(apkUrl, download);
            && (Text.IsBlank(apkUrl) || !HasHttpScheme(apkUrl) <==> effects == [])
            && (forall i :: 0 <= i < |effects| && effects[i].Install? ==>
                  i + 1 < |effects| && effects[i + 1] == Cleanup(effects[i].file))
            && (download.Failure? ==> forall i :: 0 <= i < |effects| ==> effects[i].Download?)
  {
  }

  /** One step of the use case, in the order it happens: a state emitted to the collector or an
      operation performed on the repository. */
  datatype Event = Emitted(state: InstallState) | Performed(effect: Effect)

  /** The states of a run, in order. */
  function StatesOf(trace: seq<Event>): (r: seq<InstallState>)
    ensures |r| <= |trace|
  {
    if trace == [] then []
    else (if trace[0].Emitted? then [trace[0].state] else []) + StatesOf(trace[1..])
  }

  /** The repository operations of a run, in order. */
  function EffectsOf(trace: seq<Event>): (r: seq<Effect>)
    ensures |r| <= |trace|
  {
    if trace == [] then []
    else (if trace[0].Performed? then [trace[0].effect] else []) + EffectsOf(trace[1..])
  }

  lemma StatesCons(h: Event, t: seq<Event>)
    ensures StatesOf([h] + t) == (if h.Emitted? then [h.state] else []) + StatesOf(t)
  {
    assert ([h] + t)[0] == h && ([h] + t)[1..] == t;
  }

  lemma EffectsCons(h: Event, t: seq<Event>)
    ensures EffectsOf([h] + t) == (if h.Performed? then [h.effect] else []) + EffectsOf(t)
  {
    assert ([h] + t)[0] == h && ([h] + t)[1..] == t;
  }

  /** The whole run for the same inputs, states and operations interleaved as invoke performs them. */
  function InstallTrace(apkUrl: string, download: Result<ApkFile, Option<string>>, installed: bool): seq<Event>
  {
    if Text.IsBlank(apkUrl) then [Emitted(Error(EMPTY_URL))]
    else if !HasHttpScheme(apkUrl) then [Emitted(Error(INVALID_URL))]
    else if download.Failure? then
      [Emitted(Downloading(0))] + ([Performed(Download(apkUrl))]
      + [Emitted(Error(MessageOr(download.error, UNKNOWN_ERROR)))])
    else
      [Emitted(Downloading(0))] + ([Performed(Download(apkUrl))] + ([Emitted(Installing)]
      + ([Performed(Install(download.value))]
      + ([Emitted(if installed then InstallState.Success else Error(INSTALL_FAILED))]
      + [Performed(Cleanup(download.value))]))))
  }

  /** The states of a run whose download returned. */
  lemma FetchedStates(apkUrl: string, file: ApkFile, installed: bool)
    requires !Text.IsBlank(apkUrl) && HasHttpScheme(apkUrl)
    ensures StatesOf(InstallTrace(apkUrl, Result.Success(file), installed))
            == [Downloading(0), Installing, if installed then InstallState.Success else Error(INSTALL_FAILED)]
  {
    var t5 := [Performed(Cleanup(file))];
    var t4 := [Emitted(if installed then InstallState.Success else Error(INSTALL_FAILED))] + t5;
    var t3 := [Performed(Install(file))] + t4;
    var t2 := [Emitted(Installing)] + t3;
    var t1 := [Performed(Download(apkUrl))] + t2;
    assert InstallTrace(apkUrl, Result.Success(file), installed) == [Emitted(Downloading(0))] + t1;
    StatesCons(t5[0], []);
    assert t5 == [t5[0]] + [];
    StatesCons(t4[0], t5);
    StatesCons(t3[0], t4);
    StatesCons(t2[0], t3);
    StatesCons(t1[0], t2);
    StatesCons(Emitted(Downloading(0)), t1);
  }


  /** The operations of a run whose download returned. */
  lemma FetchedEffects(apkUrl: string, file: ApkFile, installed: bool)
    requires !Text.IsBlank(apkUrl) && HasHttpScheme(apkUrl)
    ensures EffectsOf(InstallTrace(apkUrl, Result.Success(file), installed)) == [Download(apkUrl), Install(file), Cleanup(file)]
  {
    var t5 := [Performed(Cleanup(file))];
    var t4 := [Emitted(if installed then InstallState.Success else Error(INSTALL_FAILED))] + t5;
    var t3 := [Performed(Install(file))] + t4;
    var t2 := [Emitted(Installing)] + t3;
    var t1 := [Performed(Download(apkUrl))] + t2;
    assert InstallTrace(apkUrl, Result.Success(file), installed) == [Emitted(Downloading(0))] + t1;
    EffectsCons(t5[0], []);
    assert t5 == [t5[0]] + [];
    EffectsCons(t4[0], t5);
    EffectsCons(t3[0], t4);
    EffectsCons(t2[0], t3);
    EffectsCons(t1[0], t2);
    EffectsCons(Emitted(Downloading(0)), t1);
  }


  /** The states and operations of a run whose download threw. */
  lemma FailedDownloadProjections(apkUrl: string, message: Option<string>, installed: bool)
    requires !Text.IsBlank(apkUrl) && HasHttpScheme(apkUrl)
    ensures StatesOf(InstallTrace(apkUrl, Failure(message), installed))
            == [Downloading(0), Error(MessageOr(message, UNKNOWN_ERROR))]
    ensures EffectsOf(InstallTrace(apkUrl, Failure(message), installed)) == [Download(apkUrl)]
  {
    var e := Emitted(Error(MessageOr(message, UNKNOWN_ERROR)));
    StatesCons(e, []);
    EffectsCons(e, []);
    StatesCons(Performed(Download(apkUrl)), [e]);
    EffectsCons(Performed(Download(apkUrl)), [e]);
    StatesCons(Emitted(Downloading(0)), [Performed(Download(apkUrl)), e]);
    EffectsCons(Emitted(Downloading(0)), [Performed(Download(apkUrl)), e]);
  }

  /** The run's states are InstallStates and its operations InstallEffects. */
  lemma TraceProjections(apkUrl: string, download: Result<ApkFile, Option<string>>, installed: bool)
    ensures StatesOf(InstallTrace(apkUrl, download, installed)) == InstallStates(apkUrl, download, installed)
    ensures EffectsOf(InstallTrace(apkUrl, download, installed)) == InstallEffects(apkUrl, download)
  {
    if Text.IsBlank(apkUrl) || !HasHttpScheme(apkUrl) {
      var e := InstallTrace(apkUrl, download, installed)[0];
      StatesCons(e, []);
      EffectsCons(e, []);
      assert InstallTrace(apkUrl, download, installed) == [e] + [];
    } else if download.Failure? {
      FailedDownloadProjections(apkUrl, download.error, installed);
    } else {
      FetchedStates(apkUrl, download.value, installed);
      FetchedEffects(apkUrl, download.value, installed);
    }
  }

  /** The outcome is emitted before the file is cleaned up: every cleanup comes right after a
      terminal state, and that state follows the install of the same file. */
  lemma TerminalBeforeCleanup(apkUrl: string, download: Result<ApkFile, Option<string>>, installed: bool)
    ensures var t := InstallTrace(apkUrl, download, installed);
            forall i :: 0 <= i < |t| && t[i].Performed? && t[i].effect.Cleanup? ==>
              && 2 <= i
              && t[i - 1].Emitted? && Terminal(t[i - 1].state)
              && t[i - 2] == Performed(Install(t[i].effect.file))
  {
    var t := InstallTrace(apkUrl, download, installed);
    if Text.IsBlank(apkUrl) || !HasHttpScheme(apkUrl) {
      assert |t| == 1 && t[0].Emitted?;
    } else if download.Failure? {
      assert |t| == 3 && t[0].Emitted? && t[1] == Performed(Download(apkUrl)) && t[2].Emitted?;
    } else {
      var file := download.value;
      assert |t| == 6;
      assert t[0].Emitted? && t[1] == Performed(Download(apkUrl)) && t[2].Emitted?;
      assert t[3] == Performed(Install(file)) && t[4].Emitted? && Terminal(t[4].state);
      assert t[5] == Performed(Cleanup(file));
    }
  }

  /** invoke(apkUrl): the run, in order. The install and cleanup steps are taken not to throw (the
      repository catches their exceptions). */
  method DownloadAndInstall(apkUrl: string, download: Result<ApkFile, Option<string>>, installed: bool)
    returns (trace: seq<Event>)
    ensures trace == InstallTrace(apkUrl, download, installed)
    ensures StatesOf(trace) == InstallStates(apkUrl, download, installed)
    ensures EffectsOf(trace) == InstallEffects(apkUrl, download)
  {
    TraceProjections(apkUrl, download, installed);
    trace := [];
    if Text.IsBlank(apkUrl) {
      trace := trace + [Emitted(Error(EMPTY_URL))];
      return;
    }
    if !Text.StartsWith(apkUrl, "http://") && !Text.StartsWith(apkUrl, "https://") {
      trace := trace + [Emitted(Error(INVALID_URL))];
      return;
    }
    trace := trace + [Emitted(Downloading(0))];
    trace := trace + [Performed(Download(apkUrl))];
    if download.Failure? {
      trace := trace + [Emitted(Error(MessageOr(download.error, UNKNOWN_ERROR)))];
      return;
    }
    var apkFile := download.value;
    trace := trace + [Emitted(Installing)];
    trace := trace + [Performed(Install(apkFile))];
    if installed {
      trace := trace + [Emitted(InstallState.Success)];
    } else {
      trace := trace + [Emitted(Error(INSTALL_FAILED))];
    }
    trace := trace + [Performed(Cleanup(apkFile))];
  }

  /** Validation comes first: a blank URL emits only the empty-URL error, and a non-blank URL
      without an http(s) scheme only the format error, however the download and install would end. */
  lemma RejectedUrls(apkUrl: string, download: Result<ApkFile, Option<string>>, installed: bool)
    ensures Text.IsBlank(apkUrl) ==> InstallStates(apkUrl, download, installed) == [Error(EMPTY_URL)]
    ensures !Text.IsBlank(apkUrl) && !HasHttpScheme(apkUrl) ==>
              InstallStates(apkUrl, download, installed) == [Error(INVALID_URL)]
    ensures Text.IsBlank(apkUrl) || !HasHttpScheme(apkUrl) ==> InstallEffects(apkUrl, download) == []
  {
  }

  /** Three concrete URLs: blank, an ftp URL, and an https URL whose download throws without a message. */
  lemma RejectedUrlExamples()
    ensures InstallStates("  ", Failure(None), false) == [Error(EMPTY_URL)]
    ensures InstallStates("ftp://host/app.apk", Failure(None), false) == [Error(INVALID_URL)]
    ensures InstallStates("https://host/app.apk", Failure(None), false) == [Downloading(0), Error(UNKNOWN_ERROR)]
  {
    assert !Text.IsBlank("ftp://host/app.apk") by { assert !Text.IsWhitespace("ftp://host/app.apk"[0]); }
    assert !Text.IsBlank("https://host/app.apk") by { assert !Text.IsWhitespace("https://host/app.apk"[0]); }
    assert !Text.StartsWith("ftp://host/app.apk", "http://") by { assert "ftp://host/app.apk"[0] != "http://"[0]; }
    assert !Text.StartsWith("ftp://host/app.apk", "https://") by { assert "ftp://host/app.apk"[0] != "https://"[0]; }
    assert Text.StartsWith("https://host/app.apk", "https://");
  }
}

=== FILE: launchers.dfy ===
/** Choosing a HOME activity among the resolved launchers
    (MainActivity.pickSelfLauncher / pickNonSelfLauncher and the self lookup in
    DeviceOwnerManager.setAsHomeLauncher). */
module Launchers {
  import opened Wrappers
  import opened Platform

  /** `firstOrNull(p)` */
  function First(ls: seq<LauncherInfo>, p: LauncherInfo -> bool): (r: Option<LauncherInfo>)
    ensures r.None? <==> forall i :: 0 <= i < |ls| ==> !p(ls[i])
    ensures r.Some? ==> exists i :: 0 <= i < |ls| && ls[i] == r.value && p(ls[i])
                                    && forall j :: 0 <= j < i ==> !p(ls[j])
  {
    if ls == [] then None
    else if p(ls[0]) then Some(ls[0])
    else
      var r := First(ls[1..], p);
      assert r.Some? ==> exists i :: 0 <= i < |ls| && ls[i] == r.value && p(ls[i])
                                    && forall j :: 0 <= j < i ==> !p(ls[j]) by {
        if r.Some? {
          var i :| 0 <= i < |ls[1..]| && ls[1..][i] == r.value && p(ls[1..][i])
                   && forall j :: 0 <= j < i ==> !p(ls[1..][j]);
          assert ls[i + 1] == r.value;
          forall j | 0 <= j < i + 1 ensures !p(ls[j]) {
            if j > 0 { assert ls[j] == ls[1..][j - 1]; }
          }
        }
      }
      r
  }

  /** `filter(p)` */
  function Filter(ls: seq<LauncherInfo>, p: LauncherInfo -> bool): (r: seq<LauncherInfo>)
    ensures forall l :: l in r <==> l in ls && p(l)
    ensures r != [] ==> First(ls, p) == Some(r[0])
  {
    if ls == [] then []
    else if p(ls[0]) then [ls[0]] + Filter(ls[1..], p)
    else Filter(ls[1..], p)
  }

  predicate IsSelf(l: LauncherInfo, selfPackage: string)
  {
    l.component.packageName == selfPackage
  }

  /** The first launcher of the kiosk's own package, if there is one. */
  function PickSelfLauncher(launchers: seq<LauncherInfo>, selfPackage: string): (r: Option<LauncherInfo>)
    ensures r.None? <==> forall i :: 0 <= i < |launchers| ==> !IsSelf(launchers[i], selfPackage)
    ensures r.Some? ==> exists i :: 0 <= i < |launchers| && launchers[i] == r.value
                                    && IsSelf(r.value, selfPackage)
                                    && forall j :: 0 <= j < i ==> !IsSelf(launchers[j], selfPackage)
  {
    First(launchers, l => IsSelf(l, selfPackage))
  }

  /** A home to hand over to: among the launchers of other packages the first
      system one, else the first one; none when every launcher is the kiosk's own. */
  function PickNonSelfLauncher(launchers: seq<LauncherInfo>, selfPackage: string): (r: Option<LauncherInfo>)
    ensures r.Some? ==> r.value in launchers && !IsSelf(r.value, selfPackage)
    ensures r.None? <==> forall i :: 0 <= i < |launchers| ==> IsSelf(launchers[i], selfPackage)
    ensures (exists l :: l in launchers && !IsSelf(l, selfPackage) && l.isSystem) ==>
              r == First(launchers, l => !IsSelf(l, selfPackage) && l.isSystem)
    ensures (forall l :: l in launchers && !IsSelf(l, selfPackage) ==> !l.isSystem) ==>
              r == First(launchers, l => !IsSelf(l, selfPackage))
  {
    var candidates := Filter(launchers, l => !IsSelf(l, selfPackage));
    assert candidates == [] ==> forall i :: 0 <= i < |launchers| ==> IsSelf(launchers[i], selfPackage) by {
      if candidates == [] {
        forall i | 0 <= i < |launchers| ensures IsSelf(launchers[i], selfPackage) {
          assert launchers[i] in launchers;
        }
      }
    }
    if candidates == [] then None
    else
      var systemCandidates := Filter(candidates, (l: LauncherInfo) => l.isSystem);
      FilterFilter(launchers, selfPackage);
      if systemCandidates != [] then Some(systemCandidates[0]) else Some(candidates[0])
  }

  /** Filtering the candidates for system launchers is one filter with both conditions. */
  lemma {:induction false} FilterFilter(ls: seq<LauncherInfo>, selfPackage: string)
    ensures Filter(Filter(ls, l => !IsSelf(l, selfPackage)), (l: LauncherInfo) => l.isSystem)
            == Filter(ls, l => !IsSelf(l, selfPackage) && l.isSystem)
  {
    if ls != [] {
      FilterFilter(ls[1..], selfPackage);
    }
  }
}

=== FILE: main_activity.dfy ===
/** MainActivity: the inline start-up setup, the kiosk-mode observer, the launcher helpers and the
    intent handling. */
module MainActivity {
  import opened Wrappers
  import opened Platform
  import Launchers
  import DeviceOwner
  import Setup
  import Preferences
  import AppDao

  const SETTINGS_PACKAGE := "com.android.settings"
  const EXTRA_SHOW_PASSWORD_DIALOG := "show_password_dialog"
  const EXTRA_FROM_PROVISIONING := "from_provisioning"
  const ACTION_MAIN := "android.intent.action.MAIN"
  const CATEGORY_HOME := "android.intent.category.HOME"

  /** HOME | OVERVIEW | SYSTEM_INFO | GLOBAL_ACTIONS: the default set without KEYGUARD. */
  const KIOSK_ACTIVITY_FEATURES: bv32 := Bit(Home) | Bit(Overview) | Bit(SystemInfo) | Bit(GlobalActions)

  lemma KioskActivityFeaturesExactly()
    ensures KIOSK_ACTIVITY_FEATURES == 29
    ensures forall f :: HasFeature(KIOSK_ACTIVITY_FEATURES, f) <==> f in {Home, Overview, SystemInfo, GlobalActions}
    ensures KIOSK_ACTIVITY_FEATURES != DeviceOwner.DEFAULT_LOCK_TASK_FEATURES
  {
    forall f ensures HasFeature(KIOSK_ACTIVITY_FEATURES, f) <==> f in {Home, Overview, SystemInfo, GlobalActions} {
      match f
      case SystemInfo =>
      case Notifications =>
      case Home =>
      case Overview =>
      case GlobalActions =>
      case Keyguard =>
      case BlockActivityStartInTask =>
    }
  }

  // ---------------------------------------------------------------- kiosk-mode observer

  /** One combined emission of (isKioskModeActive, getEnabledApps). */
  datatype Snapshot = Snapshot(active: bool, enabledApps: seq<AppDao.AppEntity>)

  function PackageNames(apps: seq<AppDao.AppEntity>): (r: seq<string>)
    ensures |r| == |apps|
    ensures forall i :: 0 <= i < |apps| ==> r[i] == apps[i].packageName
  {
    if apps == [] then [] else [apps[0].packageName] + PackageNames(apps[1..])
  }

  /** The lock-task allowlist for a snapshot: the kiosk itself, plus the enabled apps and the
      settings app while kiosk mode is active. */
  function AllowedPackages(self: string, active: bool, enabled: seq<AppDao.AppEntity>): (r: seq<string>)
    ensures |r| == if active then |enabled| + 2 else 1
    ensures r[0] == self
    ensures forall p :: p in r <==>
              p == self || (active && (p == SETTINGS_PACKAGE || exists x :: x in enabled && x.packageName == p))
  {
    var names := PackageNames(enabled);
    assert forall p :: p in names <==> exists x :: x in enabled && x.packageName == p by {
      forall p ensures p in names <==> exists x :: x in enabled && x.packageName == p {
        if p in names {
          var i :| 0 <= i < |names| && names[i] == p;
          assert enabled[i] in enabled;
        }
        if exists x :: x in enabled && x.packageName == p {
          var x :| x in enabled && x.packageName == p;
          var i :| 0 <= i < |enabled| && enabled[i] == x;
          assert names[i] == p;
        }
      }
    }
    [self] + (if active then names + [SETTINGS_PACKAGE] else [])
  }

  /** The authority calls of one snapshot, given whether lock task was on before it. */
  function SnapshotCalls(self: string, s: Snapshot, locked: bool): seq<Call>
  {
    [Call.SetLockTaskPackages(AllowedPackages(self, s.active, s.enabledApps))]
    + (if s.active && !locked then [Call.StartLockTask]
       else if !s.active && locked then [Call.StopLockTask]
       else [])
  }

  /** Whether lock task is on after the snapshots (when every call succeeds). */
  function LockedAfter(snapshots: seq<Snapshot>, locked: bool): bool
  {
    if snapshots == [] then locked else snapshots[|snapshots| - 1].active
  }

  /** The authority calls of the observer over a sequence of snapshots. */
  function ObserverCalls(self: string, snapshots: seq<Snapshot>, locked: bool): seq<Call>
  {
    if snapshots == [] then []
    else
      var n := |snapshots| - 1;
      ObserverCalls(self, snapshots[..n], locked) + SnapshotCalls(self, snapshots[n], LockedAfter(snapshots[..n], locked))
  }

  /** No observer call fails. */
  predicate ObserverCallsSucceed(failing: set<Op>)
  {
    OpSetPackages !in failing && OpStartLockTask !in failing && OpStopLockTask !in failing
  }

  /** The collector body for one snapshot. */
  method OnKioskSnapshot(dpm: Authority, s: Snapshot) returns (r: Outcome<Error>)
    modifies dpm
    ensures !dpm.deviceOwner ==> r.Pass? && dpm.calls == old(dpm.calls) && dpm.policy == old(dpm.policy)
    ensures dpm.deviceOwner && ObserverCallsSucceed(dpm.failing) ==>
              && r.Pass?
              && dpm.calls == old(dpm.calls) + SnapshotCalls(dpm.callerPackage, s, old(dpm.InLockTaskMode()))
              && dpm.InLockTaskMode() == s.active
              && dpm.policy.lockTaskPackages == AllowedPackages(dpm.callerPackage, s.active, s.enabledApps)
              && (s.active && !old(dpm.InLockTaskMode()) ==> dpm.policy.lockTaskMode == LockTaskModeLocked)
    ensures dpm.deviceOwner && OpSetPackages in dpm.failing ==>
              r.Fail? && dpm.policy == old(dpm.policy)
              && dpm.calls == old(dpm.calls)
                              + [Call.SetLockTaskPackages(AllowedPackages(dpm.callerPackage, s.active, s.enabledApps))]
    ensures dpm.policy.lockTaskFeatures == old(dpm.policy.lockTaskFeatures)
    ensures dpm.policy.preferredHome == old(dpm.policy.preferredHome)
    ensures dpm.policy.lockScreenInfo == old(dpm.policy.lockScreenInfo)
  {
    r := Pass;
    if dpm.deviceOwner {
      var allowed := [dpm.callerPackage];
      if s.active {
        allowed := allowed + PackageNames(s.enabledApps);
        allowed := allowed + [SETTINGS_PACKAGE];
      }
      assert allowed == AllowedPackages(dpm.callerPackage, s.active, s.enabledApps);
      r := dpm.SetLockTaskPackages(allowed);
      if r.Fail? {
        return;
      }
      if s.active && !dpm.InLockTaskMode() {
        r := dpm.StartLockTask();
      } else if !s.active && dpm.InLockTaskMode() {
        r := dpm.StopLockTask();
      }
    }
  }

  /** observeKioskMode: the collector applied to each snapshot in turn. An exception from the
      allowlist or lock-task call is not caught inside `launchIn(lifecycleScope)`, so it crashes the
      app; here it ends the collection with that failure. */
  method ObserveKioskMode(dpm: Authority, snapshots: seq<Snapshot>) returns (r: Outcome<Error>)
    modifies dpm
    ensures !dpm.deviceOwner ==> r.Pass? && dpm.calls == old(dpm.calls) && dpm.policy == old(dpm.policy)
    ensures dpm.deviceOwner && ObserverCallsSucceed(dpm.failing) ==>
              && r.Pass?
              && dpm.calls == old(dpm.calls) + ObserverCalls(dpm.callerPackage, snapshots, old(dpm.InLockTaskMode()))
              && dpm.InLockTaskMode() == LockedAfter(snapshots, old(dpm.InLockTaskMode()))
              && (snapshots != [] ==>
                    var last := snapshots[|snapshots| - 1];
                    dpm.policy.lockTaskPackages == AllowedPackages(dpm.callerPackage, last.active, last.enabledApps))
    ensures dpm.policy.lockTaskFeatures == old(dpm.policy.lockTaskFeatures)
    ensures dpm.policy.preferredHome == old(dpm.policy.preferredHome)
  {
    r := Pass;
    var i := 0;
    while i < |snapshots|
      invariant 0 <= i <= |snapshots|
      invariant !dpm.deviceOwner ==> r.Pass? && dpm.calls == old(dpm.calls) && dpm.policy == old(dpm.policy)
      invariant dpm.deviceOwner && ObserverCallsSucceed(dpm.failing) ==>
                  && r.Pass?
                  && dpm.calls == old(dpm.calls) + ObserverCalls(dpm.callerPackage, snapshots[..i], old(dpm.InLockTaskMode()))
                  && dpm.InLockTaskMode() == LockedAfter(snapshots[..i], old(dpm.InLockTaskMode()))
                  && (i > 0 ==> dpm.policy.lockTaskPackages
                                  == AllowedPackages(dpm.callerPackage, snapshots[i - 1].active, snapshots[i - 1].enabledApps))
      invariant dpm.policy.lockTaskFeatures == old(dpm.policy.lockTaskFeatures)
      invariant dpm.policy.preferredHome == old(dpm.policy.preferredHome)
    {
      assert snapshots[..i + 1][..i] == snapshots[..i];
      r := OnKioskSnapshot(dpm, snapshots[i]);
      if r.Fail? {
        return;
      }
      i := i + 1;
    }
    assert snapshots[..i] == snapshots;
  }

  /** An identical snapshot repeated right away only re-sends the allowlist: no start or stop. */
  lemma RepeatedSnapshotQuiet(self: string, snapshots: seq<Snapshot>, s: Snapshot, locked: bool)
    ensures ObserverCalls(self, snapshots + [s, s], locked)
            == ObserverCalls(self, snapshots + [s], locked)
               + [Call.SetLockTaskPackages(AllowedPackages(self, s.active, s.enabledApps))]
  {
    var once := snapshots + [s];
    assert (snapshots + [s, s])[..|once|] == once;
    assert LockedAfter(once, locked) == s.active;
  }

  /** Number of start/stop calls in a log. */
  function LockToggles(log: seq<Call>): nat
  {
    if log == [] then 0
    else (if log[0].StartLockTask? || log[0].StopLockTask? then 1 else 0) + LockToggles(log[1..])
  }

  lemma {:induction false} LockTogglesAppend(a: seq<Call>, b: seq<Call>)
    ensures LockToggles(a + b) == LockToggles(a) + LockToggles(b)
  {
    if a == [] {
      assert a + b == b;
    } else {
      assert (a + b)[1..] == a[1..] + b;
      LockTogglesAppend(a[1..], b);
    }
  }

  lemma SnapshotToggles(self: string, s: Snapshot, locked: bool)
    ensures LockToggles(SnapshotCalls(self, s, locked)) == if s.active != locked then 1 else 0
  {
    var step := SnapshotCalls(self, s, locked);
    var tail := step[1..];
    assert LockToggles(step) == LockToggles(tail);
    if |tail| == 1 {
      assert tail[1..] == [];
    }
  }

  /** Number of snapshots whose active flag differs from the lock state before them. */
  function Edges(snapshots: seq<Snapshot>, locked: bool): nat
  {
    if snapshots == [] then 0
    else
      var n := |snapshots| - 1;
      Edges(snapshots[..n], locked) + (if snapshots[n].active != LockedAfter(snapshots[..n], locked) then 1 else 0)
  }

  /** Lock task is toggled edge-triggered: once per change of the desired state, never otherwise. */
  lemma {:induction false} TogglesAreEdges(self: string, snapshots: seq<Snapshot>, locked: bool)
    ensures LockToggles(ObserverCalls(self, snapshots, locked)) == Edges(snapshots, locked)
  {
    if snapshots != [] {
      var n := |snapshots| - 1;
      TogglesAreEdges(self, snapshots[..n], locked);
      var step := SnapshotCalls(self, snapshots[n], LockedAfter(snapshots[..n], locked));
      LockTogglesAppend(ObserverCalls(self, snapshots[..n], locked), step);
      SnapshotToggles(self, snapshots[n], LockedAfter(snapshots[..n], locked));
    }
  }

  // ---------------------------------------------------------------- launcher helpers and policies

  /** The authority calls of MainActivity.setHomeLauncher, given the home before it and the target. */
  function HomeLauncherCalls(deviceOwner: bool, failing: set<Op>, home: Option<string>, target: Option<LauncherInfo>)
    : seq<Call>
  {
    if !deviceOwner then []
    else if OpResolveHome in failing then [Call.ResolveHomeActivity]
    else DeviceOwner.DethroneCalls(home) + (if target.Some? then [Call.AddPersistentPreferred(target.value.component)] else [])
  }

  /** MainActivity.setHomeLauncher(target): a no-op unless device owner; otherwise dethrone the
      current home (a failed clear is dropped), then register the target when there is one. */
  method SetHomeLauncher(dpm: Authority, target: Option<LauncherInfo>) returns (r: Outcome<Error>)
    modifies dpm
    ensures dpm.calls == old(dpm.calls) + HomeLauncherCalls(dpm.deviceOwner, dpm.failing, old(dpm.CurrentHome()), target)
    ensures r.Pass? <==> !dpm.deviceOwner || (OpResolveHome !in dpm.failing && (target.None? || OpAddPreferred !in dpm.failing))
    ensures !dpm.deviceOwner || OpResolveHome in dpm.failing ==> dpm.policy == old(dpm.policy)
    ensures dpm.deviceOwner && OpResolveHome !in dpm.failing ==>
              var cleared := DeviceOwner.Dethroned(old(dpm.policy.preferredHome), old(dpm.CurrentHome()),
                                                   OpClearPreferred in dpm.failing);
              dpm.policy == old(dpm.policy).(preferredHome :=
                              if r.Pass? && target.Some? then cleared + [target.value.component] else cleared)
    ensures r.Pass? && target.Some? && dpm.deviceOwner ==> dpm.CurrentHome() == Some(target.value.component.packageName)
  {
    if !dpm.deviceOwner {
      return Pass;
    }
    r := DeviceOwner.DethroneCurrentHome(dpm);
    if r.Fail? {
      return;
    }
    if target.Some? {
      r := dpm.AddPersistentPreferred(target.value.component);
    }
  }

  /** The authority calls of the feature block of setKioskPolicies. */
  function KioskFeatureCalls(current: bv32, failing: set<Op>): seq<Call>
  {
    if OpGetFeatures in failing then [Call.GetLockTaskFeatures]
    else DeviceOwner.FeatureWriteCalls(current, KIOSK_ACTIVITY_FEATURES, OpSetFeatures in failing)
  }

  /** The feature block writes the mask exactly when the read succeeds and the mask differs. */
  lemma KioskFeatureWriteWhenDifferent(current: bv32, failing: set<Op>)
    ensures FeatureWrites(KioskFeatureCalls(current, failing))
            == if OpGetFeatures !in failing && current != KIOSK_ACTIVITY_FEATURES then 1 else 0
  {
    var log := KioskFeatureCalls(current, failing);
    if OpGetFeatures !in failing && current != KIOSK_ACTIVITY_FEATURES {
      var tail := if OpSetFeatures in failing then [] else [Call.GetLockTaskFeatures];
      assert log == [Call.GetLockTaskFeatures] + [Call.SetLockTaskFeatures(KIOSK_ACTIVITY_FEATURES)] + tail;
      FeatureWritesAppend([Call.GetLockTaskFeatures] + [Call.SetLockTaskFeatures(KIOSK_ACTIVITY_FEATURES)], tail);
      FeatureWritesAppend([Call.GetLockTaskFeatures], [Call.SetLockTaskFeatures(KIOSK_ACTIVITY_FEATURES)]);
    }
  }

  /** The launcher step never touches the lock-task features. */
  lemma HomeLauncherWritesNoFeatures(deviceOwner: bool, failing: set<Op>, home: Option<string>, target: Option<LauncherInfo>)
    ensures FeatureWrites(HomeLauncherCalls(deviceOwner, failing, home, target)) == 0
  {
  }

  /** The launcher coroutine of setKioskPolicies, resumed once its IO query has returned: pick the
      kiosk's own HOME activity and make it home; an exception is logged and dropped. */
  method CrownSelf(dpm: Authority, launchers: Result<seq<LauncherInfo>, Error>)
    modifies dpm
    ensures dpm.calls == old(dpm.calls) + if launchers.Failure? then []
                                          else HomeLauncherCalls(dpm.deviceOwner, dpm.failing, old(dpm.CurrentHome()),
                                                                 Launchers.PickSelfLauncher(launchers.value, dpm.callerPackage))
    ensures dpm.policy == old(dpm.policy).(preferredHome := dpm.policy.preferredHome)
    ensures launchers.Failure? || !dpm.deviceOwner ==> dpm.policy == old(dpm.policy)
    ensures && launchers.Success? && dpm.deviceOwner && OpResolveHome !in dpm.failing && OpAddPreferred !in dpm.failing
            && Launchers.PickSelfLauncher(launchers.value, dpm.callerPackage).Some?
            ==> dpm.CurrentHome() == Some(dpm.callerPackage)
  {
    if launchers.Success? {
      var selfTarget := Launchers.PickSelfLauncher(launchers.value, dpm.callerPackage);
      var _ := SetHomeLauncher(dpm, selfTarget);
    }
  }

  /** Whether setKioskPolicies makes the kiosk home. */
  predicate LauncherStepSucceeds(dpm: Authority)
    reads dpm
  {
    && dpm.deviceOwner
    && OpQueryHome !in dpm.failing
    && OpResolveHome !in dpm.failing
    && Launchers.PickSelfLauncher(dpm.homeActivities, dpm.callerPackage).Some?
    && OpAddPreferred !in dpm.failing
  }

  /** setKioskPolicies: the launcher coroutine starts its IO query, the feature block runs, then the
      coroutine makes the kiosk home. Both parts swallow their exceptions. */
  method SetKioskPolicies(dpm: Authority)
    modifies dpm
    ensures dpm.calls == old(dpm.calls) + [Call.QueryHomeActivities]
                         + KioskFeatureCalls(old(dpm.policy.lockTaskFeatures), dpm.failing)
                         + if OpQueryHome in dpm.failing then []
                           else HomeLauncherCalls(dpm.deviceOwner, dpm.failing, old(dpm.CurrentHome()),
                                                  Launchers.PickSelfLauncher(dpm.homeActivities, dpm.callerPackage))
    ensures dpm.policy.lockTaskFeatures
            == if OpGetFeatures !in dpm.failing
                  && (old(dpm.policy.lockTaskFeatures) == KIOSK_ACTIVITY_FEATURES || OpSetFeatures !in dpm.failing)
               then KIOSK_ACTIVITY_FEATURES else old(dpm.policy.lockTaskFeatures)
    ensures LauncherStepSucceeds(dpm) ==> dpm.CurrentHome() == Some(dpm.callerPackage)
    ensures !dpm.deviceOwner || OpQueryHome in dpm.failing ==> dpm.policy.preferredHome == old(dpm.policy.preferredHome)
    ensures dpm.policy.lockTaskPackages == old(dpm.policy.lockTaskPackages)
    ensures dpm.policy.lockTaskMode == old(dpm.policy.lockTaskMode)
    ensures dpm.policy.lockScreenInfo == old(dpm.policy.lockScreenInfo)
  {
    var launchers := dpm.QueryHomeActivities();
    var _ := DeviceOwner.WriteFeaturesIfDifferent(dpm, KIOSK_ACTIVITY_FEATURES);
    CrownSelf(dpm, launchers);
  }

  /** One run of setKioskPolicies writes the lock-task features at most once, and only when they differ. */
  lemma KioskPoliciesWriteFeaturesOnce(current: bv32, failing: set<Op>, launcherCalls: seq<Call>,
                                       deviceOwner: bool, home: Option<string>, target: Option<LauncherInfo>)
    requires launcherCalls == [] || launcherCalls == HomeLauncherCalls(deviceOwner, failing, home, target)
    ensures FeatureWrites([Call.QueryHomeActivities] + KioskFeatureCalls(current, failing) + launcherCalls)
            == if OpGetFeatures !in failing && current != KIOSK_ACTIVITY_FEATURES then 1 else 0
  {
    var featureCalls := KioskFeatureCalls(current, failing);
    FeatureWritesAppend([Call.QueryHomeActivities] + featureCalls, launcherCalls);
    FeatureWritesAppend([Call.QueryHomeActivities], featureCalls);
    KioskFeatureWriteWhenDifferent(current, failing);
    HomeLauncherWritesNoFeatures(deviceOwner, failing, home, target);
  }

  // ---------------------------------------------------------------- intents and start-up

  /** The parts of an Intent that MainActivity reads. */
  datatype Intent = Intent(action: Option<string>, categories: Option<set<string>>, booleanExtras: map<string, bool>)

  /** getBooleanExtra(name, false) */
  function BooleanExtra(intent: Intent, name: string): (r: bool)
    ensures r <==> name in intent.booleanExtras && intent.booleanExtras[name]
  {
    if name in intent.booleanExtras then intent.booleanExtras[name] else false
  }

  /** The two global UI flags (showPasswordDialog, shouldResetToLauncher). */
  class UiFlags {
    var showPasswordDialog: bool
    var shouldResetToLauncher: bool

    constructor()
      ensures !showPasswordDialog && !shouldResetToLauncher
    {
      showPasswordDialog := false;
      shouldResetToLauncher := false;
    }
  }

  /** Whether an intent is a HOME button press: ACTION_MAIN with CATEGORY_HOME. */
  predicate IsHomePress(intent: Option<Intent>)
  {
    && intent.Some? && intent.value.action == Some(ACTION_MAIN)
    && intent.value.categories.Some? && CATEGORY_HOME in intent.value.categories.value
  }

  /** handleIntent: raise the password dialog flag and the reset flag; never lower either. */
  method HandleIntent(flags: UiFlags, intent: Option<Intent>)
    modifies flags
    ensures flags.showPasswordDialog ==
            (old(flags.showPasswordDialog) || (intent.Some? && BooleanExtra(intent.value, EXTRA_SHOW_PASSWORD_DIALOG)))
    ensures flags.shouldResetToLauncher == (old(flags.shouldResetToLauncher) || IsHomePress(intent))
  {
    if intent.Some? && BooleanExtra(intent.value, EXTRA_SHOW_PASSWORD_DIALOG) {
      flags.showPasswordDialog := true;
    }
    if intent.Some? && intent.value.action == Some(ACTION_MAIN)
       && intent.value.categories.Some? && CATEGORY_HOME in intent.value.categories.value {
      flags.shouldResetToLauncher := true;
    }
  }

  /** onCreate: for a device owner, the inline setup decision, the policies and flag writes, then the
      observer is started on both paths; the intent is handled in every case. Returns whether the
      observer was started. */
  method OnCreate(prefs: Preferences.KioskPreferences, dpm: Authority, flags: UiFlags, intent: Intent)
    returns (observerStarted: bool)
    requires prefs.Valid()
    modifies prefs, dpm, flags
    ensures prefs.Valid()
    ensures observerStarted <==> dpm.deviceOwner
    ensures !dpm.deviceOwner ==> unchanged(prefs) && unchanged(dpm)
    ensures var run := Setup.ShouldRunSetup(BooleanExtra(intent, EXTRA_FROM_PROVISIONING),
                                            old(prefs.IsKioskModeActive()), old(prefs.IsInitialSetupCompleted()));
            && (dpm.deviceOwner && !run ==> unchanged(prefs) && unchanged(dpm))
            && (dpm.deviceOwner && run ==>
                  && prefs.writes == old(prefs.writes) + Setup.SetupWrites(!old(prefs.IsInitialSetupCompleted()),
                                                                           old(prefs.IsKioskModeActive()))
                  && prefs.IsKioskModeActive() && prefs.IsInitialSetupCompleted())
    ensures flags.showPasswordDialog == (old(flags.showPasswordDialog) || BooleanExtra(intent, EXTRA_SHOW_PASSWORD_DIALOG))
    ensures flags.shouldResetToLauncher == (old(flags.shouldResetToLauncher) || IsHomePress(Some(intent)))
  {
    observerStarted := false;
    if dpm.deviceOwner {
      var fromProvisioning := BooleanExtra(intent, EXTRA_FROM_PROVISIONING);
      var kioskModeActive := prefs.IsKioskModeActive();
      var setupCompleted := prefs.IsInitialSetupCompleted();
      var isFirstTimeSetup := !setupCompleted;
      var shouldRunSetup := fromProvisioning || kioskModeActive || isFirstTimeSetup;
      if shouldRunSetup {
        SetKioskPolicies(dpm);
        if !setupCompleted {
          prefs.SetInitialSetupCompleted(true);
        }
        if !kioskModeActive {
          prefs.SetKioskModeActive(true);
        }
      }
      observerStarted := true;
    }
    HandleIntent(flags, Some(intent));
  }
}

=== FILE: overlay.dfy ===
/** OverlayService: the hidden five-tap gesture that opens the password dialog. */
module Overlay {
  import opened Wrappers
  import MainActivity

  /** Taps further apart than this many milliseconds start a new count. */
  const TAP_WINDOW_MS := 2000
  const TAPS_TO_OPEN := 5

  /** The intent started on the fifth tap: MainActivity with the password-dialog extra set. */
  const PASSWORD_INTENT := MainActivity.Intent(None, None, map[MainActivity.EXTRA_SHOW_PASSWORD_DIALOG := true])

  /** (tapCount, lastTapTime) */
  datatype TapState = TapState(tapCount: int, lastTapTime: int)

  const INITIAL := TapState(0, 0)

  /** Between taps the count stays below five. */
  predicate Bounded(s: TapState) { 0 <= s.tapCount < TAPS_TO_OPEN }

  /** The state after one tap at time `now`, and whether the activity is launched. */
  function Tap(s: TapState, now: int): (r: (TapState, bool))
    ensures Bounded(s) ==> Bounded(r.0)
    ensures r.0.lastTapTime == now
    ensures now - s.lastTapTime > TAP_WINDOW_MS ==> !r.1 && r.0.tapCount == 1
    ensures r.1 <==> s.tapCount + 1 >= TAPS_TO_OPEN && now - s.lastTapTime <= TAP_WINDOW_MS
    ensures r.1 ==> r.0.tapCount == 0
  {
    var count := if now - s.lastTapTime > TAP_WINDOW_MS then 1 else s.tapCount + 1;
    if count >= TAPS_TO_OPEN then (TapState(0, now), true) else (TapState(count, now), false)
  }

  /** The state after a series of taps, and how many launches they caused. */
  function TapAll(s: TapState, times: seq<int>): (r: (TapState, nat))
    ensures Bounded(s) ==> Bounded(r.0)
  {
    if times == [] then (s, 0)
    else
      var before := TapAll(s, times[..|times| - 1]);
      var step := Tap(before.0, times[|times| - 1]);
      (step.0, before.1 + if step.1 then 1 else 0)
  }

  /** Taps that each follow the previous one within the window. */
  predicate Quick(times: seq<int>)
  {
    forall i :: 0 < i < |times| ==> times[i] - times[i - 1] <= TAP_WINDOW_MS
  }

  lemma {:induction false} QuickTapsCount(s: TapState, times: seq<int>)
    requires s.tapCount == 0 && 1 <= |times| < TAPS_TO_OPEN && Quick(times)
    ensures TapAll(s, times) == (TapState(|times|, times[|times| - 1]), 0)
  {
    if |times| > 1 {
      var prefix := times[..|times| - 1];
      assert Quick(prefix) by {
        forall i | 0 < i < |prefix| ensures prefix[i] - prefix[i - 1] <= TAP_WINDOW_MS {
          assert prefix[i] == times[i] && prefix[i - 1] == times[i - 1];
        }
      }
      QuickTapsCount(s, prefix);
    }
  }

  /** Five quick taps from a zero count open the dialog exactly once, on the fifth, and reset the count. */
  lemma FiveQuickTapsOpenOnce(s: TapState, times: seq<int>)
    requires s.tapCount == 0 && |times| == TAPS_TO_OPEN && Quick(times)
    ensures TapAll(s, times) == (TapState(0, times[4]), 1)
  {
    var prefix := times[..4];
    assert Quick(prefix) by {
      forall i | 0 < i < |prefix| ensures prefix[i] - prefix[i - 1] <= TAP_WINDOW_MS {
        assert prefix[i] == times[i] && prefix[i - 1] == times[i - 1];
      }
    }
    QuickTapsCount(s, prefix);
  }

  /** A gap of exactly the window still counts; one millisecond more starts over. */
  lemma WindowBoundary(s: TapState)
    requires s.tapCount == 1
    ensures Tap(s, s.lastTapTime + TAP_WINDOW_MS).0.tapCount == 2
    ensures Tap(s, s.lastTapTime + TAP_WINDOW_MS + 1).0.tapCount == 1
  {
  }

  class OverlayService {
    var tapCount: int
    var lastTapTime: int

    constructor()
      ensures tapCount == 0 && lastTapTime == 0
    {
      tapCount := 0;
      lastTapTime := 0;
    }

    function State(): TapState
      reads this
    {
      TapState(tapCount, lastTapTime)
    }

    /** handleGestureDetection at time `now`: returns the intent started, if any. */
    method HandleGestureDetection(now: int) returns (started: Option<MainActivity.Intent>)
      modifies this
      ensures (State(), started.Some?) == Tap(old(State()), now)
      ensures started.Some? ==> started.value == PASSWORD_INTENT
    {
      if now - lastTapTime > TAP_WINDOW_MS {
        tapCount := 1;
      } else {
        tapCount := tapCount + 1;
      }
      lastTapTime := now;
      started := None;
      if tapCount >= TAPS_TO_OPEN {
        started := Some(PASSWORD_INTENT);
        tapCount := 0;
      }
    }
  }

  /** The window flags of the overlay's layout parameters that decide whether it is touched. */
  datatype WindowFlag = NotFocusable | NotTouchModal | NotTouchable

  /** The flags onCreate gives the overlay window. */
  const OVERLAY_FLAGS: set<WindowFlag> := {NotFocusable, NotTouchModal, NotTouchable}

  /** The same window without FLAG_NOT_TOUCHABLE, so that its click listener can fire. */
  const TOUCHABLE_OVERLAY_FLAGS: set<WindowFlag> := {NotFocusable, NotTouchModal}

  /** The taps that reach the view's click listener: a window with FLAG_NOT_TOUCHABLE receives no
      touch events at all, any other window receives every tap on it. */
  function DeliveredTaps(flags: set<WindowFlag>, times: seq<int>): (d: seq<int>)
    ensures NotTouchable in flags ==> d == []
    ensures NotTouchable !in flags ==> d == times
  {
    if NotTouchable in flags then [] else times
  }

  /** As written: whatever the taps on the overlay, the gesture state is unchanged and the dialog
      never opens. */
  lemma OverlayNeverOpens(s: TapState, times: seq<int>)
    ensures TapAll(s, DeliveredTaps(OVERLAY_FLAGS, times)) == (s, 0)
  {
    assert NotTouchable in OVERLAY_FLAGS;
  }

  /** Corrected: on the touchable window, five quick taps open the dialog exactly once. */
  lemma TouchableOverlayOpens(s: TapState, times: seq<int>)
    requires s.tapCount == 0 && |times| == TAPS_TO_OPEN && Quick(times)
    ensures TapAll(s, DeliveredTaps(TOUCHABLE_OVERLAY_FLAGS, times)) == (TapState(0, times[4]), 1)
  {
    assert NotTouchable !in TOUCHABLE_OVERLAY_FLAGS;
    FiveQuickTapsOpenOnce(s, times);
  }
}

=== FILE: password.dfy ===
/** PasswordViewModel: the admin-password check, with the default password accepted on first use. */
module Password {
  import opened Wrappers
  import Preferences

  const DEFAULT_PASSWORD := "1234"
  const INCORRECT_DEFAULT := "Incorrect default password"
  const INCORRECT := "Incorrect password"

  /** PasswordUiState(isPasswordCorrect, error), both null initially. */
  datatype PasswordUiState = PasswordUiState(isPasswordCorrect: Option<bool>, error: Option<string>)

  const INITIAL_STATE := PasswordUiState(None, None)

  /** A digest function that maps different passwords to different digests (SHA-256 is assumed to). */
  ghost predicate Injective(hash: string -> string)
  {
    forall a: string, b: string :: hash(a) == hash(b) ==> a == b
  }

  /** Whether an entered password is accepted against the stored hash (null before first use). */
  function Accepts(hash: string -> string, stored: Option<string>, password: string): (r: bool)
    ensures stored.None? ==> (r <==> password == DEFAULT_PASSWORD)
  {
    match stored
    case None => password == DEFAULT_PASSWORD
    case Some(h) => hash(password) == h
  }

  /** After the default password has been stored, exactly the default password is accepted. */
  lemma OnlyDefaultAfterFirstUse(hash: string -> string, password: string)
    requires Injective(hash)
    ensures Accepts(hash, Some(hash(DEFAULT_PASSWORD)), password) <==> password == DEFAULT_PASSWORD
  {
  }

  class PasswordViewModel {
    /** The digest, String.toSha256(): lower-case two-digit hex of the SHA-256 digest. */
    const hash: string -> string
    var uiState: PasswordUiState

    constructor(hash: string -> string)
      ensures this.hash == hash && uiState == INITIAL_STATE
    {
      this.hash := hash;
      uiState := INITIAL_STATE;
    }

    /** onPasswordEntered: updates copy the state, so a failure keeps isPasswordCorrect and a
        success keeps any earlier error. */
    method OnPasswordEntered(prefs: Preferences.KioskPreferences, password: string)
      requires prefs.Valid()
      modifies this, prefs
      ensures prefs.Valid()
      ensures var stored := old(prefs.GetPasswordHash());
              && (stored.None? && password == DEFAULT_PASSWORD ==>
                    prefs.GetPasswordHash() == Some(hash(DEFAULT_PASSWORD))
                    && prefs.writes == old(prefs.writes) + [Preferences.PasswordHash])
              && (!(stored.None? && password == DEFAULT_PASSWORD) ==> unchanged(prefs))
              && uiState == if Accepts(hash, stored, password) then old(uiState).(isPasswordCorrect := Some(true))
                            else old(uiState).(error := Some(if stored.None? then INCORRECT_DEFAULT else INCORRECT))
    {
      var storedHash := prefs.GetPasswordHash();
      if storedHash.None? {
        if password == DEFAULT_PASSWORD {
          prefs.SetPasswordHash(hash(DEFAULT_PASSWORD));
          uiState := uiState.(isPasswordCorrect := Some(true));
        } else {
          uiState := uiState.(error := Some(INCORRECT_DEFAULT));
        }
      } else {
        if hash(password) == storedHash.value {
          uiState := uiState.(isPasswordCorrect := Some(true));
        } else {
          uiState := uiState.(error := Some(INCORRECT));
        }
      }
    }

    /** consumeEvents: back to the initial state after navigation. */
    method ConsumeEvents()
      modifies this
      ensures uiState == INITIAL_STATE
    {
      uiState := INITIAL_STATE;
    }
  }

  /** Entering the default password on first use, then any password: only the default passes again. */
  method FirstUseThenAgain(vm: PasswordViewModel, prefs: Preferences.KioskPreferences, second: string)
    requires prefs.Valid() && prefs.GetPasswordHash().None? && Injective(vm.hash)
    modifies vm, prefs
    ensures prefs.GetPasswordHash() == Some(vm.hash(DEFAULT_PASSWORD))
    ensures vm.uiState.isPasswordCorrect == Some(true) <==> second == DEFAULT_PASSWORD
  {
    vm.OnPasswordEntered(prefs, DEFAULT_PASSWORD);
    vm.ConsumeEvents();
    vm.OnPasswordEntered(prefs, second);
    OnlyDefaultAfterFirstUse(vm.hash, second);
  }
}

=== FILE: platform.dfy ===
/** The device-management authority the kiosk talks to (Android's DevicePolicyManager,
    ActivityManager and PackageManager), reduced to the state the kiosk reads and writes.
    Every call the kiosk issues is appended to `calls`; an operation listed in `failing`
    throws (returns a failure) each time it is called and changes nothing. */
module Platform {
  import opened Wrappers

  /** Lock-task features, numbered as DevicePolicyManager's LOCK_TASK_FEATURE_* bits. */
  datatype Feature =
    SystemInfo | Notifications | Home | Overview | GlobalActions | Keyguard | BlockActivityStartInTask

  function Bit(f: Feature): bv32
  {
    match f
    case SystemInfo => 1
    case Notifications => 2
    case Home => 4
    case Overview => 8
    case GlobalActions => 16
    case Keyguard => 32
    case BlockActivityStartInTask => 64
  }

  /** `(mask and FEATURE) != 0` */
  predicate HasFeature(mask: bv32, f: Feature)
  {
    mask & Bit(f) != 0
  }

  /** ActivityManager.LOCK_TASK_MODE_NONE / _LOCKED / _PINNED */
  datatype LockTaskMode = LockTaskModeNone | LockTaskModeLocked | LockTaskModePinned

  /** An activity: its package and class name (ComponentName). */
  datatype Component = Component(packageName: string, className: string)

  /** A HOME activity as the package manager resolves it (ResolveInfo), with its
      application's FLAG_SYSTEM bit. */
  datatype LauncherInfo = LauncherInfo(component: Component, isSystem: bool)

  /** The kinds of primitive call; the failure input names these. */
  datatype Op =
    | OpGetFeatures | OpSetFeatures | OpSetPackages | OpQueryHome | OpResolveHome
    | OpClearPreferred | OpAddPreferred | OpSetLockScreenInfo | OpStartLockTask | OpStopLockTask

  /** One primitive call as the kiosk issued it. */
  datatype Call =
    | GetLockTaskFeatures
    | SetLockTaskFeatures(features: bv32)
    | SetLockTaskPackages(packages: seq<string>)
    | QueryHomeActivities
    | ResolveHomeActivity
    | ClearPersistentPreferred(packageName: string)
    | AddPersistentPreferred(target: Component)
    | SetLockScreenInfo(info: string)
    | StartLockTask
    | StopLockTask

  /** Errors the kiosk code raises or receives. */
  datatype Error =
    | NotDeviceOwnerError          // SecurityException("App is not Device Owner")
    | OwnLauncherMissing           // IllegalStateException("Cannot find own launcher activity")
    | CallFailed(op: Op)           // the authority threw

  /** The enforced policy (the "actual" state the kiosk reconciles against). */
  datatype Policy = Policy(
    lockTaskPackages: seq<string>,
    lockTaskFeatures: bv32,
    preferredHome: seq<Component>,   // persistent preferred HOME registrations, oldest first
    lockTaskMode: LockTaskMode,
    lockScreenInfo: Option<string>)

  /** The registrations left after clearing every one of `pkg`. */
  function WithoutPackage(regs: seq<Component>, pkg: string): (r: seq<Component>)
    ensures forall c :: c in r <==> c in regs && c.packageName != pkg
    ensures |r| <= |regs|
  {
    if regs == [] then []
    else (if regs[0].packageName == pkg then [] else [regs[0]]) + WithoutPackage(regs[1..], pkg)
  }

  /** Number of feature writes in a call log. */
  function FeatureWrites(log: seq<Call>): (n: nat)
    ensures n <= |log|
    ensures n == 0 <==> forall i :: 0 <= i < |log| ==> !log[i].SetLockTaskFeatures?
  {
    if log == [] then 0
    else (if log[0].SetLockTaskFeatures? then 1 else 0) + FeatureWrites(log[1..])
  }

  lemma {:induction false} FeatureWritesAppend(a: seq<Call>, b: seq<Call>)
    ensures FeatureWrites(a + b) == FeatureWrites(a) + FeatureWrites(b)
  {
    if a == [] {
      assert a + b == b;
    } else {
      assert (a + b)[1..] == a[1..] + b;
      FeatureWritesAppend(a[1..], b);
    }
  }

  class Authority {
    /** The kiosk's own package (context.packageName). */
    const callerPackage: string
    /** isDeviceOwnerApp(callerPackage) */
    const deviceOwner: bool
    /** queryIntentActivities(MAIN + HOME + DEFAULT) */
    const homeActivities: seq<LauncherInfo>
    /** What HOME resolves to while no persistent preferred activity is registered. */
    const defaultHome: Option<string>
    /** The failure input: the operations that throw. */
    const failing: set<Op>

    var policy: Policy
    var calls: seq<Call>

    constructor (callerPackage: string, deviceOwner: bool, homeActivities: seq<LauncherInfo>,
                 defaultHome: Option<string>, failing: set<Op>, policy: Policy)
      ensures this.callerPackage == callerPackage && this.deviceOwner == deviceOwner
      ensures this.homeActivities == homeActivities && this.defaultHome == defaultHome
      ensures this.failing == failing && this.policy == policy && calls == []
    {
      this.callerPackage := callerPackage;
      this.deviceOwner := deviceOwner;
      this.homeActivities := homeActivities;
      this.defaultHome := defaultHome;
      this.failing := failing;
      this.policy := policy;
      calls := [];
    }

    /** resolveActivity(HOME): the newest persistent preferred registration wins. */
    function CurrentHome(): Option<string>
      reads this
    {
      if policy.preferredHome == [] then defaultHome
      else Some(policy.preferredHome[|policy.preferredHome| - 1].packageName)
    }

    /** lockTaskModeState != LOCK_TASK_MODE_NONE */
    predicate InLockTaskMode()
      reads this
    {
      policy.lockTaskMode != LockTaskModeNone
    }

    method GetLockTaskFeatures() returns (r: Result<bv32, Error>)
      modifies this
      ensures policy == old(policy) && calls == old(calls) + [Call.GetLockTaskFeatures]
      ensures r == if OpGetFeatures in failing then Failure(CallFailed(OpGetFeatures))
                   else Success(policy.lockTaskFeatures)
    {
      calls := calls + [Call.GetLockTaskFeatures];
      if OpGetFeatures in failing {
        r := Failure(CallFailed(OpGetFeatures));
      } else {
        r := Success(policy.lockTaskFeatures);
      }
    }

    method SetLockTaskFeatures(features: bv32) returns (r: Outcome<Error>)
      modifies this
      ensures calls == old(calls) + [Call.SetLockTaskFeatures(features)]
      ensures r == if OpSetFeatures in failing then Fail(CallFailed(OpSetFeatures)) else Pass
      ensures policy == if r.Pass? then old(policy).(lockTaskFeatures := features) else old(policy)
    {
      calls := calls + [Call.SetLockTaskFeatures(features)];
      if OpSetFeatures in failing {
        r := Fail(CallFailed(OpSetFeatures));
      } else {
        r := Pass;
        policy := policy.(lockTaskFeatures := features);
      }
    }

    method SetLockTaskPackages(packages: seq<string>) returns (r: Outcome<Error>)
      modifies this
      ensures calls == old(calls) + [Call.SetLockTaskPackages(packages)]
      ensures r == if OpSetPackages in failing then Fail(CallFailed(OpSetPackages)) else Pass
      ensures policy == if r.Pass? then old(policy).(lockTaskPackages := packages) else old(policy)
    {
      calls := calls + [Call.SetLockTaskPackages(packages)];
      if OpSetPackages in failing {
        r := Fail(CallFailed(OpSetPackages));
      } else {
        r := Pass;
        policy := policy.(lockTaskPackages := packages);
      }
    }

    method QueryHomeActivities() returns (r: Result<seq<LauncherInfo>, Error>)
      modifies this
      ensures policy == old(policy) && calls == old(calls) + [Call.QueryHomeActivities]
      ensures r == if OpQueryHome in failing then Failure(CallFailed(OpQueryHome))
                   else Success(homeActivities)
    {
      calls := calls + [Call.QueryHomeActivities];
      if OpQueryHome in failing {
        r := Failure(CallFailed(OpQueryHome));
      } else {
        r := Success(homeActivities);
      }
    }

    /** resolveActivity(MAIN + HOME): the package of the current home, if any. */
    method ResolveHomeActivity() returns (r: Result<Option<string>, Error>)
      modifies this
      ensures policy == old(policy) && calls == old(calls) + [Call.ResolveHomeActivity]
      ensures r == if OpResolveHome in failing then Failure(CallFailed(OpResolveHome))
                   else Success(CurrentHome())
    {
      calls := calls + [Call.ResolveHomeActivity];
      if OpResolveHome in failing {
        r := Failure(CallFailed(OpResolveHome));
      } else {
        r := Success(CurrentHome());
      }
    }

    /** clearPackagePersistentPreferredActivities(admin, pkg) */
    method ClearPersistentPreferred(pkg: string) returns (r: Outcome<Error>)
      modifies this
      ensures calls == old(calls) + [Call.ClearPersistentPreferred(pkg)]
      ensures r == if OpClearPreferred in failing then Fail(CallFailed(OpClearPreferred)) else Pass
      ensures policy == if r.Pass?
                        then old(policy).(preferredHome := WithoutPackage(old(policy.preferredHome), pkg))
                        else old(policy)
    {
      calls := calls + [Call.ClearPersistentPreferred(pkg)];
      if OpClearPreferred in failing {
        r := Fail(CallFailed(OpClearPreferred));
      } else {
        r := Pass;
        policy := policy.(preferredHome := WithoutPackage(policy.preferredHome, pkg));
      }
    }

    /** addPersistentPreferredActivity(admin, HOME filter, target) */
    method AddPersistentPreferred(target: Component) returns (r: Outcome<Error>)
      modifies this
      ensures calls == old(calls) + [Call.AddPersistentPreferred(target)]
      ensures r == if OpAddPreferred in failing then Fail(CallFailed(OpAddPreferred)) else Pass
      ensures policy == if r.Pass?
                        then old(policy).(preferredHome := old(policy.preferredHome) + [target])
                        else old(policy)
    {
      calls := calls + [Call.AddPersistentPreferred(target)];
      if OpAddPreferred in failing {
        r := Fail(CallFailed(OpAddPreferred));
      } else {
        r := Pass;
        policy := policy.(preferredHome := policy.preferredHome + [target]);
      }
    }

    /** setDeviceOwnerLockScreenInfo(admin, info) */
    method SetLockScreenInfo(info: string) returns (r: Outcome<Error>)
      modifies this
      ensures calls == old(calls) + [Call.SetLockScreenInfo(info)]
      ensures r == if OpSetLockScreenInfo in failing then Fail(CallFailed(OpSetLockScreenInfo)) else Pass
      ensures policy == if r.Pass? then old(policy).(lockScreenInfo := Some(info)) else old(policy)
    {
      calls := calls + [Call.SetLockScreenInfo(info)];
      if OpSetLockScreenInfo in failing {
        r := Fail(CallFailed(OpSetLockScreenInfo));
      } else {
        r := Pass;
        policy := policy.(lockScreenInfo := Some(info));
      }
    }

    /** Activity.startLockTask(): full lock when the caller is allowlisted, screen pinning otherwise. */
    method StartLockTask() returns (r: Outcome<Error>)
      modifies this
      ensures calls == old(calls) + [Call.StartLockTask]
      ensures r == if OpStartLockTask in failing then Fail(CallFailed(OpStartLockTask)) else Pass
      ensures policy == if r.Pass?
                        then old(policy).(lockTaskMode :=
                               if callerPackage in old(policy.lockTaskPackages) then LockTaskModeLocked
                               else LockTaskModePinned)
                        else old(policy)
    {
      calls := calls + [Call.StartLockTask];
      if OpStartLockTask in failing {
        r := Fail(CallFailed(OpStartLockTask));
      } else {
        r := Pass;
        policy := policy.(lockTaskMode :=
                          if callerPackage in policy.lockTaskPackages then LockTaskModeLocked
                          else LockTaskModePinned);
      }
    }

    /** Activity.stopLockTask() */
    method StopLockTask() returns (r: Outcome<Error>)
      modifies this
      ensures calls == old(calls) + [Call.StopLockTask]
      ensures r == if OpStopLockTask in failing then Fail(CallFailed(OpStopLockTask)) else Pass
      ensures policy == if r.Pass? then old(policy).(lockTaskMode := LockTaskModeNone) else old(policy)
    {
      calls := calls + [Call.StopLockTask];
      if OpStopLockTask in failing {
        r := Fail(CallFailed(OpStopLockTask));
      } else {
        r := Pass;
        policy := policy.(lockTaskMode := LockTaskModeNone);
      }
    }
  }
}

=== FILE: preferences.dfy ===
/** KioskPreferences: the kiosk's persistent key/value store and its saved-APK-URL set. */
module Preferences {
  import opened Wrappers
  import Sorting

  /** The eight keys of the store. */
  datatype Key =
    | KioskModeActive | InitialSetupCompleted | PasswordHash | AutoStartAppPackage
    | StaffName | LocationName | SavedApkUrls | SaveUrlEnabled

  /** A remembered APK download (url, package, display name, creation time in ms). */
  datatype SavedApkUrl = SavedApkUrl(url: string, packageName: string, displayName: string, timestamp: int)

  /** One string of the stored set: the JSON of an entry, or a string that does not decode as one. */
  datatype StoredUrl = Encoded(entry: SavedApkUrl) | Undecodable(raw: string)

  /** The stored values; `None` is an absent key. The string set is kept in iteration order, without duplicates. */
  datatype Prefs = Prefs(
    kioskModeActive: Option<bool>,
    initialSetupCompleted: Option<bool>,
    passwordHash: Option<string>,
    autoStartAppPackage: Option<string>,
    staffName: Option<string>,
    locationName: Option<string>,
    savedApkUrls: Option<seq<StoredUrl>>,
    saveUrlEnabled: Option<bool>)

  const EMPTY: Prefs := Prefs(None, None, None, None, None, None, None, None)

  /** An absent boolean reads as false. */
  function BoolOrFalse(v: Option<bool>): (r: bool)
    ensures r <==> v == Some(true)
  {
    if v.Some? then v.value else false
  }

  /** An absent string reads as the empty string. */
  function StringOrEmpty(v: Option<string>): (r: string)
    ensures v.None? ==> r == ""
    ensures v.Some? ==> r == v.value
  {
    if v.Some? then v.value else ""
  }

  predicate NoDuplicates<T(==)>(s: seq<T>)
  {
    forall i, j :: 0 <= i < j < |s| ==> s[i] != s[j]
  }

  /** Whether a stored string decodes to an entry for `pkg`; undecodable strings never match. */
  predicate IsFor(e: StoredUrl, pkg: string)
  {
    e.Encoded? && e.entry.packageName == pkg
  }

  /** No two decodable strings of the set name the same package. */
  predicate UniquePackages(s: seq<StoredUrl>)
  {
    forall i, j :: 0 <= i < j < |s| && s[i].Encoded? && s[j].Encoded? ==>
      s[i].entry.packageName != s[j].entry.packageName
  }

  /** `find`: the position of the first string that decodes to an entry for `pkg`. */
  function FirstFor(s: seq<StoredUrl>, pkg: string): (r: Option<nat>)
    ensures r.Some? ==> r.value < |s| && IsFor(s[r.value], pkg)
                        && forall j :: 0 <= j < r.value ==> !IsFor(s[j], pkg)
    ensures r.None? <==> forall j :: 0 <= j < |s| ==> !IsFor(s[j], pkg)
  {
    if s == [] then None
    else if IsFor(s[0], pkg) then Some(0)
    else
      var r := FirstFor(s[1..], pkg);
      if r.None? then None else Some(r.value + 1)
  }

  /** `mapNotNull` over the decoder: the entries the set's strings decode to, in set order. */
  function DecodeAll(s: seq<StoredUrl>): (r: seq<SavedApkUrl>)
    ensures forall v :: v in r <==> Encoded(v) in s
    ensures |r| <= |s|
  {
    if s == [] then []
    else
      assert forall e :: e in s <==> e == s[0] || e in s[1..];
      (if s[0].Encoded? then [s[0].entry] else []) + DecodeAll(s[1..])
  }

  /** Sorts no later than under `sortedByDescending { timestamp }`. */
  predicate NewerOrSame(a: SavedApkUrl, b: SavedApkUrl)
  {
    a.timestamp >= b.timestamp
  }

  /** The savedApkUrls view: the decodable entries, newest first (stable on equal timestamps). */
  function SavedApkUrlList(p: Prefs): (r: seq<SavedApkUrl>)
    ensures multiset(r) == multiset(DecodeAll(if p.savedApkUrls.Some? then p.savedApkUrls.value else []))
  {
    Sorting.SortBy(DecodeAll(if p.savedApkUrls.Some? then p.savedApkUrls.value else []), NewerOrSame)
  }

  /** The view lists exactly the entries whose encoding is stored, newest first. */
  lemma SavedApkUrlListSorted(p: Prefs)
    ensures Sorting.SortedBy(SavedApkUrlList(p), NewerOrSame)
    ensures forall v :: v in SavedApkUrlList(p) <==>
              p.savedApkUrls.Some? && Encoded(v) in p.savedApkUrls.value
  {
    var decoded := DecodeAll(if p.savedApkUrls.Some? then p.savedApkUrls.value else []);
    Sorting.SortBySorted(decoded, NewerOrSame);
    forall v ensures v in SavedApkUrlList(p) <==> v in decoded {
      assert v in SavedApkUrlList(p) <==> v in multiset(SavedApkUrlList(p));
      assert v in decoded <==> v in multiset(decoded);
    }
  }

  /** The set after removing the element at `i`. */
  function RemoveAt(s: seq<StoredUrl>, i: nat): (r: seq<StoredUrl>)
    requires i < |s|
    ensures |r| == |s| - 1
    ensures forall e :: e in r <==> exists j :: 0 <= j < |s| && j != i && s[j] == e
  {
    assert forall j :: 0 <= j < |s| && j != i ==> s[j] in s[..i] + s[i + 1..] by {
      forall j | 0 <= j < |s| && j != i ensures s[j] in s[..i] + s[i + 1..] {
        if j < i { assert s[..i][j] == s[j]; } else { assert s[i + 1..][j - i - 1] == s[j]; }
      }
    }
    s[..i] + s[i + 1..]
  }

  /** The set after addSavedApkUrl(u): the first string for u's package removed, then u's encoding added. */
  function AddedUrls(s: seq<StoredUrl>, u: SavedApkUrl): (r: seq<StoredUrl>)
    ensures Encoded(u) in r
    ensures forall e :: e in r ==> e == Encoded(u) || e in s
    ensures forall e :: e in s && !IsFor(e, u.packageName) ==> e in r
  {
    var first := FirstFor(s, u.packageName);
    var rest := if first.Some? then RemoveAt(s, first.value) else s;
    assert forall e :: e in s && !IsFor(e, u.packageName) ==> e in rest by {
      if first.Some? {
        forall e | e in s && !IsFor(e, u.packageName) ensures e in rest {
          var j :| 0 <= j < |s| && s[j] == e;
          assert j != first.value;
        }
      }
    }
    if Encoded(u) in rest then rest else rest + [Encoded(u)]
  }

  /** Adding keeps the set free of duplicate strings. */
  lemma AddedUrlsNoDuplicates(s: seq<StoredUrl>, u: SavedApkUrl)
    requires NoDuplicates(s)
    ensures NoDuplicates(AddedUrls(s, u))
  {
    var first := FirstFor(s, u.packageName);
    if first.Some? {
      RemoveAtKeeps(s, first.value);
    }
    var rest := if first.Some? then RemoveAt(s, first.value) else s;
    if Encoded(u) !in rest {
      var r := rest + [Encoded(u)];
      forall i, j | 0 <= i < j < |r| ensures r[i] != r[j] {
        assert r[i] == rest[i];
        if j == |rest| {
          assert rest[i] in rest;
        } else {
          assert r[j] == rest[j];
        }
      }
    }
  }

  /** The set after removeSavedApkUrl(pkg), or None when nothing is written
      (no stored set, or no string for `pkg`). */
  function RemovedUrls(stored: Option<seq<StoredUrl>>, pkg: string): (r: Option<seq<StoredUrl>>)
    ensures r.None? <==> stored.None? || forall e :: e in stored.value ==> !IsFor(e, pkg)
    ensures r.Some? ==> |r.value| == |stored.value| - 1
    ensures r.Some? ==> forall e :: e in stored.value && !IsFor(e, pkg) ==> e in r.value
    ensures r.Some? ==> forall e :: e in r.value ==> e in stored.value
  {
    if stored.None? then None
    else
      var first := FirstFor(stored.value, pkg);
      if first.None? then None
      else
        var s := stored.value;
        assert forall e :: e in s && !IsFor(e, pkg) ==> e in RemoveAt(s, first.value) by {
          forall e | e in s && !IsFor(e, pkg) ensures e in RemoveAt(s, first.value) {
            var j :| 0 <= j < |s| && s[j] == e;
            assert j != first.value;
          }
        }
        Some(RemoveAt(s, first.value))
  }

  lemma RemoveAtKeeps(s: seq<StoredUrl>, i: nat)
    requires i < |s|
    ensures NoDuplicates(s) ==> NoDuplicates(RemoveAt(s, i))
    ensures UniquePackages(s) ==> UniquePackages(RemoveAt(s, i))
    ensures NoDuplicates(s) ==> s[i] !in RemoveAt(s, i)
  {
    var r := RemoveAt(s, i);
    assert forall k :: 0 <= k < |r| ==> r[k] == if k < i then s[k] else s[k + 1];
  }

  /** The set once the first string for `pkg` is gone: with one entry per package, no string
      for `pkg` is left, and the invariant holds. */
  lemma WithoutFirstFor(s: seq<StoredUrl>, pkg: string)
    requires NoDuplicates(s) && UniquePackages(s)
    ensures var first := FirstFor(s, pkg);
            var rest := if first.Some? then RemoveAt(s, first.value) else s;
            && NoDuplicates(rest) && UniquePackages(rest)
            && (forall k :: 0 <= k < |rest| ==> !IsFor(rest[k], pkg))
            && (forall e :: e in rest <==> e in s && !IsFor(e, pkg))
  {
    var first := FirstFor(s, pkg);
    if first.Some? {
      var i := first.value;
      var rest := RemoveAt(s, i);
      RemoveAtKeeps(s, i);
      forall k | 0 <= k < |rest|
        ensures !IsFor(rest[k], pkg)
      {
        var j := if k < i then k else k + 1;
        assert rest[k] == s[j];
      }
    }
  }

  /** Appending a string whose package no string of the set has keeps the invariant. */
  lemma AppendFresh(rest: seq<StoredUrl>, u: SavedApkUrl)
    requires NoDuplicates(rest) && UniquePackages(rest)
    requires forall k :: 0 <= k < |rest| ==> !IsFor(rest[k], u.packageName)
    ensures NoDuplicates(rest + [Encoded(u)]) && UniquePackages(rest + [Encoded(u)])
  {
  }

  /** With one entry per package kept as an invariant, adding `u` replaces the entry
      for u's package, keeps every other entry, and keeps the invariant. */
  lemma AddReplacesEntry(s: seq<StoredUrl>, u: SavedApkUrl)
    requires NoDuplicates(s) && UniquePackages(s)
    ensures NoDuplicates(AddedUrls(s, u)) && UniquePackages(AddedUrls(s, u))
    ensures forall v :: v in DecodeAll(AddedUrls(s, u)) <==>
              v == u || (v in DecodeAll(s) && v.packageName != u.packageName)
  {
    var first := FirstFor(s, u.packageName);
    var rest := if first.Some? then RemoveAt(s, first.value) else s;
    WithoutFirstFor(s, u.packageName);
    assert Encoded(u) !in rest;
    var r := rest + [Encoded(u)];
    assert AddedUrls(s, u) == r;
    AppendFresh(rest, u);
    forall v
      ensures v in DecodeAll(r) <==> v == u || (v in DecodeAll(s) && v.packageName != u.packageName)
    {
      assert Encoded(v) in r <==> Encoded(v) == Encoded(u) || Encoded(v) in rest;
    }
  }

  /** With one entry per package, removing `pkg` drops exactly that package's entry. */
  lemma {:induction false} RemoveDropsEntry(s: seq<StoredUrl>, pkg: string)
    requires NoDuplicates(s) && UniquePackages(s)
    ensures RemovedUrls(Some(s), pkg).Some? ==>
              var r := RemovedUrls(Some(s), pkg).value;
              NoDuplicates(r) && UniquePackages(r)
              && forall v :: v in DecodeAll(r) <==> v in DecodeAll(s) && v.packageName != pkg
  {
    var first := FirstFor(s, pkg);
    if first.Some? {
      var i := first.value;
      RemoveAtKeeps(s, i);
      var r := RemoveAt(s, i);
      forall v ensures v in DecodeAll(r) <==> v in DecodeAll(s) && v.packageName != pkg {
        if Encoded(v) in r {
          var k :| 0 <= k < |r| && r[k] == Encoded(v);
          var j := if k < i then k else k + 1;
          assert r[k] == s[j];
        }
      }
    }
  }

  /** The DataStore-backed preferences object: `store` is what is persisted, `writes` the keys
      written by each edit, in order. */
  class KioskPreferences {
    var store: Prefs
    var writes: seq<Key>

    /** The stored string set has set semantics. */
    ghost predicate Valid()
      reads this
    {
      store.savedApkUrls.Some? ==> NoDuplicates(store.savedApkUrls.value)
    }

    constructor(initial: Prefs)
      requires initial.savedApkUrls.Some? ==> NoDuplicates(initial.savedApkUrls.value)
      ensures Valid() && store == initial && writes == []
    {
      store := initial;
      writes := [];
    }

    function IsKioskModeActive(): bool reads this { BoolOrFalse(store.kioskModeActive) }
    function IsInitialSetupCompleted(): bool reads this { BoolOrFalse(store.initialSetupCompleted) }
    function GetPasswordHash(): Option<string> reads this { store.passwordHash }
    function GetAutoStartAppPackage(): Option<string> reads this { store.autoStartAppPackage }
    function GetStaffName(): string reads this { StringOrEmpty(store.staffName) }
    function GetLocationName(): string reads this { StringOrEmpty(store.locationName) }
    function IsSaveUrlEnabled(): bool reads this { BoolOrFalse(store.saveUrlEnabled) }

    method SetKioskModeActive(active: bool)
      requires Valid()
      modifies this
      ensures Valid() && IsKioskModeActive() == active
      ensures store == old(store).(kioskModeActive := Some(active)) && writes == old(writes) + [KioskModeActive]
    {
      store := store.(kioskModeActive := Some(active));
      writes := writes + [KioskModeActive];
    }

    method SetInitialSetupCompleted(completed: bool)
      requires Valid()
      modifies this
      ensures Valid() && IsInitialSetupCompleted() == completed
      ensures store == old(store).(initialSetupCompleted := Some(completed))
      ensures writes == old(writes) + [InitialSetupCompleted]
    {
      store := store.(initialSetupCompleted := Some(completed));
      writes := writes + [InitialSetupCompleted];
    }

    method SetPasswordHash(hash: string)
      requires Valid()
      modifies this
      ensures Valid() && GetPasswordHash() == Some(hash)
      ensures store == old(store).(passwordHash := Some(hash)) && writes == old(writes) + [PasswordHash]
    {
      store := store.(passwordHash := Some(hash));
      writes := writes + [PasswordHash];
    }

    /** A null package removes the key rather than storing a value. */
    method SetAutoStartAppPackage(packageName: Option<string>)
      requires Valid()
      modifies this
      ensures Valid() && GetAutoStartAppPackage() == packageName
      ensures store == old(store).(autoStartAppPackage := packageName)
      ensures writes == old(writes) + [AutoStartAppPackage]
    {
      if packageName.None? {
        store := store.(autoStartAppPackage := None);
      } else {
        store := store.(autoStartAppPackage := Some(packageName.value));
      }
      writes := writes + [AutoStartAppPackage];
    }

    method SetStaffName(name: string)
      requires Valid()
      modifies this
      ensures Valid() && GetStaffName() == name
      ensures store == old(store).(staffName := Some(name)) && writes == old(writes) + [StaffName]
    {
      store := store.(staffName := Some(name));
      writes := writes + [StaffName];
    }

    method SetLocationName(location: string)
      requires Valid()
      modifies this
      ensures Valid() && GetLocationName() == location
      ensures store == old(store).(locationName := Some(location)) && writes == old(writes) + [LocationName]
    {
      store := store.(locationName := Some(location));
      writes := writes + [LocationName];
    }

    method SetSaveUrlEnabled(enabled: bool)
      requires Valid()
      modifies this
      ensures Valid() && IsSaveUrlEnabled() == enabled
      ensures store == old(store).(saveUrlEnabled := Some(enabled)) && writes == old(writes) + [SaveUrlEnabled]
    {
      store := store.(saveUrlEnabled := Some(enabled));
      writes := writes + [SaveUrlEnabled];
    }

    /** addSavedApkUrl: a missing set counts as empty; the result is always written. */
    method AddSavedApkUrl(u: SavedApkUrl)
      requires Valid()
      modifies this
      ensures Valid()
      ensures store == old(store).(savedApkUrls := Some(AddedUrls(
                if old(store.savedApkUrls).Some? then old(store.savedApkUrls).value else [], u)))
      ensures writes == old(writes) + [SavedApkUrls]
      ensures u in SavedApkUrlList(store)
    {
      var current := if store.savedApkUrls.Some? then store.savedApkUrls.value else [];
      ghost var original := current;
      var existing := FirstFor(current, u.packageName);
      if existing.Some? {
        current := RemoveAt(current, existing.value);
      }
      if Encoded(u) !in current {
        current := current + [Encoded(u)];
      }
      assert current == AddedUrls(original, u);
      AddedUrlsNoDuplicates(original, u);
      store := store.(savedApkUrls := Some(current));
      writes := writes + [SavedApkUrls];
      SavedApkUrlListSorted(store);
    }

    /** removeSavedApkUrl: nothing is written when there is no set or no entry for `pkg`. */
    method RemoveSavedApkUrl(pkg: string)
      requires Valid()
      modifies this
      ensures Valid()
      ensures RemovedUrls(old(store.savedApkUrls), pkg).None? ==> store == old(store) && writes == old(writes)
      ensures RemovedUrls(old(store.savedApkUrls), pkg).Some? ==>
                && store == old(store).(savedApkUrls := RemovedUrls(old(store.savedApkUrls), pkg))
                && writes == old(writes) + [SavedApkUrls]
    {
      if store.savedApkUrls.None? {
        return;
      }
      var current := store.savedApkUrls.value;
      var entry := FirstFor(current, pkg);
      if entry.Some? {
        RemoveAtKeeps(current, entry.value);
        current := RemoveAt(current, entry.value);
        store := store.(savedApkUrls := Some(current));
        writes := writes + [SavedApkUrls];
      }
    }
  }
}

=== FILE: provisioning.dfy ===
/** generate_qr.py: configuration filtering, the provisioning payload, the output file name, the
    signature checksum and the auto-update skip rules. */
module Provisioning {
  import opened Wrappers
  import Text
  import Base64

  const GITHUB_REPO_KEY := "_github_repo"
  const EXTRA := "android.app.extra."
  const PROVISIONING := EXTRA + "PROVISIONING_"
  const DOWNLOAD_LOCATION_KEY := PROVISIONING + "DEVICE_ADMIN_PACKAGE_DOWNLOAD_LOCATION"
  const SIGNATURE_CHECKSUM_KEY := PROVISIONING + "DEVICE_ADMIN_SIGNATURE_CHECKSUM"
  const PACKAGE_CHECKSUM_KEY := PROVISIONING + "DEVICE_ADMIN_PACKAGE_CHECKSUM"
  const ADMIN_EXTRAS_KEY := PROVISIONING + "ADMIN_EXTRAS_BUNDLE"
  const WIFI_PREFIX := PROVISIONING + "WIFI_"
  const WIFI_SSID_KEY := WIFI_PREFIX + "SSID"
  const CERTIFICATE := "Signer #1 certificate "
  const SIGNER_MARK := CERTIFICATE + "SHA-256"
  const DIGEST_MARK := "SHA-256 digest: "

  /** A JSON value as json.load returns it (arrays and floats are not modelled). */
  datatype Value = Null | Bool(b: bool) | Number(n: int) | Str(s: string) | Object(fields: map<string, Value>)

  /** Python truthiness. */
  predicate Truthy(v: Value)
  {
    match v
    case Null => false
    case Bool(b) => b
    case Number(n) => n != 0
    case Str(s) => s != []
    case Object(fields) => fields != map[]
  }

  /** dict.get(key, default) */
  function Get(m: map<string, Value>, key: string, default: Value): Value
  {
    if key in m then m[key] else default
  }

  // ---------------------------------------------------------------- configuration filters

  predicate KeptByLoad(k: string) { !Text.StartsWith(k, "_") || k == GITHUB_REPO_KEY }

  /** load_json: drop the comment keys (a leading "_"), keeping "_github_repo". */
  function LoadJsonFilter(data: map<string, Value>): (r: map<string, Value>)
    ensures forall k :: k in r <==> k in data && KeptByLoad(k)
    ensures forall k :: k in r ==> r[k] == data[k]
  {
    map k | k in data && KeptByLoad(k) :: data[k]
  }

  /** The payload's starting point: the common configuration without any "_" key. */
  function PayloadBase(common: map<string, Value>): (r: map<string, Value>)
    ensures forall k :: k in r <==> k in common && !Text.StartsWith(k, "_")
    ensures forall k :: k in r ==> r[k] == common[k]
  {
    map k | k in common && !Text.StartsWith(k, "_") :: common[k]
  }

  /** Loading and then building the payload drops every "_" key, "_github_repo" included. */
  lemma PayloadDropsMetadata(data: map<string, Value>)
    ensures PayloadBase(LoadJsonFilter(data)) == PayloadBase(data)
    ensures GITHUB_REPO_KEY !in PayloadBase(LoadJsonFilter(data))
  {
    assert Text.StartsWith(GITHUB_REPO_KEY, "_");
  }

  predicate IsWifiKey(k: string) { Text.StartsWith(k, WIFI_PREFIX) }

  /** A provisioning key never looks like a comment key. */
  lemma ProvisioningKeyNotComment(k: string)
    requires Text.StartsWith(k, PROVISIONING)
    ensures !Text.StartsWith(k, "_")
  {
    assert EXTRA[0] == 'a';
    assert PROVISIONING[0] == 'a';
    assert k[0] == k[..|PROVISIONING|][0];
  }

  lemma ProvisioningKeys(k: string, rest: string)
    requires k == PROVISIONING + rest || Text.StartsWith(k, PROVISIONING + rest)
    ensures Text.StartsWith(k, PROVISIONING)
  {
    assert (PROVISIONING + rest)[..|PROVISIONING|] == PROVISIONING;
    if Text.StartsWith(k, PROVISIONING + rest) {
      assert k[..|PROVISIONING|] == k[..|PROVISIONING + rest|][..|PROVISIONING|];
    }
  }

  /** The WiFi entries of a profile: only the keys with the provisioning WiFi prefix. */
  function WifiEntries(profile: map<string, Value>): (r: map<string, Value>)
    ensures forall k :: k in r <==> k in profile && IsWifiKey(k)
    ensures forall k :: k in r ==> r[k] == profile[k]
  {
    map k | k in profile && IsWifiKey(k) :: profile[k]
  }

  // ---------------------------------------------------------------- output name

  /** The output file name: the location id by default, with ".png" appended when missing. */
  function OutputName(locationId: string, output: Option<string>): (r: string)
    ensures Text.EndsWith(r, ".png")
    ensures var base := if output.Some? then output.value else locationId;
            if Text.EndsWith(base, ".png") then r == base else r == base + ".png"
  {
    var base := if output.Some? then output.value else locationId;
    if Text.EndsWith(base, ".png") then base
    else
      assert (base + ".png")[|base + ".png"| - 4..] == ".png";
      base + ".png"
  }

  // ---------------------------------------------------------------- checksum

  predicate IsHexOrSpace(c: char) { ('0' <= c <= '9') || ('a' <= c <= 'f') || c == ' ' }

  /** The longest prefix of `s` made of [a-f0-9 ] characters. */
  function Run(s: string): (r: string)
    ensures |r| <= |s| && r == s[..|r|]
    ensures forall i :: 0 <= i < |r| ==> IsHexOrSpace(r[i])
    ensures |r| == |s| || !IsHexOrSpace(s[|r|])
  {
    if s == [] || !IsHexOrSpace(s[0]) then [] else [s[0]] + Run(s[1..])
  }

  /** re.search(r'SHA-256 digest: ([a-f0-9 ]+)', line) from position i: the group of the
      leftmost match. */
  function DigestFrom(line: string, i: nat): (r: Option<string>)
    requires i <= |line|
    ensures r.Some? ==> r.value != [] && forall j :: 0 <= j < |r.value| ==> IsHexOrSpace(r.value[j])
    decreases |line| - i
  {
    var m := |DIGEST_MARK|;
    if i + m + 1 > |line| then None
    else if line[i..i + m] == DIGEST_MARK && IsHexOrSpace(line[i + m]) then Some(Run(line[i + m..]))
    else DigestFrom(line, i + 1)
  }

  /** `sub in s` */
  function Contains(s: string, sub: string): bool
    decreases |s|
  {
    if |s| < |sub| then false else s[..|sub|] == sub || Contains(s[1..], sub)
  }

  /** The digest text of a line of apksigner output: the regex group with spaces removed. */
  function LineDigest(line: string): (r: Option<string>)
    ensures r.Some? ==> Contains(line, SIGNER_MARK) && forall i :: 0 <= i < |r.value| ==> IsHexDigit(r.value[i])
  {
    if Contains(line, SIGNER_MARK) then
      match DigestFrom(line, 0)
      case Some(g) => Some(RemoveSpaces(g))
      case None => None
    else None
  }

  /** .replace(' ', '') */
  function RemoveSpaces(s: string): (r: string)
    ensures forall c :: c in r <==> c in s && c != ' '
    ensures (forall i :: 0 <= i < |s| ==> IsHexOrSpace(s[i])) ==> forall i :: 0 <= i < |r| ==> IsHexDigit(r[i])
  {
    if s == [] then [] else (if s[0] == ' ' then [] else [s[0]]) + RemoveSpaces(s[1..])
  }

  /** The first digest among the lines, if any. */
  function FirstDigest(lines: seq<string>): (r: Option<string>)
    ensures r.Some? ==> forall i :: 0 <= i < |r.value| ==> IsHexDigit(r.value[i])
  {
    if lines == [] then None
    else if LineDigest(lines[0]).Some? then LineDigest(lines[0]) else FirstDigest(lines[1..])
  }

  predicate IsHexDigit(c: char) { ('0' <= c <= '9') || ('a' <= c <= 'f') }

  function HexValue(c: char): (v: nat)
    requires IsHexDigit(c)
    ensures v < 16
  {
    if c <= '9' then c as int - '0' as int else c as int - 'a' as int + 10
  }

  function HexChar(v: nat): (c: char)
    requires v < 16
    ensures IsHexDigit(c) && HexValue(c) == v
  {
    if v < 10 then ('0' as int + v) as char else ('a' as int + v - 10) as char
  }

  /** bytes.fromhex for an even-length string of lower-case hex digits. */
  function FromHex(s: string): (r: seq<Base64.Byte>)
    requires |s| % 2 == 0 && forall i :: 0 <= i < |s| ==> IsHexDigit(s[i])
    ensures |r| == |s| / 2
  {
    if s == [] then [] else [HexValue(s[0]) * 16 + HexValue(s[1])] + FromHex(s[2..])
  }

  /** The lower-case two-digit hex spelling of bytes, as apksigner prints a digest. */
  function ToHex(b: seq<Base64.Byte>): (r: string)
    ensures |r| == 2 * |b| && forall i :: 0 <= i < |r| ==> IsHexDigit(r[i])
  {
    if b == [] then [] else [HexChar(b[0] / 16), HexChar(b[0] % 16)] + ToHex(b[1..])
  }

  lemma {:induction false} FromHexToHex(b: seq<Base64.Byte>)
    ensures FromHex(ToHex(b)) == b
  {
    if b != [] {
      var s := ToHex(b);
      assert s[2..] == ToHex(b[1..]);
      FromHexToHex(b[1..]);
    }
  }

  /** bytes.fromhex raises on the digest text: an odd number of hex digits. */
  predicate OddDigest(signerOutput: Option<string>)
  {
    signerOutput.Some?
    && var digest := FirstDigest(Text.Split(signerOutput.value, '\n'));
       digest.Some? && |digest.value| % 2 == 1
  }

  /** What calculate_checksum returns for apksigner's output (None: apksigner could not run or
      failed). None also stands for the script stopping: no signer line with a digest, or an odd
      number of hex digits. A checksum never holds '+', '/' or '='. */
  function ChecksumOf(signerOutput: Option<string>): (r: Option<string>)
    ensures r.Some? ==> forall c :: c in r.value ==> c !in "+/="
  {
    if signerOutput.None? then None
    else
      match FirstDigest(Text.Split(signerOutput.value, '\n'))
      case None => None
      case Some(hex) =>
        if |hex| % 2 == 0 then
          Base64.UrlEncodeAlphabet(FromHex(hex));
          Some(Base64.UrlEncodeNoPad(FromHex(hex)))
        else None
  }

  /** calculate_checksum: the first signer line carrying a digest decides; the hex digits are
      decoded and encoded as base64url without padding (section 5 of RFC 4648). */
  method CalculateChecksum(signerOutput: Option<string>) returns (checksum: Option<string>)
    ensures checksum == ChecksumOf(signerOutput)
  {
    if signerOutput.None? {
      return None;
    }
    var lines := Text.Split(signerOutput.value, '\n');
    for i := 0 to |lines|
      invariant FirstDigest(lines[i..]) == FirstDigest(lines)
    {
      var digest := LineDigest(lines[i]);
      if digest.Some? {
        var hex := digest.value;
        if |hex| % 2 != 0 {
          return None;
        }
        var hashBytes := FromHex(hex);
        var b64 := Base64.StandardEncode(hashBytes);
        var urlSafe := Base64.RStrip(Base64.ToUrlAlphabet(b64), '=');
        Base64.UrlSafeIsUrlEncodeNoPad(hashBytes);
        return Some(urlSafe);
      }
      assert lines[i..][1..] == lines[i + 1..];
    }
    return None;
  }

  // ---------------------------------------------------------------- payload

  /** The three configuration files after loading: the common configuration, the "profiles"
      table of wifi_profiles.json and the "locations" table of locations.json. */
  datatype Config = Config(common: map<string, Value>,
                           profiles: map<string, map<string, Value>>,
                           locations: map<string, map<string, Value>>)

  /** Why the script stops without producing a QR code. */
  datatype Abort =
    | UnknownLocation(locationId: string)
    | MissingLocationKey(key: string)
    | UnknownWifiProfile(profileId: Value)
    | MissingProfileKey(key: string)
    | ChecksumUnavailable

  datatype Generated = Generated(outputName: string, payload: map<string, Value>)

  /** The profile id in effect: none with no_wifi, else the one given, else the location's
      recommended one (absent = None). */
  function WifiChoice(location: map<string, Value>, wifiProfileId: Option<string>, noWifi: bool): (w: Value)
    ensures noWifi ==> !Truthy(w)
    ensures !noWifi && wifiProfileId.Some? ==> w == Str(wifiProfileId.value)
    ensures !noWifi && wifiProfileId.None? ==> w == Get(location, "recommended_wifi", Null)
  {
    if noWifi then Null
    else if wifiProfileId.Some? then Str(wifiProfileId.value)
    else Get(location, "recommended_wifi", Null)
  }

  /** The WiFi entries merged for a chosen id (none when the id is falsy or unknown). */
  function WifiOf(profiles: map<string, map<string, Value>>, w: Value): map<string, Value>
  {
    if Truthy(w) && w.Str? && w.s in profiles then WifiEntries(profiles[w.s]) else map[]
  }

  /** Why a chosen profile id cannot be used: it is not a known profile, or the profile lacks
      the name or the SSID the script prints. */
  function WifiProblem(profiles: map<string, map<string, Value>>, w: Value): Option<Abort>
  {
    if !Truthy(w) then None
    else if !(w.Str? && w.s in profiles) then Some(UnknownWifiProfile(w))
    else if "name" !in profiles[w.s] then Some(MissingProfileKey("name"))
    else if WIFI_SSID_KEY !in profiles[w.s] then Some(MissingProfileKey(WIFI_SSID_KEY))
    else None
  }

  /** The WiFi step of generate_qr: the entries to merge, or the reason to stop. */
  method SelectWifi(profiles: map<string, map<string, Value>>, wifiId: Value)
    returns (r: Result<map<string, Value>, Abort>)
    ensures r.Failure? <==> WifiProblem(profiles, wifiId).Some?
    ensures r.Failure? ==> r.error == WifiProblem(profiles, wifiId).value
    ensures r.Success? ==> r.value == WifiOf(profiles, wifiId)
  {
    if !Truthy(wifiId) {
      return Success(map[]);
    }
    if !(wifiId.Str? && wifiId.s in profiles) {
      return Failure(UnknownWifiProfile(wifiId));
    }
    var wifi := profiles[wifiId.s];
    var entries := WifiEntries(wifi);
    if "name" !in wifi {
      return Failure(MissingProfileKey("name"));
    }
    if WIFI_SSID_KEY !in wifi {
      return Failure(MissingProfileKey(WIFI_SSID_KEY));
    }
    return Success(entries);
  }

  predicate Given(s: Option<string>) { s.Some? && s.value != [] }

  /** The first reason, in the script's order, to stop; None when a QR code is produced. */
  function Problem(config: Config, locationId: string, wifiProfileId: Option<string>,
                   apkPath: Option<string>, signerOutput: Option<string>, noWifi: bool): Option<Abort>
  {
    if locationId !in config.locations then Some(UnknownLocation(locationId))
    else
      var location := config.locations[locationId];
      var w := WifiChoice(location, wifiProfileId, noWifi);
      if "name" !in location then Some(MissingLocationKey("name"))
      else if WifiProblem(config.profiles, w).Some? then WifiProblem(config.profiles, w)
      else if Given(apkPath) && ChecksumOf(signerOutput).None? then Some(ChecksumUnavailable)
      else if "warehouse_id" !in location then Some(MissingLocationKey("warehouse_id"))
      else None
  }

  /** The admin-extras bundle of a location. */
  function AdminExtras(location: map<string, Value>): (r: map<string, Value>)
    requires "name" in location && "warehouse_id" in location
    ensures r.Keys == {"warehouse_id", "wms_apk_url", "location_name"}
    ensures r["warehouse_id"] == location["warehouse_id"] && r["location_name"] == location["name"]
    ensures r["wms_apk_url"] == if "wms_apk_url" in location then location["wms_apk_url"] else Str("")
  {
    map["warehouse_id" := location["warehouse_id"],
        "wms_apk_url" := Get(location, "wms_apk_url", Str("")),
        "location_name" := location["name"]]
  }

  /** The keys the payload is made of, and where each value comes from: the admin extras, the
      --apk checksum and the --apk-url win over the WiFi entries, which win over the common
      configuration. */
  ghost predicate PayloadAssembled(payload: map<string, Value>, common: map<string, Value>,
                             wifi: map<string, Value>, checksum: Option<string>,
                             apkUrl: Option<string>, extras: map<string, Value>)
  {
    payload.Keys == PayloadBase(common).Keys + wifi.Keys + {ADMIN_EXTRAS_KEY}
                    + (if checksum.Some? then {SIGNATURE_CHECKSUM_KEY} else {})
                    + (if Given(apkUrl) then {DOWNLOAD_LOCATION_KEY} else {})
    && payload[ADMIN_EXTRAS_KEY] == Object(extras)
    && (checksum.Some? ==> payload[SIGNATURE_CHECKSUM_KEY] == Str(checksum.value))
    && (Given(apkUrl) ==> payload[DOWNLOAD_LOCATION_KEY] == Str(apkUrl.value))
    && (forall k :: k in payload && k != ADMIN_EXTRAS_KEY
          && !(k == SIGNATURE_CHECKSUM_KEY && checksum.Some?) && !(k == DOWNLOAD_LOCATION_KEY && Given(apkUrl))
          ==> payload[k] == if k in wifi then wifi[k] else common[k])
  }

  /** An assembled payload carries no comment key: its own keys all start with "android". */
  lemma AssembledHasNoCommentKey(payload: map<string, Value>, common: map<string, Value>,
                                 wifi: map<string, Value>, checksum: Option<string>,
                                 apkUrl: Option<string>, extras: map<string, Value>)
    requires forall k :: k in wifi ==> IsWifiKey(k)
    requires PayloadAssembled(payload, common, wifi, checksum, apkUrl, extras)
    ensures forall k :: k in payload ==> !Text.StartsWith(k, "_")
  {
    forall k | k in payload
      ensures !Text.StartsWith(k, "_")
    {
      if k in wifi {
        ProvisioningKeys(k, "WIFI_");
      } else if k == ADMIN_EXTRAS_KEY {
        ProvisioningKeys(k, "ADMIN_EXTRAS_BUNDLE");
      } else if k == SIGNATURE_CHECKSUM_KEY {
        ProvisioningKeys(k, "DEVICE_ADMIN_SIGNATURE_CHECKSUM");
      } else if k == DOWNLOAD_LOCATION_KEY {
        ProvisioningKeys(k, "DEVICE_ADMIN_PACKAGE_DOWNLOAD_LOCATION");
      }
      if k !in common || Text.StartsWith(k, PROVISIONING) {
        ProvisioningKeyNotComment(k);
      }
    }
  }

  /** The extras bundle key is neither the checksum key nor the download key (their lengths differ). */
  lemma ExtrasKeyDistinct()
    ensures ADMIN_EXTRAS_KEY != SIGNATURE_CHECKSUM_KEY && ADMIN_EXTRAS_KEY != DOWNLOAD_LOCATION_KEY
  {
    assert |"ADMIN_EXTRAS_BUNDLE"| == 19;
    assert |"DEVICE_ADMIN_SIGNATURE_CHECKSUM"| == 31;
    assert |"DEVICE_ADMIN_PACKAGE_DOWNLOAD_LOCATION"| == 38;
  }

  /** The payload after generate_qr's in-place updates: the base, the WiFi entries, the signature
      checksum, the download location, then the extras bundle. */
  function Assembled(common: map<string, Value>, wifi: map<string, Value>, checksum: Option<string>,
                     apkUrl: Option<string>, extras: map<string, Value>): map<string, Value>
  {
    var p1 := PayloadBase(common) + wifi;
    var p2 := if checksum.Some? then p1[SIGNATURE_CHECKSUM_KEY := Str(checksum.value)] else p1;
    var p3 := if Given(apkUrl) then p2[DOWNLOAD_LOCATION_KEY := Str(apkUrl.value)] else p2;
    p3[ADMIN_EXTRAS_KEY := Object(extras)]
  }

  lemma AssembledKeys(common: map<string, Value>, wifi: map<string, Value>, checksum: Option<string>,
                      apkUrl: Option<string>, extras: map<string, Value>)
    ensures Assembled(common, wifi, checksum, apkUrl, extras).Keys
              == PayloadBase(common).Keys + wifi.Keys + {ADMIN_EXTRAS_KEY}
                 + (if checksum.Some? then {SIGNATURE_CHECKSUM_KEY} else {})
                 + (if Given(apkUrl) then {DOWNLOAD_LOCATION_KEY} else {})
  {
    var p1 := PayloadBase(common) + wifi;
    var p2 := if checksum.Some? then p1[SIGNATURE_CHECKSUM_KEY := Str(checksum.value)] else p1;
    var p3 := if Given(apkUrl) then p2[DOWNLOAD_LOCATION_KEY := Str(apkUrl.value)] else p2;
    var sig: set<string> := if checksum.Some? then {SIGNATURE_CHECKSUM_KEY} else {};
    var dl: set<string> := if Given(apkUrl) then {DOWNLOAD_LOCATION_KEY} else {};
    assert p1.Keys == PayloadBase(common).Keys + wifi.Keys;
    assert p2.Keys == p1.Keys + sig;
    assert p3.Keys == p2.Keys + dl;
  }

  lemma AssembledValues(common: map<string, Value>, wifi: map<string, Value>, checksum: Option<string>,
                        apkUrl: Option<string>, extras: map<string, Value>)
    ensures var payload := Assembled(common, wifi, checksum, apkUrl, extras);
      && ADMIN_EXTRAS_KEY in payload && payload[ADMIN_EXTRAS_KEY] == Object(extras)
      && (checksum.Some? ==> SIGNATURE_CHECKSUM_KEY in payload
                             && payload[SIGNATURE_CHECKSUM_KEY] == Str(checksum.value))
      && (Given(apkUrl) ==> DOWNLOAD_LOCATION_KEY in payload && payload[DOWNLOAD_LOCATION_KEY] == Str(apkUrl.value))
      && (forall k :: k in payload && k != ADMIN_EXTRAS_KEY
            && !(k == SIGNATURE_CHECKSUM_KEY && checksum.Some?) && !(k == DOWNLOAD_LOCATION_KEY && Given(apkUrl))
            ==> payload[k] == if k in wifi then wifi[k] else common[k])
  {
    ExtrasKeyDistinct();
    var p1 := PayloadBase(common) + wifi;
    var payload := Assembled(common, wifi, checksum, apkUrl, extras);
    forall k | k in payload && k != ADMIN_EXTRAS_KEY
                 && !(k == SIGNATURE_CHECKSUM_KEY && checksum.Some?) && !(k == DOWNLOAD_LOCATION_KEY && Given(apkUrl))
      ensures payload[k] == if k in wifi then wifi[k] else common[k]
    {
      assert payload[k] == p1[k];
    }
  }

  /** The in-place updates of generate_qr, in their order, assemble the payload. */
  lemma UpdatesAssemble(common: map<string, Value>, wifi: map<string, Value>, checksum: Option<string>,
                        apkUrl: Option<string>, extras: map<string, Value>)
    ensures
      var p1 := PayloadBase(common) + wifi;
      var p2 := if checksum.Some? then p1[SIGNATURE_CHECKSUM_KEY := Str(checksum.value)] else p1;
      var p3 := if Given(apkUrl) then p2[DOWNLOAD_LOCATION_KEY := Str(apkUrl.value)] else p2;
      PayloadAssembled(p3[ADMIN_EXTRAS_KEY := Object(extras)], common, wifi, checksum, apkUrl, extras)
  {
    AssembledKeys(common, wifi, checksum, apkUrl, extras);
    AssembledValues(common, wifi, checksum, apkUrl, extras);
  }

  /** generate_qr without the QR rendering: the output file name and the payload, or the reason
      the script stops. */
  method GenerateQr(config: Config, locationId: string, wifiProfileId: Option<string>,
                    apkPath: Option<string>, signerOutput: Option<string>, apkUrl: Option<string>,
                    output: Option<string>, noWifi: bool)
    returns (r: Result<Generated, Abort>)
    ensures r.Failure? <==> Problem(config, locationId, wifiProfileId, apkPath, signerOutput, noWifi).Some?
    ensures r.Failure? ==> r.error == Problem(config, locationId, wifiProfileId, apkPath, signerOutput, noWifi).value
    ensures r.Success? ==>
      var location := config.locations[locationId];
      && r.value.outputName == OutputName(locationId, output)
      && PayloadAssembled(r.value.payload, config.common,
                          WifiOf(config.profiles, WifiChoice(location, wifiProfileId, noWifi)),
                          if Given(apkPath) then ChecksumOf(signerOutput) else None,
                          apkUrl, AdminExtras(location))
  {
    var outputName := OutputName(locationId, output);
    var payload := PayloadBase(config.common);
    if locationId !in config.locations {
      return Failure(UnknownLocation(locationId));
    }
    var location := config.locations[locationId];
    if "name" !in location {
      return Failure(MissingLocationKey("name"));
    }
    var wifiId := WifiChoice(location, wifiProfileId, noWifi);
    var wifi := SelectWifi(config.profiles, wifiId);
    if wifi.Failure? {
      return Failure(wifi.error);
    }
    payload := payload + wifi.value;
    ghost var signature: Option<string> := None;
    if Given(apkPath) {
      var checksum := CalculateChecksum(signerOutput);
      if checksum.None? {
        return Failure(ChecksumUnavailable);
      }
      payload := payload[SIGNATURE_CHECKSUM_KEY := Str(checksum.value)];
      signature := checksum;
    }
    if Given(apkUrl) {
      payload := payload[DOWNLOAD_LOCATION_KEY := Str(apkUrl.value)];
    }
    if "warehouse_id" !in location {
      return Failure(MissingLocationKey("warehouse_id"));
    }
    payload := payload[ADMIN_EXTRAS_KEY := Object(AdminExtras(location))];
    UpdatesAssemble(config.common, wifi.value, signature, apkUrl, AdminExtras(location));
    return Success(Generated(outputName, payload));
  }

  // ---------------------------------------------------------------- a signer line

  lemma {:induction false} SplitWithoutSeparator(s: string, sep: char)
    requires sep !in s
    ensures Text.Split(s, sep) == [s]
  {
    if s != [] {
      assert s[0] != sep && sep !in s[1..];
      SplitWithoutSeparator(s[1..], sep);
      assert [s[0]] + s[1..] == s;
    }
  }

  lemma {:induction false} RemoveSpacesOfHex(s: string)
    requires forall i :: 0 <= i < |s| ==> IsHexDigit(s[i])
    ensures RemoveSpaces(s) == s
  {
    if s != [] {
      RemoveSpacesOfHex(s[1..]);
    }
  }

  lemma RunOfHex(s: string)
    requires forall i :: 0 <= i < |s| ==> IsHexDigit(s[i])
    ensures Run(s) == s
  {
  }

  /** The only ':' among the first 37 characters of a signer line is the digest mark's. */
  lemma NoEarlyColon(j: nat)
    requires j < 36
    ensures (CERTIFICATE + DIGEST_MARK)[j] != ':'
  {
    assert |CERTIFICATE| == 22;
    if j < 22 {
      assert forall k :: 0 <= k < 22 ==> CERTIFICATE[k] != ':';
    } else {
      assert forall k :: 0 <= k < 14 ==> DIGEST_MARK[k] != ':';
    }
  }

  /** No position before the real digest mark starts one: its ':' would come too early. */
  lemma NoEarlyMark(hex: string, i: nat)
    requires i < 22
    ensures var line := CERTIFICATE + DIGEST_MARK + hex;
            i + |DIGEST_MARK| <= |line| && line[i..i + |DIGEST_MARK|] != DIGEST_MARK
  {
    var head := CERTIFICATE + DIGEST_MARK;
    var line := head + hex;
    assert |CERTIFICATE| == 22 && |DIGEST_MARK| == 16;
    assert DIGEST_MARK[14] == ':';
    NoEarlyColon(i + 14);
    assert line[i..i + 16][14] == head[i + 14];
  }

  /** The regex group of a signer line is its hex digest. */
  lemma SignerLineDigest(hex: string)
    requires hex != [] && forall i :: 0 <= i < |hex| ==> IsHexDigit(hex[i])
    ensures DigestFrom(CERTIFICATE + DIGEST_MARK + hex, 0) == Some(hex)
  {
    var head := CERTIFICATE + DIGEST_MARK;
    var line := head + hex;
    assert |head| == 38;
    var i := 0;
    while i < 22
      invariant 0 <= i <= 22
      invariant DigestFrom(line, 0) == DigestFrom(line, i)
    {
      NoEarlyMark(hex, i);
      i := i + 1;
    }
    assert line[22..38] == DIGEST_MARK;
    assert line[38..] == hex;
    RunOfHex(hex);
  }

  /** The fixed part of a signer line has no line break. */
  lemma SignerHeadOneLine()
    ensures '\n' !in CERTIFICATE + DIGEST_MARK
  {
    var head := CERTIFICATE + DIGEST_MARK;
    assert |CERTIFICATE| == 22 && |DIGEST_MARK| == 16;
    assert forall j :: 0 <= j < 22 ==> CERTIFICATE[j] != '\n';
    assert forall j :: 0 <= j < 16 ==> DIGEST_MARK[j] != '\n';
    forall j | 0 <= j < |head| ensures head[j] != '\n' {
      if j >= 22 {
        assert head[j] == DIGEST_MARK[j - 22];
      }
    }
  }

  lemma SignerLineShape(hex: string)
    requires forall i :: 0 <= i < |hex| ==> IsHexDigit(hex[i])
    ensures Contains(CERTIFICATE + DIGEST_MARK + hex, SIGNER_MARK)
    ensures '\n' !in CERTIFICATE + DIGEST_MARK + hex
  {
    var head := CERTIFICATE + DIGEST_MARK;
    var line := head + hex;
    assert |CERTIFICATE| == 22 && |DIGEST_MARK| == 16;
    assert DIGEST_MARK[..7] == "SHA-256";
    assert line[..|SIGNER_MARK|] == SIGNER_MARK;
    SignerHeadOneLine();
    forall j | 0 <= j < |line| ensures line[j] != '\n' {
      if j < 38 {
        assert line[j] == head[j];
      } else {
        assert line[j] == hex[j - 38];
      }
    }
  }

  /** The line apksigner prints for the first signer: its certificate's SHA-256 digest in
      lower-case hex yields the 43-character unpadded base64url checksum of the digest. */
  lemma SignerLineChecksum(digest: seq<Base64.Byte>)
    requires |digest| == 32
    ensures ChecksumOf(Some(CERTIFICATE + DIGEST_MARK + ToHex(digest))) == Some(Base64.UrlEncodeNoPad(digest))
    ensures |Base64.UrlEncodeNoPad(digest)| == 43
  {
    var hex := ToHex(digest);
    var line := CERTIFICATE + DIGEST_MARK + hex;
    SignerLineShape(hex);
    SignerLineDigest(hex);
    RemoveSpacesOfHex(hex);
    assert LineDigest(line) == Some(hex);
    SplitWithoutSeparator(line, '\n');
    assert FirstDigest([line]) == Some(hex);
    FromHexToHex(digest);
    Base64.UrlEncodeNoPadLength(digest);
  }

  // ---------------------------------------------------------------- auto-update of the common configuration

  /** check_and_update_common_config: the three ways to keep the configuration, or the URL to fetch. */
  datatype UpdateStep = NoRepo | NoRelease | UrlCurrent | Fetch(url: string)

  /** The skip rules: no (truthy) "_github_repo", no APK URL in the latest release, or the URL
      already in the configuration (compared with the value, "" when absent). */
  function DecideUpdate(common: map<string, Value>, latestUrl: Option<string>): (d: UpdateStep)
    ensures d == NoRepo <==> !Truthy(Get(common, GITHUB_REPO_KEY, Null))
    ensures d == NoRelease <==> Truthy(Get(common, GITHUB_REPO_KEY, Null)) && !Given(latestUrl)
    ensures d == UrlCurrent <==> Truthy(Get(common, GITHUB_REPO_KEY, Null)) && Given(latestUrl)
                                 && Get(common, DOWNLOAD_LOCATION_KEY, Str("")) == Str(latestUrl.value)
    ensures d.Fetch? ==> Given(latestUrl) && d.url == latestUrl.value
                         && Get(common, DOWNLOAD_LOCATION_KEY, Str("")) != Str(d.url)
  {
    if !Truthy(Get(common, GITHUB_REPO_KEY, Null)) then NoRepo
    else if !Given(latestUrl) then NoRelease
    else if Get(common, DOWNLOAD_LOCATION_KEY, Str("")) == Str(latestUrl.value) then UrlCurrent
    else Fetch(latestUrl.value)
  }

  /** update_common_config_file as written: the new checksum goes under the package-checksum key. */
  function RewriteCommonAsWritten(raw: map<string, Value>, url: string, checksum: string): map<string, Value>
  {
    raw[DOWNLOAD_LOCATION_KEY := Str(url)][PACKAGE_CHECKSUM_KEY := Str(checksum)]
  }

  /** update_common_config_file with the checksum stored where the payload reads it. */
  function RewriteCommon(raw: map<string, Value>, url: string, checksum: string): map<string, Value>
  {
    raw[DOWNLOAD_LOCATION_KEY := Str(url)][SIGNATURE_CHECKSUM_KEY := Str(checksum)]
  }

  lemma DistinctKeys()
    ensures DOWNLOAD_LOCATION_KEY != SIGNATURE_CHECKSUM_KEY && DOWNLOAD_LOCATION_KEY != PACKAGE_CHECKSUM_KEY
    ensures SIGNATURE_CHECKSUM_KEY != PACKAGE_CHECKSUM_KEY
    ensures GITHUB_REPO_KEY != DOWNLOAD_LOCATION_KEY && GITHUB_REPO_KEY != SIGNATURE_CHECKSUM_KEY
    ensures GITHUB_REPO_KEY != PACKAGE_CHECKSUM_KEY
    ensures !Text.StartsWith(DOWNLOAD_LOCATION_KEY, "_") && !Text.StartsWith(SIGNATURE_CHECKSUM_KEY, "_")
    ensures !Text.StartsWith(PACKAGE_CHECKSUM_KEY, "_")
  {
    assert |"DEVICE_ADMIN_SIGNATURE_CHECKSUM"| != |"DEVICE_ADMIN_PACKAGE_CHECKSUM"|;
    assert (PROVISIONING + "DEVICE_ADMIN_PACKAGE_DOWNLOAD_LOCATION")[|PROVISIONING| + 13] == 'P';
    assert (PROVISIONING + "DEVICE_ADMIN_SIGNATURE_CHECKSUM")[|PROVISIONING| + 13] == 'S';
    assert (PROVISIONING + "DEVICE_ADMIN_PACKAGE_CHECKSUM")[|PROVISIONING| + 21] == 'C';
    assert (PROVISIONING + "DEVICE_ADMIN_PACKAGE_DOWNLOAD_LOCATION")[|PROVISIONING| + 21] == 'D';
    assert GITHUB_REPO_KEY[0] == '_';
    ProvisioningKeys(DOWNLOAD_LOCATION_KEY, "DEVICE_ADMIN_PACKAGE_DOWNLOAD_LOCATION");
    ProvisioningKeys(SIGNATURE_CHECKSUM_KEY, "DEVICE_ADMIN_SIGNATURE_CHECKSUM");
    ProvisioningKeys(PACKAGE_CHECKSUM_KEY, "DEVICE_ADMIN_PACKAGE_CHECKSUM");
    ProvisioningKeyNotComment(DOWNLOAD_LOCATION_KEY);
    ProvisioningKeyNotComment(SIGNATURE_CHECKSUM_KEY);
    ProvisioningKeyNotComment(PACKAGE_CHECKSUM_KEY);
  }

  /** As written, a rewritten configuration still hands the QR payload the signature checksum it
      had before (or none), while the new digest lands under the package-checksum key. */
  lemma RewriteLeavesSignatureChecksumStale(raw: map<string, Value>, url: string, checksum: string)
    ensures var payload := PayloadBase(LoadJsonFilter(RewriteCommonAsWritten(raw, url, checksum)));
      && DOWNLOAD_LOCATION_KEY in payload && payload[DOWNLOAD_LOCATION_KEY] == Str(url)
      && PACKAGE_CHECKSUM_KEY in payload && payload[PACKAGE_CHECKSUM_KEY] == Str(checksum)
      && (SIGNATURE_CHECKSUM_KEY in payload <==> SIGNATURE_CHECKSUM_KEY in raw)
      && (SIGNATURE_CHECKSUM_KEY in raw ==> SIGNATURE_CHECKSUM_KEY in payload
                                            && payload[SIGNATURE_CHECKSUM_KEY] == raw[SIGNATURE_CHECKSUM_KEY])
  {
    DistinctKeys();
  }

  /** A configuration with an old signature checksum "A" keeps it after an update whose digest is "B". */
  lemma StaleChecksumExample()
    ensures var raw := map[GITHUB_REPO_KEY := Str("owner/repo"), DOWNLOAD_LOCATION_KEY := Str("old.apk"),
                           SIGNATURE_CHECKSUM_KEY := Str("A")];
            var payload := PayloadBase(LoadJsonFilter(RewriteCommonAsWritten(raw, "new.apk", "B")));
            SIGNATURE_CHECKSUM_KEY in payload && payload[SIGNATURE_CHECKSUM_KEY] == Str("A")
  {
    var raw := map[GITHUB_REPO_KEY := Str("owner/repo"), DOWNLOAD_LOCATION_KEY := Str("old.apk"),
                   SIGNATURE_CHECKSUM_KEY := Str("A")];
    RewriteLeavesSignatureChecksumStale(raw, "new.apk", "B");
  }

  /** The rewrite adds exactly its two keys to the payload base. */
  lemma RewriteBaseKeys(raw: map<string, Value>, url: string, checksum: string)
    ensures PayloadBase(RewriteCommon(raw, url, checksum)).Keys
            == PayloadBase(raw).Keys + {DOWNLOAD_LOCATION_KEY, SIGNATURE_CHECKSUM_KEY}
  {
    DistinctKeys();
    var after := PayloadBase(RewriteCommon(raw, url, checksum));
    forall k ensures k in after <==> k in PayloadBase(raw) || k == DOWNLOAD_LOCATION_KEY || k == SIGNATURE_CHECKSUM_KEY {
    }
  }

  /** Corrected: the payload built from the rewritten configuration carries the new URL and the new
      signature checksum, and every other key as before. */
  lemma RewriteRefreshesPayload(raw: map<string, Value>, url: string, checksum: string)
    ensures var before := PayloadBase(LoadJsonFilter(raw));
            var after := PayloadBase(LoadJsonFilter(RewriteCommon(raw, url, checksum)));
      && after.Keys == before.Keys + {DOWNLOAD_LOCATION_KEY, SIGNATURE_CHECKSUM_KEY}
      && DOWNLOAD_LOCATION_KEY in after && after[DOWNLOAD_LOCATION_KEY] == Str(url)
      && SIGNATURE_CHECKSUM_KEY in after && after[SIGNATURE_CHECKSUM_KEY] == Str(checksum)
      && forall k :: k in before && k != DOWNLOAD_LOCATION_KEY && k != SIGNATURE_CHECKSUM_KEY
                     ==> k in after && after[k] == before[k]
  {
    var raw2 := RewriteCommon(raw, url, checksum);
    PayloadDropsMetadata(raw);
    PayloadDropsMetadata(raw2);
    RewriteBaseKeys(raw, url, checksum);
    DistinctKeys();
  }

  /** What the auto-update does to the common configuration file. */
  datatype Refresh =
    | Kept(step: UpdateStep)   // skipped by one of the three rules
    | Failed                   // the download or the hex decoding raised; the configuration is kept
    | Exited                   // calculate_checksum ended the script (no apksigner digest)
    | Rewritten(raw: map<string, Value>)

  /** The auto-update on the raw file contents, as written: the decision is taken on the loaded
      (filtered) configuration, the checksum comes from the downloaded APK's apksigner output, and
      update_common_config_file stores it under the package-checksum key. */
  function AutoUpdate(raw: map<string, Value>, latestUrl: Option<string>, downloaded: bool,
                      signerOutput: Option<string>): (r: Refresh)
    ensures r.Kept? <==> !DecideUpdate(LoadJsonFilter(raw), latestUrl).Fetch?
    ensures r.Kept? ==> r.step == DecideUpdate(LoadJsonFilter(raw), latestUrl)
    ensures r.Failed? <==> DecideUpdate(LoadJsonFilter(raw), latestUrl).Fetch?
                           && (!downloaded || (ChecksumOf(signerOutput).None? && OddDigest(signerOutput)))
    ensures r.Exited? <==> DecideUpdate(LoadJsonFilter(raw), latestUrl).Fetch? && downloaded
                           && ChecksumOf(signerOutput).None? && !OddDigest(signerOutput)
    ensures r.Rewritten? ==>
      var url := DecideUpdate(LoadJsonFilter(raw), latestUrl).url;
      && downloaded && ChecksumOf(signerOutput).Some?
      && r.raw == RewriteCommonAsWritten(raw, url, ChecksumOf(signerOutput).value)
  {
    var step := DecideUpdate(LoadJsonFilter(raw), latestUrl);
    if !step.Fetch? then Kept(step)
    else if !downloaded then Failed
    else match ChecksumOf(signerOutput)
      case None => if OddDigest(signerOutput) then Failed else Exited
      case Some(c) => Rewritten(RewriteCommonAsWritten(raw, step.url, c))
  }

  /** The auto-update with update_common_config_file corrected: the same outcome in every case,
      except that a rewrite stores the checksum under the signature-checksum key. */
  function AutoUpdateCorrected(raw: map<string, Value>, latestUrl: Option<string>, downloaded: bool,
                               signerOutput: Option<string>): (r: Refresh)
    ensures r.Rewritten? <==> AutoUpdate(raw, latestUrl, downloaded, signerOutput).Rewritten?
    ensures !r.Rewritten? ==> r == AutoUpdate(raw, latestUrl, downloaded, signerOutput)
    ensures r.Rewritten? ==>
      var url := DecideUpdate(LoadJsonFilter(raw), latestUrl).url;
      r.raw == RewriteCommon(raw, url, ChecksumOf(signerOutput).value)
  {
    var outcome := AutoUpdate(raw, latestUrl, downloaded, signerOutput);
    if outcome.Rewritten? then
      Rewritten(RewriteCommon(raw, DecideUpdate(LoadJsonFilter(raw), latestUrl).url, ChecksumOf(signerOutput).value))
    else outcome
  }

  /** Setting the download location to the fetched URL (and a checksum under another key) makes the
      same latest release current on the next run. */
  lemma CurrentAfterRewrite(raw: map<string, Value>, latestUrl: Option<string>, key: string, checksum: string)
    requires DecideUpdate(LoadJsonFilter(raw), latestUrl).Fetch?
    requires key != GITHUB_REPO_KEY && key != DOWNLOAD_LOCATION_KEY
    ensures DecideUpdate(LoadJsonFilter(raw[DOWNLOAD_LOCATION_KEY := Str(latestUrl.value)][key := Str(checksum)]),
                         latestUrl) == UrlCurrent
  {
    DistinctKeys();
    var common := LoadJsonFilter(raw);
    var common2 := LoadJsonFilter(raw[DOWNLOAD_LOCATION_KEY := Str(latestUrl.value)][key := Str(checksum)]);
    assert KeptByLoad(GITHUB_REPO_KEY) && KeptByLoad(DOWNLOAD_LOCATION_KEY);
    assert GITHUB_REPO_KEY in common;
    assert GITHUB_REPO_KEY in common2 && common2[GITHUB_REPO_KEY] == common[GITHUB_REPO_KEY];
    assert DOWNLOAD_LOCATION_KEY in common2 && common2[DOWNLOAD_LOCATION_KEY] == Str(latestUrl.value);
  }

  /** After a rewrite, the same latest release is recognised as current: the next run does not
      download it again. */
  lemma RewrittenIsCurrent(raw: map<string, Value>, latestUrl: Option<string>, downloaded: bool,
                           signerOutput: Option<string>)
    requires AutoUpdate(raw, latestUrl, downloaded, signerOutput).Rewritten?
    ensures DecideUpdate(LoadJsonFilter(AutoUpdate(raw, latestUrl, downloaded, signerOutput).raw), latestUrl) == UrlCurrent
  {
    DistinctKeys();
    CurrentAfterRewrite(raw, latestUrl, PACKAGE_CHECKSUM_KEY, ChecksumOf(signerOutput).value);
  }

  /** The corrected auto-update is just as idempotent: its rewrite makes the release current too. */
  lemma RewrittenIsCurrentCorrected(raw: map<string, Value>, latestUrl: Option<string>, downloaded: bool,
                                    signerOutput: Option<string>)
    requires AutoUpdateCorrected(raw, latestUrl, downloaded, signerOutput).Rewritten?
    ensures DecideUpdate(LoadJsonFilter(AutoUpdateCorrected(raw, latestUrl, downloaded, signerOutput).raw), latestUrl)
            == UrlCurrent
  {
    DistinctKeys();
    CurrentAfterRewrite(raw, latestUrl, SIGNATURE_CHECKSUM_KEY, ChecksumOf(signerOutput).value);
  }

  /** As written, end to end: the QR payload built after the auto-update rewrote the file carries
      the new URL and the new signer digest under the package-checksum key, and the signature
      checksum the file had before (or none). */
  lemma AutoUpdateLeavesPayloadStale(raw: map<string, Value>, latestUrl: Option<string>, downloaded: bool,
                                     signerOutput: Option<string>)
    requires AutoUpdate(raw, latestUrl, downloaded, signerOutput).Rewritten?
    ensures var payload := PayloadBase(LoadJsonFilter(AutoUpdate(raw, latestUrl, downloaded, signerOutput).raw));
      && DOWNLOAD_LOCATION_KEY in payload && payload[DOWNLOAD_LOCATION_KEY] == Str(latestUrl.value)
      && PACKAGE_CHECKSUM_KEY in payload && payload[PACKAGE_CHECKSUM_KEY] == Str(ChecksumOf(signerOutput).value)
      && (SIGNATURE_CHECKSUM_KEY in payload <==> SIGNATURE_CHECKSUM_KEY in raw)
      && (SIGNATURE_CHECKSUM_KEY in raw ==> SIGNATURE_CHECKSUM_KEY in payload
                                            && payload[SIGNATURE_CHECKSUM_KEY] == raw[SIGNATURE_CHECKSUM_KEY])
  {
    RewriteLeavesSignatureChecksumStale(raw, latestUrl.value, ChecksumOf(signerOutput).value);
  }

  /** Corrected, end to end: the payload built after the corrected auto-update carries the new URL
      and the new signature checksum, and every other key as before. */
  lemma AutoUpdateCorrectedRefreshesPayload(raw: map<string, Value>, latestUrl: Option<string>, downloaded: bool,
                                            signerOutput: Option<string>)
    requires AutoUpdateCorrected(raw, latestUrl, downloaded, signerOutput).Rewritten?
    ensures var before := PayloadBase(LoadJsonFilter(raw));
            var after := PayloadBase(LoadJsonFilter(AutoUpdateCorrected(raw, latestUrl, downloaded, signerOutput).raw));
      && DOWNLOAD_LOCATION_KEY in after && after[DOWNLOAD_LOCATION_KEY] == Str(latestUrl.value)
      && SIGNATURE_CHECKSUM_KEY in after && after[SIGNATURE_CHECKSUM_KEY] == Str(ChecksumOf(signerOutput).value)
      && forall k :: k in before && k != DOWNLOAD_LOCATION_KEY && k != SIGNATURE_CHECKSUM_KEY
                     ==> k in after && after[k] == before[k]
  {
    RewriteRefreshesPayload(raw, latestUrl.value, ChecksumOf(signerOutput).value);
  }

  /** The finding on a concrete run: a configuration with signature checksum "A" and a new release
      whose signer line carries a 32-byte digest is rewritten, and the next payload still says "A"
      while the digest's checksum sits under the package-checksum key. */
  lemma StaleAfterAutoUpdate(digest: seq<Base64.Byte>)
    requires |digest| == 32
    ensures var raw := map[GITHUB_REPO_KEY := Str("o/r"), DOWNLOAD_LOCATION_KEY := Str("old.apk"),
                           SIGNATURE_CHECKSUM_KEY := Str("A")];
            var r := AutoUpdate(raw, Some("new.apk"), true, Some(CERTIFICATE + DIGEST_MARK + ToHex(digest)));
            && r.Rewritten?
            && var payload := PayloadBase(LoadJsonFilter(r.raw));
            && SIGNATURE_CHECKSUM_KEY in payload && payload[SIGNATURE_CHECKSUM_KEY] == Str("A")
            && PACKAGE_CHECKSUM_KEY in payload
            && payload[PACKAGE_CHECKSUM_KEY] == Str(Base64.UrlEncodeNoPad(digest))
  {
    var raw := map[GITHUB_REPO_KEY := Str("o/r"), DOWNLOAD_LOCATION_KEY := Str("old.apk"),
                   SIGNATURE_CHECKSUM_KEY := Str("A")];
    var output := Some(CERTIFICATE + DIGEST_MARK + ToHex(digest));
    SignerLineChecksum(digest);
    StaleConfigFetches(raw);
    assert AutoUpdate(raw, Some("new.apk"), true, output).Rewritten?;
    AutoUpdateLeavesPayloadStale(raw, Some("new.apk"), true, output);
  }

  /** The configuration of StaleAfterAutoUpdate names a repository and an APK URL other than the
      latest one, so the new URL is fetched. */
  lemma StaleConfigFetches(raw: map<string, Value>)
    requires raw == map[GITHUB_REPO_KEY := Str("o/r"), DOWNLOAD_LOCATION_KEY := Str("old.apk"),
                        SIGNATURE_CHECKSUM_KEY := Str("A")]
    ensures DecideUpdate(LoadJsonFilter(raw), Some("new.apk")) == Fetch("new.apk")
  {
    DistinctKeys();
    var common := LoadJsonFilter(raw);
    assert KeptByLoad(GITHUB_REPO_KEY) && KeptByLoad(DOWNLOAD_LOCATION_KEY);
    assert common[GITHUB_REPO_KEY] == Str("o/r") && common[DOWNLOAD_LOCATION_KEY] == Str("old.apk");
    assert "old.apk" != "new.apk" by { assert "old.apk"[0] != "new.apk"[0]; }
  }

}

=== FILE: setup.dfy ===
/** KioskSetupCoordinator: decides at start-up whether kiosk policies are (re)applied, applies them,
    and records the persisted flags. */
module Setup {
  import opened Wrappers
  import opened Platform
  import DeviceOwner
  import Preferences

  datatype SetupResult = Success | Skipped | NotDeviceOwner | Failed(error: Error)

  /** Setup runs when coming from provisioning, when kiosk mode is active, or when it never completed. */
  function ShouldRunSetup(fromProvisioning: bool, kioskModeActive: bool, setupCompleted: bool): (r: bool)
    ensures !r <==> !fromProvisioning && !kioskModeActive && setupCompleted
  {
    fromProvisioning || kioskModeActive || !setupCompleted
  }

  /** Calls to the feature half of the policies only. */
  ghost predicate FeatureCallsOnly(log: seq<Call>)
  {
    forall i :: 0 <= i < |log| ==> log[i].GetLockTaskFeatures? || log[i].SetLockTaskFeatures?
  }

  /** setKioskPolicies: make the kiosk the home launcher, and only then the default lock-task features. */
  method SetKioskPolicies(dpm: Authority) returns (r: Outcome<Error>, ghost homeEnd: nat)
    requires dpm.deviceOwner
    modifies dpm
    ensures |old(dpm.calls)| <= |dpm.calls| && dpm.calls[..|old(dpm.calls)|] == old(dpm.calls)
    ensures |old(dpm.calls)| <= homeEnd <= |dpm.calls|
            && DeviceOwner.HomeCallsOnly(dpm.calls[|old(dpm.calls)|..homeEnd])
            && FeatureCallsOnly(dpm.calls[homeEnd..])
    ensures DeviceOwner.HomeStepFailure(dpm).Some? ==>
              r == Fail(DeviceOwner.HomeStepFailure(dpm).value)
              && DeviceOwner.HomeCallsOnly(dpm.calls[|old(dpm.calls)|..])
    ensures DeviceOwner.HomeStepFailure(dpm).None? ==>
              (r.Pass? <==> OpGetFeatures !in dpm.failing
                            && (old(dpm.policy.lockTaskFeatures) == DeviceOwner.DEFAULT_LOCK_TASK_FEATURES
                                || OpSetFeatures !in dpm.failing))
    ensures r.Pass? ==> dpm.CurrentHome() == Some(dpm.callerPackage)
                        && dpm.policy.lockTaskFeatures == DeviceOwner.DEFAULT_LOCK_TASK_FEATURES
    ensures dpm.policy.lockTaskPackages == old(dpm.policy.lockTaskPackages)
    ensures dpm.policy.lockTaskMode == old(dpm.policy.lockTaskMode)
  {
    var launcher := DeviceOwner.SetAsHomeLauncher(dpm);
    homeEnd := |dpm.calls|;
    ghost var k := homeEnd;
    ghost var homeCalls := dpm.calls[|old(dpm.calls)|..];
    if launcher.Fail? {
      assert dpm.calls[k..] == [];
      assert dpm.calls[|old(dpm.calls)|..k] == homeCalls;
      return launcher, homeEnd;
    }
    ghost var home := dpm.CurrentHome();
    ghost var regs := dpm.policy.preferredHome;
    ghost var featuresBefore := dpm.policy.lockTaskFeatures;
    ghost var before := dpm.calls;
    r := DeviceOwner.SetLockTaskFeatures(dpm, DeviceOwner.DEFAULT_LOCK_TASK_FEATURES);
    assert dpm.policy.preferredHome == regs;
    assert dpm.calls[|old(dpm.calls)|..k] == homeCalls by {
      assert dpm.calls[..k] == before;
    }
    FeatureStepCallsOnly(featuresBefore, OpSetFeatures in dpm.failing);
    if OpGetFeatures in dpm.failing {
      assert dpm.calls[k..] == [Call.GetLockTaskFeatures];
    } else {
      assert dpm.calls[k..] == DeviceOwner.FeatureWriteCalls(featuresBefore,
        DeviceOwner.DEFAULT_LOCK_TASK_FEATURES, OpSetFeatures in dpm.failing);
    }
  }

  lemma FeatureStepCallsOnly(current: bv32, setFails: bool)
    ensures FeatureCallsOnly([Call.GetLockTaskFeatures])
    ensures FeatureCallsOnly(DeviceOwner.FeatureWriteCalls(current, DeviceOwner.DEFAULT_LOCK_TASK_FEATURES, setFails))
  {
  }

  /** The flag writes of executeSetup, in order. */
  function SetupWrites(isFirstTimeSetup: bool, kioskModeActive: bool): (w: seq<Preferences.Key>)
    ensures Preferences.InitialSetupCompleted in w <==> isFirstTimeSetup
    ensures Preferences.KioskModeActive in w <==> !kioskModeActive
    ensures |w| <= 2
  {
    (if isFirstTimeSetup then [Preferences.InitialSetupCompleted] else [])
    + (if !kioskModeActive then [Preferences.KioskModeActive] else [])
  }

  /** executeSetup: apply the policies, then persist the flags whatever the policies returned. */
  method ExecuteSetup(prefs: Preferences.KioskPreferences, dpm: Authority,
                      isFirstTimeSetup: bool, fromProvisioning: bool, kioskModeActive: bool)
    returns (r: SetupResult)
    requires dpm.deviceOwner && prefs.Valid()
    modifies prefs, dpm
    ensures prefs.Valid()
    ensures prefs.writes == old(prefs.writes) + SetupWrites(isFirstTimeSetup, kioskModeActive)
    ensures prefs.store == old(prefs.store).(
              initialSetupCompleted := if isFirstTimeSetup then Some(true) else old(prefs.store.initialSetupCompleted),
              kioskModeActive := if !kioskModeActive then Some(true) else old(prefs.store.kioskModeActive))
    ensures r.Success? || r.Failed?
    ensures r.Success? ==> dpm.CurrentHome() == Some(dpm.callerPackage)
                             && dpm.policy.lockTaskFeatures == DeviceOwner.DEFAULT_LOCK_TASK_FEATURES
    ensures DeviceOwner.HomeStepFailure(dpm).Some? ==> r == Failed(DeviceOwner.HomeStepFailure(dpm).value)
    ensures DeviceOwner.HomeStepFailure(dpm).None? ==>
              (r.Success? <==> OpGetFeatures !in dpm.failing
                                 && (old(dpm.policy.lockTaskFeatures) == DeviceOwner.DEFAULT_LOCK_TASK_FEATURES
                                     || OpSetFeatures !in dpm.failing))
  {
    var policies, _ := SetKioskPolicies(dpm);
    if isFirstTimeSetup {
      prefs.SetInitialSetupCompleted(true);
    }
    if !kioskModeActive {
      prefs.SetKioskModeActive(true);
    }
    if policies.Pass? {
      r := SetupResult.Success;
    } else {
      r := Failed(policies.error);
    }
  }

  /** determineAndExecuteSetup(fromProvisioning). */
  method DetermineAndExecuteSetup(prefs: Preferences.KioskPreferences, dpm: Authority, fromProvisioning: bool)
    returns (r: SetupResult)
    requires prefs.Valid()
    modifies prefs, dpm
    ensures prefs.Valid()
    ensures !dpm.deviceOwner ==>
              r == NotDeviceOwner && unchanged(prefs) && unchanged(dpm)
    ensures dpm.deviceOwner && !ShouldRunSetup(fromProvisioning, old(prefs.IsKioskModeActive()),
                                               old(prefs.IsInitialSetupCompleted())) ==>
              r == Skipped && unchanged(prefs) && unchanged(dpm)
    ensures dpm.deviceOwner && ShouldRunSetup(fromProvisioning, old(prefs.IsKioskModeActive()),
                                              old(prefs.IsInitialSetupCompleted())) ==>
              && (r.Success? || r.Failed?)
              && (DeviceOwner.HomeStepFailure(dpm).Some? ==> r == Failed(DeviceOwner.HomeStepFailure(dpm).value))
              && (DeviceOwner.HomeStepFailure(dpm).None? ==>
                    (r.Success? <==> OpGetFeatures !in dpm.failing
                                       && (old(dpm.policy.lockTaskFeatures) == DeviceOwner.DEFAULT_LOCK_TASK_FEATURES
                                           || OpSetFeatures !in dpm.failing)))
              && prefs.writes == old(prefs.writes) + SetupWrites(!old(prefs.IsInitialSetupCompleted()),
                                                                 old(prefs.IsKioskModeActive()))
              && prefs.IsKioskModeActive() && prefs.IsInitialSetupCompleted()
    ensures r.Success? ==> dpm.CurrentHome() == Some(dpm.callerPackage)
                             && dpm.policy.lockTaskFeatures == DeviceOwner.DEFAULT_LOCK_TASK_FEATURES
  {
    if !dpm.deviceOwner {
      return NotDeviceOwner;
    }
    var kioskModeActive := prefs.IsKioskModeActive();
    var setupCompleted := prefs.IsInitialSetupCompleted();
    var isFirstTimeSetup := !setupCompleted;
    var shouldRunSetup := fromProvisioning || kioskModeActive || isFirstTimeSetup;
    if !shouldRunSetup {
      return Skipped;
    }
    r := ExecuteSetup(prefs, dpm, isFirstTimeSetup, fromProvisioning, kioskModeActive);
  }
}

=== FILE: sorting.dfy ===
/** A stable insertion sort by a caller-given "sorts no later than" relation.
    It stands for Kotlin's stable `sortedByDescending` and for SQL's `ORDER BY`. */
module Sorting {

  /** Every pair, in order, respects `le`. */
  ghost predicate SortedBy<T>(s: seq<T>, le: (T, T) -> bool)
  {
    forall i, j :: 0 <= i < j < |s| ==> le(s[i], s[j])
  }

  /** `le` is total and transitive on the values in `s`. */
  ghost predicate PreorderOn<T>(s: seq<T>, le: (T, T) -> bool)
  {
    && (forall a, b :: a in s && b in s ==> le(a, b) || le(b, a))
    && (forall a, b, c :: a in s && b in s && c in s && le(a, b) && le(b, c) ==> le(a, c))
  }

  /** Puts `x` before the first element it sorts no later than. */
  function Insert<T>(x: T, s: seq<T>, le: (T, T) -> bool): (r: seq<T>)
    ensures multiset(r) == multiset(s) + multiset{x}
    ensures |r| == |s| + 1
  {
    if s == [] then [x]
    else if le(x, s[0]) then [x] + s
    else
      assert s == [s[0]] + s[1..];
      [s[0]] + Insert(x, s[1..], le)
  }

  function SortBy<T>(s: seq<T>, le: (T, T) -> bool): (r: seq<T>)
    ensures multiset(r) == multiset(s)
    ensures |r| == |s|
  {
    if s == [] then []
    else
      assert s == [s[0]] + s[1..];
      Insert(s[0], SortBy(s[1..], le), le)
  }

  /** A head that sorts no later than every element of a sorted tail keeps the list sorted. */
  lemma ConsSorted<T>(h: T, t: seq<T>, le: (T, T) -> bool)
    requires SortedBy(t, le)
    requires forall j :: 0 <= j < |t| ==> le(h, t[j])
    ensures SortedBy([h] + t, le)
  {
    var r := [h] + t;
    forall i, j | 0 <= i < j < |r| ensures le(r[i], r[j]) {
      assert r[j] == t[j - 1];
      if i > 0 {
        assert r[i] == t[i - 1];
      }
    }
  }

  lemma {:induction false} InsertSorted<T>(x: T, s: seq<T>, le: (T, T) -> bool)
    requires SortedBy(s, le)
    requires PreorderOn([x] + s, le)
    ensures SortedBy(Insert(x, s, le), le)
  {
    if s == [] {
    } else if le(x, s[0]) {
      forall j | 0 <= j < |s| ensures le(x, s[j]) {
        if j > 0 {
          assert le(s[0], s[j]);
          assert x in [x] + s && s[0] in [x] + s && s[j] in [x] + s;
        }
      }
      ConsSorted(x, s, le);
    } else {
      assert le(s[0], x) by { assert x in [x] + s && s[0] in [x] + s; }
      var rest := Insert(x, s[1..], le);
      assert multiset(rest) == multiset(s[1..]) + multiset{x};
      assert PreorderOn([x] + s[1..], le) by {
        forall y | y in [x] + s[1..] ensures y in [x] + s {
          if y != x { assert y in s[1..]; }
        }
      }
      InsertSorted(x, s[1..], le);
      forall j | 0 <= j < |rest| ensures le(s[0], rest[j]) {
        var y := rest[j];
        assert y in multiset(rest);
        if y != x {
          assert y in multiset(s[1..]);
          assert y in s[1..];
          var k :| 0 <= k < |s[1..]| && s[1..][k] == y;
          assert s[k + 1] == y;
        }
      }
      ConsSorted(s[0], rest, le);
    }
  }

  lemma {:induction false} SortBySorted<T>(s: seq<T>, le: (T, T) -> bool)
    requires PreorderOn(s, le)
    ensures SortedBy(SortBy(s, le), le)
  {
    if s != [] {
      assert PreorderOn(s[1..], le) by {
        forall y | y in s[1..] ensures y in s { }
      }
      SortBySorted(s[1..], le);
      var t := SortBy(s[1..], le);
      assert PreorderOn([s[0]] + t, le) by {
        forall y | y in [s[0]] + t ensures y in s {
          if y != s[0] {
            assert y in multiset(t);
            assert y in multiset(s[1..]);
          }
        }
      }
      InsertSorted(s[0], t, le);
    }
  }

  /** `a` and `b` sort at the same place: neither comes strictly before the other. */
  ghost predicate Tied<T>(a: T, b: T, le: (T, T) -> bool) { le(a, b) && le(b, a) }

  /** The elements of `s` tied with `y`, in their order in `s`. */
  ghost function TiesWith<T>(s: seq<T>, y: T, le: (T, T) -> bool): seq<T>
  {
    if s == [] then []
    else (if Tied(s[0], y, le) then [s[0]] else []) + TiesWith(s[1..], y, le)
  }

  /** One ties step: the ties of a list with head `h`. */
  lemma TiesCons<T>(h: T, t: seq<T>, y: T, le: (T, T) -> bool)
    ensures TiesWith([h] + t, y, le) == (if Tied(h, y, le) then [h] else []) + TiesWith(t, y, le)
  {
    assert ([h] + t)[0] == h && ([h] + t)[1..] == t;
  }

  /** Dropping the head of the tail keeps a preorder. */
  lemma PreorderOnTail<T>(p: seq<T>, t: seq<T>, le: (T, T) -> bool)
    requires t != [] && PreorderOn(p + t, le)
    ensures PreorderOn(p + t[1..], le)
  {
    forall z | z in p + t[1..] ensures z in p + t {
      if z !in p { assert z in t[1..]; }
    }
  }

  /** Inserting `x` puts it before every element it is tied with. */
  lemma {:induction false} InsertTies<T>(x: T, t: seq<T>, y: T, le: (T, T) -> bool)
    requires PreorderOn([x, y] + t, le)
    ensures TiesWith(Insert(x, t, le), y, le) == (if Tied(x, y, le) then [x] else []) + TiesWith(t, y, le)
  {
    if t == [] {
      TiesCons(x, [], y, le);
    } else if le(x, t[0]) {
      TiesCons(x, t, y, le);
    } else {
      var rest := Insert(x, t[1..], le);
      assert Insert(x, t, le) == [t[0]] + rest;
      PreorderOnTail([x, y], t, le);
      InsertTies(x, t[1..], y, le);
      TiesCons(t[0], rest, y, le);
      TiesCons(t[0], t[1..], y, le);
      assert t == [t[0]] + t[1..];
      if Tied(x, y, le) && Tied(t[0], y, le) {
        assert false;
      }
    }
  }

  /** The sort is stable: the elements tied with any `y` come out in the order they went in. */
  lemma {:induction false} SortByStable<T>(s: seq<T>, y: T, le: (T, T) -> bool)
    requires PreorderOn([y] + s, le)
    ensures TiesWith(SortBy(s, le), y, le) == TiesWith(s, y, le)
  {
    if s != [] {
      assert PreorderOn([y] + s[1..], le) by {
        forall z | z in [y] + s[1..] ensures z in [y] + s {
          if z != y { assert z in s[1..]; }
        }
      }
      SortByStable(s[1..], y, le);
      var t := SortBy(s[1..], le);
      assert PreorderOn([s[0], y] + t, le) by {
        forall z | z in [s[0], y] + t ensures z in [y] + s {
          if z != s[0] && z != y {
            assert z in multiset(t);
            assert z in multiset(s[1..]);
          }
        }
      }
      InsertTies(s[0], t, y, le);
    }
  }
}

=== FILE: text.dfy ===
/** String helpers with the semantics of the Kotlin and Python standard calls the source uses. */
module Text {

  /** `s.startsWith(prefix)` */
  predicate StartsWith(s: string, prefix: string)
  {
    |prefix| <= |s| && s[..|prefix|] == prefix
  }

  /** `s.endsWith(suffix)` */
  predicate EndsWith(s: string, suffix: string)
  {
    |suffix| <= |s| && s[|s| - |suffix|..] == suffix
  }

  /** Kotlin's `removePrefix`: drops the prefix once when it is there. */
  function RemovePrefix(s: string, prefix: string): (r: string)
    ensures StartsWith(s, prefix) ==> prefix + r == s
    ensures !StartsWith(s, prefix) ==> r == s
  {
    if StartsWith(s, prefix) then s[|prefix|..] else s
  }

  /** Kotlin `split(".")` / Python `split('\n')` with a one-character separator:
      every separator ends a piece, so there is always one piece more than separators. */
  function Split(s: string, sep: char): (parts: seq<string>)
    ensures |parts| == Count(s, sep) + 1
    ensures forall i :: 0 <= i < |parts| ==> sep !in parts[i]
  {
    if s == [] then [""]
    else
      var rest := Split(s[1..], sep);
      if s[0] == sep then [""] + rest
      else [[s[0]] + rest[0]] + rest[1..]
  }

  /** Number of occurrences of `c` in `s`. */
  function Count(s: string, c: char): nat
  {
    if s == [] then 0 else (if s[0] == c then 1 else 0) + Count(s[1..], c)
  }

  /** Inverse of Split: the pieces glued back with the separator. */
  function Join(parts: seq<string>, sep: char): string
    requires |parts| >= 1
  {
    if |parts| == 1 then parts[0] else parts[0] + [sep] + Join(parts[1..], sep)
  }

  /** Splitting loses nothing: gluing the pieces back gives the input. */
  lemma {:induction false} JoinSplit(s: string, sep: char)
    ensures Join(Split(s, sep), sep) == s
  {
    if s != [] {
      JoinSplit(s[1..], sep);
      var rest := Split(s[1..], sep);
      if s[0] != sep {
        if |rest| == 1 {
        } else {
          assert Join(rest, sep) == rest[0] + [sep] + Join(rest[1..], sep);
          assert [[s[0]] + rest[0]] + rest[1..] == [[s[0]] + rest[0]] + rest[1..];
          assert ([[s[0]] + rest[0]] + rest[1..])[1..] == rest[1..];
        }
      }
    }
  }

  /** Kotlin `Char.isWhitespace()`: Java's `isWhitespace` or `isSpaceChar`
      (the Unicode space, line and paragraph separators and the ASCII controls
      TAB, LF, VT, FF, CR and FS to US). */
  predicate IsWhitespace(c: char)
  {
    || c == ' ' || ('\t' <= c <= '\r') || ('\U{1C}' <= c <= '\U{1F}')
    || c == '\U{A0}' || c == '\U{1680}' || ('\U{2000}' <= c <= '\U{200A}')
    || c == '\U{2028}' || c == '\U{2029}' || c == '\U{202F}' || c == '\U{205F}' || c == '\U{3000}'
  }

  /** Kotlin `isBlank()`: empty or whitespace only. */
  predicate IsBlank(s: string)
  {
    forall i :: 0 <= i < |s| ==> IsWhitespace(s[i])
  }

  /** Lexicographic order on code points: SQLite's BINARY collation on UTF-8 text,
      which orders strings as their code point sequences. */
  predicate StrLe(a: string, b: string)
  {
    if a == [] then true
    else if b == [] then false
    else if a[0] != b[0] then a[0] < b[0]
    else StrLe(a[1..], b[1..])
  }

  lemma {:induction false} StrLeTotal(a: string, b: string)
    ensures StrLe(a, b) || StrLe(b, a)
  {
    if a != [] && b != [] && a[0] == b[0] {
      StrLeTotal(a[1..], b[1..]);
    }
  }

  lemma {:induction false} StrLeTransitive(a: string, b: string, c: string)
    requires StrLe(a, b) && StrLe(b, c)
    ensures StrLe(a, c)
  {
    if a != [] && b != [] && c != [] && a[0] == b[0] && b[0] == c[0] {
      StrLeTransitive(a[1..], b[1..], c[1..]);
    }
  }
}

=== FILE: versions.dfy ===
/** UpdateRepository: version-string comparison and the update record derived from a release. */
module Versions {
  import opened Wrappers
  import Text

  /** The range of a Kotlin Int. */
  const INT_MIN: int := -0x8000_0000
  const INT_MAX: int := 0x7FFF_FFFF

  predicate IsDigit(c: char) { '0' <= c <= '9' }

  predicate AllDigits(s: string) { forall i :: 0 <= i < |s| ==> IsDigit(s[i]) }

  /** The value of a non-empty or empty run of decimal digits, most significant first. */
  function DigitsValue(s: string): nat
    requires AllDigits(s)
  {
    if s == [] then 0 else DigitsValue(s[..|s| - 1]) * 10 + (s[|s| - 1] as int - '0' as int)
  }

  /** String.toIntOrNull(): an optional sign, then at least one decimal digit, within Int range. */
  function ToIntOrNull(s: string): (r: Option<int>)
    ensures r.Some? ==> INT_MIN <= r.value <= INT_MAX
    ensures r.Some? ==> s != [] && (IsDigit(s[0]) || s[0] == '-' || s[0] == '+')
    ensures s == [] || s == "-" || s == "+" ==> r.None?
  {
    if s == [] then None
    else
      var digits := if s[0] == '-' || s[0] == '+' then s[1..] else s;
      if digits == [] || !AllDigits(digits) then None
      else
        var v: int := if s[0] == '-' then -(DigitsValue(digits) as int) else DigitsValue(digits);
        if INT_MIN <= v <= INT_MAX then Some(v) else None
  }

  /** Decimal digits of a natural number, without leading zeros. */
  function DecimalString(n: nat): (r: string)
    ensures r != []
  {
    var d := ['0' + (n % 10) as char];
    if n < 10 then d else DecimalString(n / 10) + d
  }

  lemma {:induction false} DecimalStringValue(n: nat)
    ensures AllDigits(DecimalString(n)) && DigitsValue(DecimalString(n)) == n
  {
    if n >= 10 {
      DecimalStringValue(n / 10);
      var s := DecimalString(n);
      assert s[..|s| - 1] == DecimalString(n / 10);
    }
  }

  /** The decimal spelling of an Int, with '-' for negatives. */
  function IntString(n: int): string
  {
    if n < 0 then "-" + DecimalString(-n) else DecimalString(n)
  }

  /** toIntOrNull inverts the decimal spelling of every Int. */
  lemma ToIntOrNullOfIntString(n: int)
    requires INT_MIN <= n <= INT_MAX
    ensures ToIntOrNull(IntString(n)) == Some(n)
  {
    if n < 0 {
      DecimalStringValue(-n);
      assert IntString(n)[1..] == DecimalString(-n);
    } else {
      DecimalStringValue(n);
    }
  }

  /** Out of Int range reads as null. */
  lemma ToIntOrNullOverflow(n: nat)
    requires n > INT_MAX
    ensures ToIntOrNull(DecimalString(n)) == None
  {
    DecimalStringValue(n);
  }

  /** One dot-separated component: its integer value, or 0 when it is not an Int. */
  function PartValue(s: string): int
  {
    match ToIntOrNull(s)
    case Some(v) => v
    case None => 0
  }

  function PartValues(parts: seq<string>): (r: seq<int>)
    ensures |r| == |parts|
    ensures forall i :: 0 <= i < |parts| ==> r[i] == PartValue(parts[i])
  {
    if parts == [] then [] else [PartValue(parts[0])] + PartValues(parts[1..])
  }

  /** v.split(".").map { it.toIntOrNull() ?: 0 } */
  function Parts(v: string): (r: seq<int>)
    ensures |r| == Text.Count(v, '.') + 1
  {
    PartValues(Text.Split(v, '.'))
  }

  /** parts.getOrNull(i) ?: 0 */
  function PartAt(p: seq<int>, i: nat): int
  {
    if i < |p| then p[i] else 0
  }

  function Max(a: nat, b: nat): nat { if a < b then b else a }

  /** Lexicographic comparison from index i, missing components read as 0; -1, 0 or 1. */
  function CompareFrom(p1: seq<int>, p2: seq<int>, i: nat): (r: int)
    ensures -1 <= r <= 1
    decreases Max(|p1|, |p2|) - i
  {
    if i >= |p1| && i >= |p2| then 0
    else if PartAt(p1, i) != PartAt(p2, i) then (if PartAt(p1, i) < PartAt(p2, i) then -1 else 1)
    else CompareFrom(p1, p2, i + 1)
  }

  function Compare(p1: seq<int>, p2: seq<int>): int
  {
    CompareFrom(p1, p2, 0)
  }

  /** compareVersions(v1, v2): split both versions into components, then compare them. */
  method CompareVersions(v1: string, v2: string) returns (r: int)
    ensures r == Compare(Parts(v1), Parts(v2))
  {
    r := CompareParts(Parts(v1), Parts(v2));
  }

  /** The scan of compareVersions: walk the components until the first one that differs. */
  method CompareParts(parts1: seq<int>, parts2: seq<int>) returns (r: int)
    ensures r == Compare(parts1, parts2)
  {
    var maxLength := Max(|parts1|, |parts2|);
    for i := 0 to maxLength
      invariant CompareFrom(parts1, parts2, i) == Compare(parts1, parts2)
    {
      var part1 := if i < |parts1| then parts1[i] else 0;
      var part2 := if i < |parts2| then parts2[i] else 0;
      if part1 != part2 {
        return if part1 < part2 then -1 else 1;
      }
    }
    return 0;
  }

  /** The components agree everywhere, missing ones reading as 0. */
  predicate SameComponents(p1: seq<int>, p2: seq<int>)
  {
    forall i: nat :: i < Max(|p1|, |p2|) ==> PartAt(p1, i) == PartAt(p2, i)
  }

  lemma {:induction false} CompareFromZero(p1: seq<int>, p2: seq<int>, i: nat)
    ensures CompareFrom(p1, p2, i) == 0
            <==> forall j: nat :: i <= j < Max(|p1|, |p2|) ==> PartAt(p1, j) == PartAt(p2, j)
    decreases Max(|p1|, |p2|) - i
  {
    if !(i >= |p1| && i >= |p2|) && PartAt(p1, i) == PartAt(p2, i) {
      CompareFromZero(p1, p2, i + 1);
    }
  }

  /** Versions compare equal exactly when their components agree, missing ones reading as 0. */
  lemma CompareZeroIff(p1: seq<int>, p2: seq<int>)
    ensures Compare(p1, p2) == 0 <==> SameComponents(p1, p2)
  {
    CompareFromZero(p1, p2, 0);
  }

  /** compareVersions(v, v) == 0 */
  lemma CompareReflexive(v: string)
    ensures Compare(Parts(v), Parts(v)) == 0
  {
    CompareZeroIff(Parts(v), Parts(v));
  }

  /** Trailing zero components change nothing: "1.0" and "1.0.0" compare equal. */
  lemma TrailingZerosIgnored(p: seq<int>, zeros: seq<int>)
    requires forall i :: 0 <= i < |zeros| ==> zeros[i] == 0
    ensures Compare(p, p + zeros) == 0 && Compare(p + zeros, p) == 0
  {
    assert SameComponents(p, p + zeros);
    assert SameComponents(p + zeros, p);
    CompareZeroIff(p, p + zeros);
    CompareZeroIff(p + zeros, p);
  }

  /** The first differing component decides the sign. */
  lemma {:induction false} FirstDifferenceDecides(p1: seq<int>, p2: seq<int>, k: nat)
    requires forall j: nat :: j < k ==> PartAt(p1, j) == PartAt(p2, j)
    requires PartAt(p1, k) != PartAt(p2, k)
    ensures Compare(p1, p2) == if PartAt(p1, k) < PartAt(p2, k) then -1 else 1
  {
    var i := 0;
    while i < k
      invariant 0 <= i <= k
      invariant CompareFrom(p1, p2, i) == Compare(p1, p2)
    {
      i := i + 1;
    }
  }

  lemma {:induction false} CompareFromAntisymmetric(p1: seq<int>, p2: seq<int>, i: nat)
    ensures CompareFrom(p1, p2, i) == -CompareFrom(p2, p1, i)
    decreases Max(|p1|, |p2|) - i
  {
    if !(i >= |p1| && i >= |p2|) && PartAt(p1, i) == PartAt(p2, i) {
      CompareFromAntisymmetric(p1, p2, i + 1);
    }
  }

  /** sign(compareVersions(a, b)) == -sign(compareVersions(b, a)) */
  lemma CompareAntisymmetric(p1: seq<int>, p2: seq<int>)
    ensures Compare(p1, p2) == -Compare(p2, p1)
  {
    CompareFromAntisymmetric(p1, p2, 0);
  }

  function Max3(a: nat, b: nat, c: nat): nat { Max(Max(a, b), c) }

  lemma {:induction false} CompareFromTransitive(a: seq<int>, b: seq<int>, c: seq<int>, i: nat)
    requires CompareFrom(a, b, i) == -1 && CompareFrom(b, c, i) == -1
    ensures CompareFrom(a, c, i) == -1
    decreases Max3(|a|, |b|, |c|) - i
  {
    if PartAt(a, i) == PartAt(b, i) && PartAt(b, i) == PartAt(c, i) {
      CompareFromTransitive(a, b, c, i + 1);
    }
  }

  /** "older than" is transitive. */
  lemma CompareTransitive(a: seq<int>, b: seq<int>, c: seq<int>)
    requires Compare(a, b) < 0 && Compare(b, c) < 0
    ensures Compare(a, c) < 0
  {
    CompareFromTransitive(a, b, c, 0);
  }

  // ---------------------------------------------------------------- the update record

  /** The parts of a GitHub release asset the update check reads. */
  datatype Asset = Asset(name: string, downloadUrl: string, size: int)

  /** The parts of a GitHub release the update check reads. */
  datatype Release = Release(tagName: string, body: Option<string>, assets: seq<Asset>)

  datatype AppUpdateInfo = AppUpdateInfo(
    currentVersion: string,
    latestVersion: string,
    isUpdateAvailable: bool,
    releaseNotes: Option<string>,
    downloadUrl: Option<string>,
    apkSize: Option<int>)

  /** Char equality ignoring case, for a character `c` of the suffix ".apk": the ASCII upper case
      letter matches, and the Kelvin sign U+212A also matches 'k' (its lower case is 'k'). */
  predicate SuffixCharMatches(c: char, lower: char)
  {
    c == lower
    || ('a' <= lower <= 'z' && c as int == lower as int - 32)
    || (lower == 'k' && c == '\U{212A}')
  }

  /** name.endsWith(".apk", ignoreCase = true) */
  predicate IsApkName(name: string)
  {
    |name| >= 4 && forall i :: 0 <= i < 4 ==> SuffixCharMatches(name[|name| - 4 + i], ".apk"[i])
  }

  /** The position of assets.firstOrNull { it.name.endsWith(".apk", ignoreCase = true) } */
  function FirstApkIndex(assets: seq<Asset>): (r: Option<nat>)
    ensures r.None? <==> forall i :: 0 <= i < |assets| ==> !IsApkName(assets[i].name)
    ensures r.Some? ==> r.value < |assets| && IsApkName(assets[r.value].name)
                        && forall j :: 0 <= j < r.value ==> !IsApkName(assets[j].name)
  {
    if assets == [] then None
    else if IsApkName(assets[0].name) then Some(0)
    else
      match FirstApkIndex(assets[1..])
      case None => None
      case Some(k) => Some(k + 1)
  }

  /** checkForUpdates after the fetch: a failed fetch (its exception message, possibly null) is passed
      on, otherwise the record is derived. */
  function CheckForUpdates(currentVersion: string, fetched: Result<Release, Option<string>>)
    : (r: Result<AppUpdateInfo, Option<string>>)
    ensures r.Failure? <==> fetched.Failure?
    ensures fetched.Failure? ==> r.error == fetched.error
    ensures r.Success? ==>
              var info := r.value;
              var tag := fetched.value.tagName;
              && info.currentVersion == currentVersion
              && (if Text.StartsWith(tag, "v") then "v" + info.latestVersion == tag else info.latestVersion == tag)
              && info.releaseNotes == fetched.value.body
              && (info.downloadUrl.None? <==> forall i :: 0 <= i < |fetched.value.assets| ==> !IsApkName(fetched.value.assets[i].name))
              && (info.downloadUrl.None? <==> info.apkSize.None?)
              && (info.downloadUrl.Some? ==>
                    exists k :: 0 <= k < |fetched.value.assets|
                                && IsApkName(fetched.value.assets[k].name)
                                && info.downloadUrl == Some(fetched.value.assets[k].downloadUrl)
                                && info.apkSize == Some(fetched.value.assets[k].size)
                                && forall j :: 0 <= j < k ==> !IsApkName(fetched.value.assets[j].name))
  {
    match fetched
    case Failure(e) => Failure(e)
    case Success(release) =>
      var latestVersion := Text.RemovePrefix(release.tagName, "v");
      var apkAsset := FirstApkIndex(release.assets);
      Success(AppUpdateInfo(
        currentVersion,
        latestVersion,
        Compare(Parts(currentVersion), Parts(latestVersion)) < 0,
        release.body,
        if apkAsset.Some? then Some(release.assets[apkAsset.value].downloadUrl) else None,
        if apkAsset.Some? then Some(release.assets[apkAsset.value].size) else None))
  }

  /** A release tagged "v" + the running version is not an update. */
  lemma SameVersionNotAnUpdate(currentVersion: string, release: Release)
    requires release.tagName == "v" + currentVersion
    ensures !CheckForUpdates(currentVersion, Success(release)).value.isUpdateAvailable
  {
    assert Text.StartsWith(release.tagName, "v");
    CompareReflexive(currentVersion);
  }

  /** An update is offered exactly when the latest version is newer; the two versions are never
      newer than each other. */
  lemma UpdateAvailableIffNewer(currentVersion: string, release: Release)
    ensures var info := CheckForUpdates(currentVersion, Success(release)).value;
            info.isUpdateAvailable <==> Compare(Parts(info.latestVersion), Parts(currentVersion)) > 0
  {
    var info := CheckForUpdates(currentVersion, Success(release)).value;
    CompareAntisymmetric(Parts(info.latestVersion), Parts(currentVersion));
  }
}

=== FILE: wrappers.dfy ===
/** Failure-carrying values shared by every module of the model. */
module Wrappers {

  /** Kotlin's nullable `T?` and Python's `None`. */
  datatype Option<T> = None | Some(value: T)

  /** Kotlin's `Result<T>`: a value, or the exception that was thrown. */
  datatype Result<T, E> = Success(value: T) | Failure(error: E)

  /** Kotlin's `Result<Unit>`: nothing, or the exception that was thrown. */
  datatype Outcome<E> = Pass | Fail(error: E)
}
